=== FILE: README.md ===
# CB.Subtitles in Dafny

A model of the CB.Subtitles library, with proofs about it. The library reads and
writes subtitle files in the SubStation Alpha (`.ass`) and SubRip (`.srt`)
formats. It models:

* a **subtitle** (`Subtitle`) as an ordered list of **items**;
* an item (`SubtitleItem`) as a begin time, an end time and a list of
  **lines**;
* a line (`SubtitleLine`) as a run of text with one **format** and one colour.
  The format (`TextFormat`) is a byte of flags: bold, italic, underline and
  strikethrough.

The model covers the following.

* **Reading.**
  * TryParseFromAss and TryParseFromSrt become methods of the `Subtitle`
    class. Each is proved against a specification function of the whole file
    (`ParseAss`, `ParseSrt`).
  * Those functions are built from the reader of one line or one cue
    (`Dialogue`, `SrtCue`). They in turn use FillAssLines and FillSrtLines, the
    decomposition of a cue's marked-up text into formatted lines (module
    `Decompose`).
* **Writing.**
  * SubtitleLine.ToSrtString, SubtitleItem.ToSrtString with its format-diff
    helpers, and Subtitle.RecordToSrt.
  * Each is written over a sequence of markup pieces (`SrtMarkup.Piece`:
    tags and text chunks). That is how the proofs show the following:
    * Stripping the tags from the written text gives back the cue's text.
      This holds when no line's content or colour contains `<` or `>`.
    * Splitting a written cue on `<` and `>` gives the text and the tag
      names in alternation. The same condition applies.
    * The tags written between two lines turn the first line's format into
      the second's.
    * A written time line reads back through the SRT reader as a cue with
      its times. This holds when the time parser reads each written stamp
      back as that time.
* **Re-timing.**
  * Shifting by a delta, rescaling a range of items onto a new start and end,
    and synchronising with another subtitle.
  * The looking-up of the item shown at a time.
* **File-name handling.** Recognising a format from a file name or an extension.
* **Encoding detection.** Detecting the encoding from a byte order mark.

Time values are .NET ticks (`int`, kept within the 64-bit TimeSpan range where
an operation could leave it). Parsing a time string (`TimeSpan.TryParse`, with a
French and then the current culture for SRT, the current culture for ASS) is a
parameter of type `string -> Option<int>`. The rescaling arithmetic
(`double` ratio and `TimeSpan.FromMilliseconds`) is a parameter `Scale`.

A reading method cannot be stated as a plain function: the source adds each
item to the subtitle as it reads it, stops early on a malformed line and can
throw. Each specification function therefore returns the cues read together
with how the reading ended: `Finished`, `Rejected` (the method returns false) or
`Threw`. The methods return an `Outcome`, `Returned(b)` or `Raised`. They are
proved to append exactly the cues of the specification, and to raise exactly
when it says `Threw`.

## Model

| member | source | states |
|---|---|---|
| TextFormats.FromStyles | CB.Subtitles/TextFormat.cs:7-13 | a set of styles gives the flag byte holding exactly those styles, and nothing above the four flag bits |
| TextFormats.Set | CB.Subtitles/Subtitle.cs:316-327 | `format \|= flag` adds exactly that style and leaves the high bits alone |
| TextFormats.Clear | CB.Subtitles/Subtitle.cs:328-343 | the HasFlag-guarded `format &= ~flag` removes exactly that style and leaves the high bits alone |
| TextFormats.FlagsAreSingleBits | CB.Subtitles/TextFormat.cs:10-13 | each style is one bit below 16, and distinct styles share no bit |
| TextFormats.FormatIsStyleSet | CB.Subtitles/TextFormat.cs:7-13 | every format below 16 is exactly the flag byte of its set of styles |
| TextFormats.NoneAlwaysPresent | CB.Subtitles/TextFormat.cs:9 | HasFlag(None) holds for every format, and None has no style |
| TextFormats.ValuesAscend | CB.Subtitles/TextFormat.cs:9-13 | Enum.GetValues lists None, Bold, Italic, Underline, Strikethrough in strictly ascending order |
| TextFormats.ComplementIsNoFormat | CB.Subtitles/SubtitleItem.cs:104-111 | the complement `~flag` of a style is at least 16, so it is never a format of four flags and never equal to any style's bit |
| Encodings.Detect | CB.Subtitles/EncodingDetector.cs:15-23 | the encoding is that of the first byte order mark (UTF-32 LE, UTF-16 LE, UTF-16 BE) the bytes read start with, UTF-8 when none |
| Encodings.MarkTable | CB.Subtitles/EncodingDetector.cs:16-23 | the same decision written out as the source's chain of tests |
| Encodings.OnlyReadBytesMatter | CB.Subtitles/EncodingDetector.cs:15 | bytes beyond the count read do not change the result |
| Encodings.Utf32BeforeUtf16 | CB.Subtitles/EncodingDetector.cs:16-20 | FF FE 00 00 is UTF-32 only when all four bytes were read; otherwise FF FE is UTF-16 LE |
| Encodings.DefaultsToUtf8 | CB.Subtitles/EncodingDetector.cs:18-23 | fewer than two bytes, the UTF-8 mark and the UTF-32 BE mark all give UTF-8 |
| Strings.SplitTokens | CB.Subtitles/Subtitle.cs:302 | String.Split on a set of characters gives delimiter-free tokens, one more than the delimiters, whose concatenation is the string without delimiters |
| Strings.SplitRemoveEmpty | CB.Subtitles/Subtitle.cs:461 | splitting with RemoveEmptyEntries gives non-empty separator-free tokens that concatenate to the string without separators |
| Strings.SplitRemoveEmptyNil | CB.Subtitles/Subtitle.cs:461 | the empty string splits into no tokens |
| Strings.SplitRemoveEmptyOne | CB.Subtitles/Subtitle.cs:461 | a non-empty separator-free string is its own single token |
| Strings.SplitRemoveEmptySkip | CB.Subtitles/Subtitle.cs:461 | a leading separator produces no token |
| Strings.SplitRemoveEmptyCons | CB.Subtitles/Subtitle.cs:461 | a non-empty separator-free word followed by a separator is the first token, and the rest splits on its own |
| Strings.SplitMax | CB.Subtitles/Subtitle.cs:427 | splitting into at most count fields gives between 1 and count fields that join back to the line, all but the last free of the separator |
| Strings.TrimEnd | CB.Subtitles/Subtitle.cs:476 | the result is the longest prefix whose last character is not trimmed: everything removed is in the trim set |
| Strings.ToLower | CB.Subtitles/Subtitle.cs:137 | lower-casing keeps the length and maps each character on its own |
| SrtMarkup.SplitRender | CB.Subtitles/Subtitle.cs:351 | splitting rendered clean pieces on `<` and `>` gives the chunk and tag-name tokens in alternation |
| SrtMarkup.OutsideTagsOfRender | CB.Subtitles/Subtitle.cs:351-361 | keeping the even tokens of rendered clean pieces gives back exactly their text chunks |
| Lines.SwitchTags | CB.Subtitles/SubtitleLine.cs:26-44 | each single flag gives its own opening and closing tag, None gives none |
| Lines.NoFlagNoTags | CB.Subtitles/SubtitleLine.cs:22 | a line without format gets no format tags |
| Lines.VisitAll | CB.Subtitles/SubtitleLine.cs:25-45 | visiting the enum values in order yields the opening and closing tags of the set flags in declaration order |
| Lines.FormatTags | CB.Subtitles/SubtitleLine.cs:21-46 | the loop's two strings are the opening and the closing tags of the line's flags, in declaration order |
| Lines.SubtitleLine.ToSrtString | CB.Subtitles/SubtitleLine.cs:13-48 | the result is the colour tag, the format tags, the content, the closing format tags and the closing colour tag |
| Lines.LineRender | CB.Subtitles/SubtitleLine.cs:47 | the written line is the rendering of its piece sequence |
| Lines.LineText | CB.Subtitles/SubtitleLine.cs:47 | the content is the only text chunk of the written line |
| Lines.LineOutsideTags | CB.Subtitles/SubtitleLine.cs:15-47 | for content and colour without `<` or `>`, stripping the tags from the written line gives back the content |
| Lines.LinePlain | CB.Subtitles/SubtitleLine.cs:15-47 | a line without colour and format is written as its bare content |
| Lines.LineColorOutermost | CB.Subtitles/SubtitleLine.cs:16-20 | a coloured line starts with its font tag and ends with `</font>` |
| Lines.BoldItalicExample | CB.Subtitles/SubtitleLine.cs:25-47 | bold italic "x" is written `<b><i>x</b></i>` (the tags close in opening order) |
| Items.Stamp | CB.Subtitles/SubtitleItem.cs:50 | defines `ToString(@"hh\:mm\:ss\,fff")`: hours within the day, minutes, seconds and milliseconds of the time's magnitude, two or three digits each |
| Items.StampRoundTrip | CB.Subtitles/SubtitleItem.cs:50 | the `hh:mm:ss,fff` stamp is 12 characters and reads back as the time's milliseconds within its day |
| Items.GetSrtFormatString | CB.Subtitles/SubtitleItem.cs:92-115 | a flag gives its opening tag, a flag's complement its closing tag, anything else "" |
| Items.GetSrtDifferentFormatString | CB.Subtitles/SubtitleItem.cs:75-90 | the loop's result closes each style the old format has and the new lacks, and opens each the new has and the old lacks, in declaration order |
| Items.DiffTagStyle | CB.Subtitles/SubtitleItem.cs:78-88 | the None value contributes no tag; every other value contributes its style's change |
| Items.DiffByStyle | CB.Subtitles/SubtitleItem.cs:75-90 | the format diff is the rendering of one closing or opening tag per changed style |
| Items.DiffSameEmpty | CB.Subtitles/SubtitleItem.cs:75-90 | equal formats give no tags |
| Items.DiffWithNone | CB.Subtitles/SubtitleItem.cs:66 | the diff from None opens every flag of a format and the diff to None closes every one, exactly as a single line's own tags |
| Items.DiffPiecesTagsOnly | CB.Subtitles/SubtitleItem.cs:75-90 | a format diff holds tags only, no text |
| Items.ColorChangeRender | CB.Subtitles/SubtitleItem.cs:55-62 | a colour change closes the previous non-empty colour and opens the next non-empty one; no change writes nothing |
| Items.RunPiecesRender | CB.Subtitles/SubtitleItem.cs:55-64 | each line is written as its colour change, its format diff from the previous line, then its content |
| Items.ClosingRender | CB.Subtitles/SubtitleItem.cs:66-68 | after the last line every open format is closed, then the open colour |
| Items.WriteLine | CB.Subtitles/SubtitleItem.cs:53-65 | one ForEach step appends the colour change, format diff and content, and remembers the line's format and colour |
| Items.CueSrt | CB.Subtitles/SubtitleItem.cs:47-70 | defines an item's SRT text: its time line and then the rendering of its lines' pieces |
| Items.SubtitleItem.ToSrtString | CB.Subtitles/SubtitleItem.cs:47-70 | the result is the time line followed by the rendered body of the item's lines |
| Items.BodyText | CB.Subtitles/SubtitleItem.cs:53-68 | the text chunks of a written body are exactly the concatenated contents of its lines |
| Items.BodyOutsideTags | CB.Subtitles/SubtitleItem.cs:53-68 | for contents and colours without `<` or `>`, stripping the tags from a written body gives back the item's Text |
| Items.SingleLine | CB.Subtitles/SubtitleItem.cs:53-68 | a one-line item's body is exactly that line's own ToSrtString |
| Items.SameStyleRun | CB.Subtitles/SubtitleItem.cs:55-63 | a line with the colour and format of the line before is written as its bare content |
| Items.SubtitleItem.constructor | CB.Subtitles/SubtitleItem.cs:11-14 | a new item starts at zero with no lines |
| Items.SubtitleItem.Text | CB.Subtitles/SubtitleItem.cs:24-32 | defines the Text property: the contents of the lines, in order, with nothing between them |
| Items.SubtitleItem.Duration | CB.Subtitles/SubtitleItem.cs:20 | begin plus duration is end |
| Items.SubtitleItem.GetDuration | CB.Subtitles/SubtitleItem.cs:42-45 | returns the Duration: begin plus it is end |
| Items.SubtitleItem.AddLine | CB.Subtitles/SubtitleItem.cs:37-40 | appends exactly the new line, so Text grows by its content |
| Decompose.AllRuns | CB.Subtitles/Subtitle.cs:304-311 | the lines made from the even tokens are those tokens minus the empty ones, in order, each with the style in force at it |
| Decompose.AssStep | CB.Subtitles/Subtitle.cs:314-343 | defines the switch on one ASS override code: set or clear the style it names, anything else leaves the format; the high bits are kept |
| Decompose.AssStepStyle | CB.Subtitles/Subtitle.cs:314-343 | `\b1` and the like add a style; `\b0` and `\b` remove it |
| Decompose.AssStepOther | CB.Subtitles/Subtitle.cs:314-344 | any other override code leaves the format unchanged |
| Decompose.AssFormat | CB.Subtitles/Subtitle.cs:303-345 | the format in force stays within the four flags |
| Decompose.AssLoopStep | CB.Subtitles/Subtitle.cs:304-346 | one iteration adds the non-empty even token in the current format, and odd tokens update the format |
| Decompose.FillAssLines | CB.Subtitles/Subtitle.cs:300-347 | appends exactly the lines of the specification to the item |
| Decompose.AddAssRuns | CB.Subtitles/Subtitle.cs:303-346 | the loop appends, in order, one line per non-empty even token, carrying the format the codes before it set and no colour |
| Decompose.AssLinesContents | CB.Subtitles/Subtitle.cs:302-311 | the ASS lines are the non-empty text between `{`…`}` override blocks, uncoloured, within the four flags |
| Decompose.AssExample | CB.Subtitles/Subtitle.cs:302-344 | `{\b1}Hello {\i1}world{\i0}!{\b0}` becomes bold "Hello ", bold italic "world", bold "!" |
| Decompose.SrtStep | CB.Subtitles/Subtitle.cs:362-397 | defines the switch on one SRT tag: set or clear a style, push the colour of a `font color="…"` tag, pop on `/font` when the stack is not empty, anything else leaves the state; the high bits are kept |
| Decompose.SrtStepStyle | CB.Subtitles/Subtitle.cs:366-389 | `b`…`s` add a style and `/b`…`/s` remove it, leaving the colours alone |
| Decompose.SrtStepOther | CB.Subtitles/Subtitle.cs:364-397 | other tags leave the format alone, and other than font tags change nothing |
| Decompose.FontPush | CB.Subtitles/Subtitle.cs:393-395 | a `font color="c"` tag pushes c onto the colour stack |
| Decompose.FontPop | CB.Subtitles/Subtitle.cs:390-392 | `/font` pops the colour stack, and does nothing on an empty one |
| Decompose.SrtStateAt | CB.Subtitles/Subtitle.cs:352-399 | the format in force stays within the four flags |
| Decompose.SwitchTag | CB.Subtitles/Subtitle.cs:362-397 | a tag token moves the decoder to exactly the state the tags up to and including it define |
| Decompose.FillSrtLines | CB.Subtitles/Subtitle.cs:349-400 | appends exactly the lines of the specification to the item: each text token takes the current format and the top of the colour stack ("" when empty) |
| Decompose.DiffApplies | CB.Subtitles/Subtitle.cs:364-389 | decoding the tags of a format diff over any list of distinct styles sets exactly those styles as the new format has them, and leaves the other styles, the high bits and the colour stack alone |
| Decompose.DiffTurnsOldIntoNew | CB.Subtitles/SubtitleItem.cs:75-90 | the tags written between two lines, read back by the SRT decoder, turn the first line's format into the second's and leave the colour stack unchanged |
| Decompose.AddSrtRuns | CB.Subtitles/Subtitle.cs:352-399 | the loop appends, in order, one line per non-empty even token, carrying the format and the top colour the tags before it set |
| Decompose.SrtLinesContents | CB.Subtitles/Subtitle.cs:351-361 | the SRT lines are the non-empty text between tags, and together they are the text with its tags stripped |
| Decompose.SrtExample | CB.Subtitles/Subtitle.cs:351-396 | `Hello <font color="red">World</font>!` becomes "Hello ", red "World", "!" |
| SubtitleTypes.ExtensionsListed | CB.Subtitles/Subtitle.cs:14 | the extension list is `.ass`, `.srt`, `.sub` in that order |
| SubtitleTypes.NameShapes | CB.Subtitles/Subtitle.cs:14 | each extension is a dot and the format's bare name, both already lower case |
| SubtitleTypes.TryGetSubtitleType | CB.Subtitles/Subtitle.cs:135-155 | the first format, in the order Ass, Srt, Sub, that the lower-cased name equals or ends with; none when no format matches |
| SubtitleTypes.GetSubtitleType | CB.Subtitles/Subtitle.cs:91-97 | succeeds exactly when TryGetSubtitleType finds a format, and otherwise fails with NotSupported of the name |
| SubtitleTypes.CheckExtension | CB.Subtitles/Subtitle.cs:292-298 | null is refused; a dotted extension is kept and any other gets a dot in front |
| SubtitleTypes.IsSubtitleExtension | CB.Subtitles/Subtitle.cs:99-103 | null is refused; otherwise true exactly when the dotted extension equals a listed one ignoring case |
| SubtitleTypes.TypeIgnoresCase | CB.Subtitles/Subtitle.cs:137 | the format found does not depend on the case of the name |
| SubtitleTypes.FileType | CB.Subtitles/Subtitle.cs:137-152 | any name followed by a format's extension, in any case, resolves to that format |
| SubtitleTypes.AcceptedExtensionsResolve | CB.Subtitles/Subtitle.cs:99-155 | every extension IsSubtitleExtension accepts is one TryGetSubtitleType resolves |
| SubtitleTypes.ListedExtensionsAccepted | CB.Subtitles/Subtitle.cs:99-103 | each listed extension is accepted with or without its dot, in any case |
| Parsing.SrtTime | CB.Subtitles/Subtitle.cs:464-465 | defines the time parse of a token: the fr-FR parse when it succeeds, else the current-culture parse |
| Parsing.SrtCue | CB.Subtitles/Subtitle.cs:461-476 | defines what the SRT reader makes of one time line: false for fewer than three tokens or a first or third token that is no time, a throw for an undecodable text, else the cue with those times and the lines of the text below |
| Parsing.ParseSrtFrom | CB.Subtitles/Subtitle.cs:456-479 | defines the SRT reading loop from a position: finished at the end or with no time line left, else the next time line's cue and the reading after its text, or that line's stop |
| Parsing.ParseSrt | CB.Subtitles/Subtitle.cs:450-481 | defines the whole SRT reading: the cues read, in order, and whether it finished, returned false or threw |
| Parsing.AssText | CB.Subtitles/Subtitle.cs:438 | defines the dialogue text: `\N` and then `\n` replaced by CRLF |
| Parsing.Dialogue | CB.Subtitles/Subtitle.cs:427-438 | defines what the ASS reader makes of one dialogue line: false for too few fields or a field that is no time, a throw for a format line with fewer than three fields, else the cue of that line |
| Parsing.Dialogues | CB.Subtitles/Subtitle.cs:424-442 | defines the ASS dialogue loop: one cue per consecutive "dialogue:" line, stopping at the first other line or at a line's stop |
| Parsing.ParseAss | CB.Subtitles/Subtitle.cs:407-443 | defines the whole ASS reading: the header scans for "[Events]", "Format:" and "dialogue:", then the dialogue loop; false without a format line |
| Parsing.ArrowFrom | CB.Subtitles/Subtitle.cs:458 | the first line from p holding ` --> `, or the end of the file |
| Parsing.BlankFrom | CB.Subtitles/Subtitle.cs:474-475 | the first empty line from p, or the end of the file |
| Parsing.PrefixFrom | CB.Subtitles/Subtitle.cs:412-423 | the first line from p starting with the header ignoring case, or the end of the file |
| Parsing.StartsLower | CB.Subtitles/Subtitle.cs:413 | comparing with a lower-cased header is StartsWith ignoring case |
| Parsing.HeadersLowered | CB.Subtitles/Subtitle.cs:413-422 | the three ASS headers lower-case to the constants the reader compares with |
| Parsing.SrtCueFields | CB.Subtitles/Subtitle.cs:461-477 | a time line gives a cue exactly when it has three tokens whose first and third are times, and its text can be decomposed; the cue carries those times and lines |
| Parsing.SrtHead | CB.Subtitles/Subtitle.cs:456-478 | a non-empty SRT reading starts with the cue of the next arrow line, then reads on after that cue's text |
| Parsing.SrtCount | CB.Subtitles/Subtitle.cs:456-478 | an SRT reading holds at most one cue per line containing ` --> ` |
| Parsing.SrtCueOrigin | CB.Subtitles/Subtitle.cs:456-478 | every cue read comes from an arrow line of the file |
| Parsing.NoArrowNoCues | CB.Subtitles/Subtitle.cs:456-480 | a file without arrow lines reads as no cues, finished normally |
| Parsing.DialogueFields | CB.Subtitles/Subtitle.cs:427-438 | a dialogue line gives a cue exactly when it has the declared number of fields, at least three, and its second and third are times; only a format line of fewer than three fields can make it throw |
| Parsing.FieldCount | CB.Subtitles/Subtitle.cs:420 | the format line declares at least one field |
| Parsing.DialogueHead | CB.Subtitles/Subtitle.cs:424-440 | a non-empty ASS dialogue reading starts with the cue of its first line and goes on with the next line |
| Parsing.DialogueCount | CB.Subtitles/Subtitle.cs:424-440 | a dialogue reading holds at most one cue per remaining line |
| Parsing.DialogueCueAt | CB.Subtitles/Subtitle.cs:424-440 | the k-th cue read comes from the k-th line of the dialogue block, which starts with "dialogue:" |
| Parsing.NoFormatRejected | CB.Subtitles/Subtitle.cs:412-419 | a file with no "Format:" line after its "[Events]" line (including a file with no "[Events]" line) is rejected with no cues |
| Documents.Shift | CB.Subtitles/Subtitle.cs:208-215 | defines the items after a shift: each begin and end moved by the delta |
| Documents.RescaleRange | CB.Subtitles/Subtitle.cs:180-192 | defines the items after a range rescale: each item of the range gets start plus the scaled offset of its begin and end from the first begin; the others are kept |
| Documents.Sync | CB.Subtitles/Subtitle.cs:271-282 | defines the items after a synchronisation: the reference's times by index for equal counts, else the whole list rescaled onto the reference's first and last begin |
| Documents.SrtDocument | CB.Subtitles/Subtitle.cs:257-263 | defines the text RecordToSrt writes: for each item in order, its 1-based number, CRLF, its SRT text, CRLF and the writer's newline |
| Documents.ShiftKeeps | CB.Subtitles/Subtitle.cs:208-215 | shifting moves each begin and end by the delta and keeps the lines |
| Documents.ShiftBack | CB.Subtitles/Subtitle.cs:208-215 | shifting by the opposite delta undoes a shift |
| Documents.ShiftTwice | CB.Subtitles/Subtitle.cs:208-215 | two shifts are one shift by the sum |
| Documents.RescaleRangeFrame | CB.Subtitles/Subtitle.cs:180-192 | rescaling keeps the items outside the range and all lines, and puts the first item's begin at start; an item inside the range gets start plus the scaled offset from the first begin |
| Documents.SyncCopies | CB.Subtitles/Subtitle.cs:271-282 | equal counts copy the reference's times item by item; otherwise the first begin goes to the reference's first begin; lines are kept |
| Documents.SyncSelf | CB.Subtitles/Subtitle.cs:271-282 | synchronising with the same times changes nothing |
| Documents.FirstEndingAfter | CB.Subtitles/Subtitle.cs:219 | the index of the first item ending after the time, every earlier one ending at or before it |
| Documents.LookupFindsCover | CB.Subtitles/Subtitle.cs:217-223 | in non-overlapping items, an item covering the time is the one found |
| Documents.Decimal | CB.Subtitles/Subtitle.cs:261 | the item number is written as a non-empty string of digits |
| Documents.DecimalRoundTrip | CB.Subtitles/Subtitle.cs:261 | the written item number reads back as itself |
| Documents.SrtDocumentStep | CB.Subtitles/Subtitle.cs:259-262 | each iteration appends the numbered block of the next item |
| Documents.TimeLineReadsBack | CB.Subtitles/SubtitleItem.cs:50 | a written time line contains ` --> ` and splits on spaces into the two stamps around `-->` |
| Documents.TimeLineRoundTrip | CB.Subtitles/Subtitle.cs:458-476 | when the stamps parse back, the SRT reader reads a written time line as a cue with those times and the lines of the text below, or throws on text it cannot decompose |
| Documents.Subtitle.constructor | CB.Subtitles/Subtitle.cs:19-22 | a new subtitle has no items |
| Documents.Subtitle.Load | CB.Subtitles/Subtitle.cs:27-42 | the items read are those of the specification of the file's format; a `.sub` file gives none |
| Documents.Subtitle.AdjustTime | CB.Subtitles/Subtitle.cs:208-215 | every item is shifted by the delta |
| Documents.Subtitle.AdjustTimeRange | CB.Subtitles/Subtitle.cs:180-192 | the items become the rescaling of the range onto start and end |
| Documents.Subtitle.RescaleItem | CB.Subtitles/Subtitle.cs:187-190 | one item gets its begin and end rescaled |
| Documents.Subtitle.AdjustTimeTo | CB.Subtitles/Subtitle.cs:194-206 | the whole list is rescaled onto start and end |
| Documents.Subtitle.SyncTime | CB.Subtitles/Subtitle.cs:271-282 | the items take the times given by the synchronisation with the reference, which is unchanged |
| Documents.Subtitle.CopyTimes | CB.Subtitles/Subtitle.cs:273-280 | each item takes the times of the reference's item at the same index, and the reference is unchanged |
| Documents.Subtitle.GetItemAt | CB.Subtitles/Subtitle.cs:217-223 | the first item ending after the time, when it has begun by then, and none otherwise; a found item covers the time |
| Documents.Subtitle.RecordToSrt | CB.Subtitles/Subtitle.cs:257-263 | the text written is the numbered SRT document of the items |
| Documents.Subtitle.Add | CB.Subtitles/Subtitle.cs:439 | appends the item at the end, the others unchanged |
| Documents.Subtitle.TryParseFromSrt | CB.Subtitles/Subtitle.cs:450-481 | keeps the item objects already in the list as a prefix and appends exactly the cues of the SRT specification; raises exactly when it throws, false when rejected, otherwise whether the subtitle has any item |
| Documents.Subtitle.SrtPass | CB.Subtitles/Subtitle.cs:458-477 | one pass of the outer loop: stop where the specification stops with the list unchanged, or add one new item object holding the next cue after the existing ones and resume after its text |
| Documents.Subtitle.AddSrtCue | CB.Subtitles/Subtitle.cs:461-477 | the cue at an arrow line is added as one new item object after the existing ones, or the reader stops with the specification's status and the list unchanged |
| Documents.Subtitle.ReadSrtItem | CB.Subtitles/Subtitle.cs:461-476 | a new item holds exactly the cue the specification reads at that line, or none with its stop status |
| Documents.Subtitle.SeekArrow | CB.Subtitles/Subtitle.cs:458 | finds the next arrow line |
| Documents.Subtitle.ReadCueText | CB.Subtitles/Subtitle.cs:473-475 | gathers the lines up to the next blank line, each followed by CRLF, and moves past that blank line |
| Documents.Subtitle.TryParseFromAss | CB.Subtitles/Subtitle.cs:407-443 | keeps the item objects already in the list as a prefix and appends exactly the cues of the ASS specification; raises exactly when it throws, false when rejected, true otherwise |
| Documents.Subtitle.ReadDialogues | CB.Subtitles/Subtitle.cs:424-442 | the dialogue loop keeps the item objects already in the list as a prefix and appends exactly the cues of the dialogue block, with the block's outcome |
| Documents.Subtitle.AssPass | CB.Subtitles/Subtitle.cs:424-440 | one dialogue line: stop as the specification does with the list unchanged, or add one new item object holding its cue after the existing ones and move to the next line |
| Documents.Subtitle.ReadDialogue | CB.Subtitles/Subtitle.cs:427-438 | a new item holds exactly the cue of the dialogue line, or none with its stop status |
| Documents.Subtitle.SeekPrefix | CB.Subtitles/Subtitle.cs:412-423 | finds the next line starting with the header, ignoring case |

## Left out

- File and stream I/O are not modelled: opening files, StreamReader, StreamWriter, and reading lines (a file is a sequence of lines without their terminators). Nor is the text encoding passed to them; `Encodings.Detect` takes the bytes read and their count as parameters.
- The static file-level overloads are not modelled: AdjustTime(file…), Convert, Parse, TryParse, RecordTo, the `SyncTime(string)` overloads, IsSubtitleFile and the file-name constructors. They only compose the modelled operations with file I/O.
- RecordToAss writes nothing in the source, and TryParseFromSub returns false without reading. `Documents.Subtitle.Load` therefore gives no items for a `.sub` file, and there is no ASS writer.
- GetItemAt(double) is not modelled: it only converts milliseconds to a TimeSpan, which is floating point.
- The subtitle-type enum's source file is not part of this model. The out value `type = 0` on failure is modelled as `None`.
- Time parsing (`TimeSpan.TryParse` with and without the French culture) is a parameter of the parsers. Only its result is used.
- `Documents.Subtitle.AdjustTimeRange`: the `double` ratio and `TimeSpan.FromMilliseconds` rounding are a `Scale` parameter, assumed to map an offset of 0 to 0. The contract states which items change and that the range's first begin lands on start, not the exact floating-point values.
- `Documents.Subtitle.AdjustTime`: TimeSpan overflow (an OverflowException in the source) is a precondition that every shifted time stays within the TimeSpan range.
- `Documents.Subtitle.AdjustTimeTo` and `Documents.Subtitle.SyncTime`: an empty subtitle (an index or `First()` exception) and a time outside the TimeSpan range are excluded by preconditions.
- `Documents.Subtitle.AdjustTimeRange`: a zero source span is excluded by a precondition. When the last begin equals the first, the source's ratio is infinite or NaN and `TimeSpan.FromMilliseconds` throws at the first item. A scaled offset outside the TimeSpan range is excluded in the same way.
- `Documents.Subtitle.AdjustTimeRange`: an index `first` or `last` outside the item list (an ArgumentOutOfRangeException at Subtitle.cs:182 and 184) is excluded by a precondition. So is an OverflowException of a TimeSpan subtraction: `end - start` and the source span at Subtitle.cs:183-184, and each item's begin and end minus the first begin at Subtitle.cs:187 and 189.
- `Documents.Subtitle.AdjustTimeTo`: the same zero-span exclusion covers every one-item subtitle and every subtitle whose first and last items begin together. For those inputs the source throws.
- `Documents.Subtitle.SyncTime`: with unequal item counts, a reference whose first and last items begin together is excluded, although the source throws there, through the same zero span in the rescale.
- `Items.SubtitleItem.Duration`: `End - Begin` outside the TimeSpan range (an OverflowException in the source) is excluded by a precondition.
- `Items.SubtitleItem.GetDuration`: the same overflow is excluded by the same precondition.
- `Documents.Subtitle.Load`, `Documents.Subtitle.TryParseFromSrt` and `Documents.Subtitle.TryParseFromAss`: the constructor does not catch a parse exception, so Load requires that the file does not make the reader throw. The two readers model the exception as the `Raised` outcome.
- The SRT reader throws on a tag that is exactly `font color="` (Substring with a negative length). The ASS reader throws when the format line has fewer than three fields (`tokens[1]` or `tokens[2]` out of range). Both are modelled as the `Threw` status.
- `Items.StampRoundTrip`: the `hh\:mm\:ss\,fff` format drops whole days and the sign, so the stamp reads back as the time of day only. A negative time is written as its absolute value, since .NET custom TimeSpan formats print no sign.
- Case-insensitive comparison (`ToLowerInvariant`, `InvariantCultureIgnoreCase`) maps ASCII letters only. The comparisons under `InvariantCultureIgnoreCase` (Subtitle.cs:102, 413, 416, 422, 424) also skip ignorable characters such as U+00AD (soft hyphen) in .NET; that is not modelled, so the model compares character by character.
- `String.StartsWith(string)` (Subtitle.cs:296, 394) and `String.EndsWith(string)` (Subtitle.cs:138, 143, 148) without a comparison argument are culture-sensitive in .NET. They are modelled as ordinal comparisons. `SubtitleTypes.TryGetSubtitleType` therefore gives None for a name such as `x.ass` followed by a soft hyphen, which the source resolves to Ass because the culture comparison ignores that character.
- A null `SubtitleLine.Color` is modelled as the empty string. The source treats both the same (`string.IsNullOrEmpty`), except in the colour comparison of SubtitleItem.ToSrtString, where null and "" differ.
- `Environment.NewLine` does not occur in the core. The line terminator `TextWriter.WriteLine` adds is a parameter `newline` of `Documents.Subtitle.RecordToSrt`.
- `Strings.Replace`: its contract states only that a string without the pattern is unchanged. The `\N` to CRLF replacement in ASS text is used as a definition, and nothing further is proved about it.
- `Documents.Subtitle.TryParseFromSrt`, `Documents.Subtitle.TryParseFromAss` and `Documents.Subtitle.ReadDialogues` state that the items already in the list stay as its prefix, but not that each item after it is a new object. Only the one-pass methods `SrtPass`, `AddSrtCue` and `AssPass` state that the item they add is new.
- Aliasing: the subtitle's items are required to be distinct objects. `SyncTime` and `CopyTimes` require the reference's items to be disjoint from the subtitle's own, whereas in the source a subtitle synchronised with itself is harmless.

=== FILE: decompose.dfy ===
/**
 * The inline-markup decomposers of Subtitle (FillAssLines, FillSrtLines).
 * Each splits a cue's text on a pair of delimiters; tokens at even positions
 * are plain text, tokens at odd positions are codes or tags that drive a
 * small state machine (a four-flag format, and for SRT a stack of colours).
 * Every non-empty plain token is appended to the item as one line carrying
 * the state in force.
 */
module Decompose {
  import opened Strings
  import opened TextFormats
  import opened SrtMarkup
  import opened Lines
  import opened Items

  /** The contents of the lines, one string per line, in order. */
  function Texts(ls: seq<SubtitleLine>): (r: seq<string>)
    ensures |r| == |ls|
  {
    if ls == [] then [] else Texts(ls[..|ls| - 1]) + [ls[|ls| - 1].content]
  }

  lemma {:induction false} TextsAppend(a: seq<SubtitleLine>, b: seq<SubtitleLine>)
    ensures Texts(a + b) == Texts(a) + Texts(b)
    ensures Contents(a + b) == Contents(a) + Contents(b)
    decreases |b|
  {
    if b == [] {
      assert a + b == a;
    } else {
      var b' := b[..|b| - 1];
      assert (a + b)[..|a + b| - 1] == a + b';
      assert (a + b)[|a + b| - 1] == b[|b| - 1];
      TextsAppend(a, b');
    }
  }

  /** The item's Text is the concatenation of the line contents. */
  lemma {:induction false} ContentsAreTexts(ls: seq<SubtitleLine>)
    ensures Contents(ls) == Concat(Texts(ls))
    decreases |ls|
  {
    if ls != [] {
      var init := ls[..|ls| - 1];
      ContentsAreTexts(init);
      ConcatAppend(Texts(init), [ls[|ls| - 1].content]);
      assert Concat([ls[|ls| - 1].content]) == ls[|ls| - 1].content + Concat([]);
    }
  }

  // ------------------------------------------------------------ runs

  /** The style in force at each token: a format and a colour. */
  type Styling = seq<(TextFormat, string)>

  /** The line token k adds: one when it is plain text (even position) and not empty. */
  function Run(tokens: seq<string>, styles: Styling, k: nat): seq<SubtitleLine>
    requires |styles| == |tokens| && k < |tokens|
  {
    if k % 2 == 0 && tokens[k] != "" then [SubtitleLine(tokens[k], styles[k].0, styles[k].1)] else []
  }

  /** The lines the first k tokens add. */
  function Runs(tokens: seq<string>, styles: Styling, k: nat): seq<SubtitleLine>
    requires |styles| == |tokens| && k <= |tokens|
  {
    if k == 0 then [] else Runs(tokens, styles, k - 1) + Run(tokens, styles, k - 1)
  }

  /** The runs grow by the line token k gives under the style in force there. */
  lemma RunsStep(tokens: seq<string>, styles: Styling, k: nat, format: TextFormat, color: string,
                 before: seq<SubtitleLine>)
    requires |styles| == |tokens| && k < |tokens|
    requires styles[k] == (format, color)
    ensures Runs(tokens, styles, k + 1) == Runs(tokens, styles, k) +
      if k % 2 == 0 && tokens[k] != "" then [SubtitleLine(tokens[k], format, color)] else []
    ensures before + Runs(tokens, styles, k + 1) == before + Runs(tokens, styles, k) +
      if k % 2 == 0 && tokens[k] != "" then [SubtitleLine(tokens[k], format, color)] else []
  {
    var extra := if k % 2 == 0 && tokens[k] != "" then [SubtitleLine(tokens[k], format, color)] else [];
    assert Runs(tokens, styles, k + 1) == Runs(tokens, styles, k) + extra;
    assert before + (Runs(tokens, styles, k) + extra) == before + Runs(tokens, styles, k) + extra;
  }

  /** Every line is non-empty and carries a style in force at some token. */
  lemma {:induction false} RunsShape(tokens: seq<string>, styles: Styling, k: nat)
    requires |styles| == |tokens| && k <= |tokens|
    ensures forall l :: l in Runs(tokens, styles, k) ==> l.content != "" && (l.format, l.color) in styles
  {
    if k > 0 {
      RunsShape(tokens, styles, k - 1);
    }
  }

  /** The plain token at position k, when it is one: the text Run(tokens, styles, k) holds. */
  function PlainAt(tokens: seq<string>, k: nat): seq<string>
    requires k < |tokens|
  {
    if k % 2 == 0 then [tokens[k]] else []
  }

  lemma RunText(tokens: seq<string>, styles: Styling, k: nat)
    requires |styles| == |tokens| && k < |tokens|
    ensures Texts(Run(tokens, styles, k)) == NonEmpty(PlainAt(tokens, k))
  {
    assert NonEmpty([tokens[k]]) == if tokens[k] != "" then [tokens[k]] else [];
  }

  lemma EvensPrefix(tokens: seq<string>, k: nat)
    requires 0 < k <= |tokens|
    ensures Evens(tokens[..k]) == Evens(tokens[..k - 1]) + PlainAt(tokens, k - 1)
  {
    assert tokens[..k] == tokens[..k - 1] + [tokens[k - 1]];
    EvensSnoc(tokens[..k - 1], tokens[k - 1]);
  }

  /** One more token adds to the non-empty plain tokens exactly the text of its run. */
  lemma PlainStep(tokens: seq<string>, styles: Styling, k: nat)
    requires |styles| == |tokens| && 0 < k <= |tokens|
    ensures NonEmpty(Evens(tokens[..k])) == NonEmpty(Evens(tokens[..k - 1])) + Texts(Run(tokens, styles, k - 1))
  {
    EvensPrefix(tokens, k);
    NonEmptyAppend(Evens(tokens[..k - 1]), PlainAt(tokens, k - 1));
    RunText(tokens, styles, k - 1);
  }

  /** The lines are the non-empty plain tokens, one each, in order. */
  lemma {:induction false} RunsTexts(tokens: seq<string>, styles: Styling, k: nat)
    requires |styles| == |tokens| && k <= |tokens|
    ensures Texts(Runs(tokens, styles, k)) == NonEmpty(Evens(tokens[..k]))
  {
    if k > 0 {
      RunsTexts(tokens, styles, k - 1);
      TextsAppend(Runs(tokens, styles, k - 1), Run(tokens, styles, k - 1));
      PlainStep(tokens, styles, k);
    }
  }

  /** So all the tokens give one line per non-empty plain token, and the plain text in order. */
  lemma AllRuns(tokens: seq<string>, styles: Styling)
    requires |styles| == |tokens|
    ensures Texts(Runs(tokens, styles, |tokens|)) == NonEmpty(Evens(tokens))
    ensures Contents(Runs(tokens, styles, |tokens|)) == Concat(Evens(tokens))
    ensures forall l :: l in Runs(tokens, styles, |tokens|) ==> l.content != "" && (l.format, l.color) in styles
  {
    RunsShape(tokens, styles, |tokens|);
    RunsTexts(tokens, styles, |tokens|);
    assert tokens[..|tokens|] == tokens;
    ContentsAreTexts(Runs(tokens, styles, |tokens|));
    NonEmptyKeeps(Evens(tokens));
  }

  // ---------------------------------------------------------------- ASS

  const AssDelimiters: set<char> := {'{', '}'}

  /** The override code that switches a style on. */
  function AssOn(s: Style): string {
    match s
    case Bold => "\\b1"
    case Italic => "\\i1"
    case Underline => "\\u1"
    case Strikethrough => "\\s1"
  }

  /** The override code that switches a style off; AssReset is the other spelling. */
  function AssOff(s: Style): string {
    match s
    case Bold => "\\b"
    case Italic => "\\i"
    case Underline => "\\u"
    case Strikethrough => "\\s"
  }

  function AssReset(s: Style): string {
    match s
    case Bold => "\\b0"
    case Italic => "\\i0"
    case Underline => "\\u0"
    case Strikethrough => "\\s0"
  }

  /** The switch on one override code: what it does to the format. */
  function AssStep(f: TextFormat, code: string): (r: TextFormat)
    ensures r & 0xF0 == f & 0xF0
  {
    if code == "\\b1" then Set(f, Bold)
    else if code == "\\i1" then Set(f, Italic)
    else if code == "\\u1" then Set(f, Underline)
    else if code == "\\s1" then Set(f, Strikethrough)
    else if code == "\\b" || code == "\\b0" then Clear(f, Bold)
    else if code == "\\i" || code == "\\i0" then Clear(f, Italic)
    else if code == "\\u" || code == "\\u0" then Clear(f, Underline)
    else if code == "\\s" || code == "\\s0" then Clear(f, Strikethrough)
    else f
  }

  /** An "on" code adds its style; either "off" code removes it. */
  lemma AssStepStyle(f: TextFormat, s: Style)
    ensures Styles(AssStep(f, AssOn(s))) == Styles(f) + {s}
    ensures Styles(AssStep(f, AssOff(s))) == Styles(f) - {s}
    ensures Styles(AssStep(f, AssReset(s))) == Styles(f) - {s}
  {
    match s
    case Bold =>
    case Italic =>
    case Underline =>
    case Strikethrough =>
  }

  /** Any other code leaves the format unchanged. */
  lemma AssStepOther(f: TextFormat, code: string)
    requires forall s :: code != AssOn(s) && code != AssOff(s) && code != AssReset(s)
    ensures AssStep(f, code) == f
  {
    assert code != AssOn(Bold) && code != AssOff(Bold) && code != AssReset(Bold);
    assert code != AssOn(Italic) && code != AssOff(Italic) && code != AssReset(Italic);
    assert code != AssOn(Underline) && code != AssOff(Underline) && code != AssReset(Underline);
    assert code != AssOn(Strikethrough) && code != AssOff(Strikethrough) && code != AssReset(Strikethrough);
  }

  /** The format in force after the first k tokens: codes sit at odd positions. */
  function AssFormat(tokens: seq<string>, k: nat): (r: TextFormat)
    requires k <= |tokens|
    ensures r < 16
  {
    if k == 0 then TextFormats.None
    else
      var f := AssFormat(tokens, k - 1);
      if (k - 1) % 2 == 1 then AssStep(f, tokens[k - 1]) else f
  }

  /** The style at each ASS token: the format in force, never a colour. */
  function AssStyles(tokens: seq<string>): (r: Styling)
    ensures |r| == |tokens|
  {
    seq(|tokens|, i requires 0 <= i < |tokens| => (AssFormat(tokens, i), ""))
  }

  /** One turn of FillAssLines' loop: the line token i adds, and the format after it. */
  lemma AssLoopStep(tokens: seq<string>, i: nat, before: seq<SubtitleLine>)
    requires i < |tokens|
    ensures AssStyles(tokens)[i] == (AssFormat(tokens, i), "")
    ensures before + Runs(tokens, AssStyles(tokens), i + 1) == before + Runs(tokens, AssStyles(tokens), i) +
      if i % 2 == 0 && tokens[i] != "" then [SubtitleLine(tokens[i], AssFormat(tokens, i), "")] else []
    ensures AssFormat(tokens, i + 1) ==
      if i % 2 == 1 then AssStep(AssFormat(tokens, i), tokens[i]) else AssFormat(tokens, i)
  {
    RunsStep(tokens, AssStyles(tokens), i, AssFormat(tokens, i), "", before);
  }

  /** The lines FillAssLines appends for a cue text. */
  function AssLines(text: string): seq<SubtitleLine> {
    var tokens := Split(text, AssDelimiters);
    Runs(tokens, AssStyles(tokens), |tokens|)
  }

  /** FillAssLines: append the styled runs of an ASS cue text to si. */
  method FillAssLines(text: string, si: SubtitleItem)
    modifies si`Lines
    ensures si.Lines == old(si.Lines) + AssLines(text)
  {
    var tokens := Split(text, AssDelimiters);
    AddAssRuns(tokens, si, AssStyles(tokens));
  }

  /** FillAssLines' loop: one line per non-empty plain token, under the format the codes before it set. */
  method AddAssRuns(tokens: seq<string>, si: SubtitleItem, ghost styles: Styling)
    requires |styles| == |tokens|
    requires forall k :: 0 <= k < |tokens| ==> styles[k] == (AssFormat(tokens, k), "")
    modifies si`Lines
    ensures si.Lines == old(si.Lines) + Runs(tokens, styles, |tokens|)
  {
    var format := TextFormats.None;
    ghost var before := si.Lines;
    for i := 0 to |tokens|
      invariant si.Lines == before + Runs(tokens, styles, i)
      invariant format == AssFormat(tokens, i)
    {
      var s := tokens[i];
      RunsStep(tokens, styles, i, format, "", before);
      if i % 2 == 0 {
        if s != "" {
          si.AddLine(s, format, "");
        }
      } else {
        format := AssStep(format, s);
      }
    }
  }

  /**
   * FillAssLines appends one line per non-empty plain token, in order, each
   * uncoloured and carrying a format made of the four flags; the text it adds
   * is the cue text with every brace-delimited code removed.
   */
  lemma AssLinesContents(text: string)
    ensures Texts(AssLines(text)) == NonEmpty(Evens(Split(text, AssDelimiters)))
    ensures Contents(AssLines(text)) == Concat(Evens(Split(text, AssDelimiters)))
    ensures forall l :: l in AssLines(text) ==> l.content != "" && l.color == "" && l.format < 16
  {
    var tokens := Split(text, AssDelimiters);
    var styles := AssStyles(tokens);
    AllRuns(tokens, styles);
    forall l | l in AssLines(text) ensures l.color == "" && l.format < 16 {
      var i :| 0 <= i < |styles| && styles[i] == (l.format, l.color);
      AssLoopStep(tokens, i, []);
    }
  }

  /** A plain token and a code, each closed by a delimiter, split off the front of a text. */
  lemma SplitTwo(a: string, ca: char, b: string, cb: char, rest: string, d: set<char>)
    requires Free(a, d) && Free(b, d) && ca in d && cb in d
    ensures Split(a + ([ca] + (b + ([cb] + rest))), d) == [a, b] + Split(rest, d)
  {
    SplitAfter(b, cb, rest, d);
    SplitAfter(a, ca, b + ([cb] + rest), d);
  }

  lemma AssSampleTokens(text: string)
    requires text ==
      "" + (['{'] + ("\\b1" + (['}'] + ("Hello " + (['{'] + ("\\i1" + (['}'] +
      ("world" + (['{'] + ("\\i0" + (['}'] + ("!" + (['{'] + ("\\b0" + (['}'] + "")))))))))))))))
    ensures Split(text, AssDelimiters) == ["", "\\b1", "Hello ", "\\i1", "world", "\\i0", "!", "\\b0", ""]
  {
    var d := AssDelimiters;
    var r4 := "world" + (['{'] + ("\\i0" + (['}'] + ("!" + (['{'] + ("\\b0" + (['}'] + "")))))));
    var r2 := "Hello " + (['{'] + ("\\i1" + (['}'] + r4)));
    AssSampleTail(r4);
    SplitTwo("Hello ", '{', "\\i1", '}', r4, d);
    SplitTwo("", '{', "\\b1", '}', r2, d);
  }

  /** The second half of the sample cue, token by token. */
  lemma AssSampleTail(r4: string)
    requires r4 == "world" + (['{'] + ("\\i0" + (['}'] + ("!" + (['{'] + ("\\b0" + (['}'] + "")))))))
    ensures Split(r4, AssDelimiters) == ["world", "\\i0", "!", "\\b0", ""]
  {
    var d := AssDelimiters;
    var r6 := "!" + (['{'] + ("\\b0" + (['}'] + "")));
    SplitTwo("!", '{', "\\b0", '}', "", d);
    SplitTwo("world", '{', "\\i0", '}', r6, d);
  }

  /** The formats the sample cue's codes put in force. */
  lemma AssSampleFormats(ts: seq<string>)
    requires ts == ["", "\\b1", "Hello ", "\\i1", "world", "\\i0", "!", "\\b0", ""]
    ensures AssFormat(ts, 2) == AssFormat(ts, 3) == Bit(Bold)
    ensures AssFormat(ts, 4) == AssFormat(ts, 5) == Bit(Bold) | Bit(Italic)
    ensures AssFormat(ts, 6) == AssFormat(ts, 7) == Bit(Bold)
  {
    assert AssFormat(ts, 1) == TextFormats.None;
    assert AssFormat(ts, 2) == Bit(Bold);
    assert AssFormat(ts, 4) == Bit(Bold) | Bit(Italic);
  }

  /** One more token adds its line, if it is a non-empty plain token. */
  lemma RunsOne(tokens: seq<string>, styles: Styling, k: nat, sofar: seq<SubtitleLine>)
    requires |styles| == |tokens| && k < |tokens|
    requires Runs(tokens, styles, k) == sofar
    ensures Runs(tokens, styles, k + 1) ==
      sofar + if k % 2 == 0 && tokens[k] != "" then [SubtitleLine(tokens[k], styles[k].0, styles[k].1)] else []
  {
  }

  /** A plain token and the code after it add the plain token's line, if it is not empty. */
  lemma RunsPair(tokens: seq<string>, styles: Styling, k: nat, sofar: seq<SubtitleLine>)
    requires |styles| == |tokens| && k % 2 == 0 && k + 2 <= |tokens|
    requires Runs(tokens, styles, k) == sofar
    ensures Runs(tokens, styles, k + 2) ==
      sofar + if tokens[k] != "" then [SubtitleLine(tokens[k], styles[k].0, styles[k].1)] else []
  {
    RunsOne(tokens, styles, k, sofar);
    var next := Runs(tokens, styles, k + 1);
    RunsOne(tokens, styles, k + 1, next);
    assert next + [] == next;
  }

  /** The runs of nine tokens whose plain ones are "", x, y, z, "" under styles p, q, r. */
  lemma AssSampleRuns(ts: seq<string>, styles: Styling, x: string, y: string, z: string,
                      p: TextFormat, q: TextFormat, r: TextFormat)
    requires |ts| == |styles| == 9
    requires ts[0] == "" && ts[2] == x && ts[4] == y && ts[6] == z && ts[8] == ""
    requires x != "" && y != "" && z != ""
    requires styles[2] == (p, "") && styles[4] == (q, "") && styles[6] == (r, "")
    ensures Runs(ts, styles, 9) == [SubtitleLine(x, p, ""), SubtitleLine(y, q, ""), SubtitleLine(z, r, "")]
  {
    var lx, ly, lz := SubtitleLine(x, p, ""), SubtitleLine(y, q, ""), SubtitleLine(z, r, "");
    RunsPair(ts, styles, 0, []);
    RunsPair(ts, styles, 2, []);
    assert [] + [lx] == [lx];
    RunsPair(ts, styles, 4, [lx]);
    RunsPair(ts, styles, 6, [lx, ly]);
    RunsOne(ts, styles, 8, [lx, ly, lz]);
    assert [lx, ly, lz] + [] == [lx, ly, lz];
  }

  /** The cue text `{\b1}Hello {\i1}world{\i0}!{\b0}`, written token by token, gives ("Hello ", Bold), ("world", Bold|Italic), ("!", Bold). */
  lemma AssExample(text: string)
    requires text ==
      "" + ("{" + ("\\b1" + ("}" + ("Hello " + ("{" + ("\\i1" + ("}" +
      ("world" + ("{" + ("\\i0" + ("}" + ("!" + ("{" + ("\\b0" + ("}" + "")))))))))))))))
    ensures AssLines(text) == [
      SubtitleLine("Hello ", Bit(Bold), ""),
      SubtitleLine("world", Bit(Bold) | Bit(Italic), ""),
      SubtitleLine("!", Bit(Bold), "")]
  {
    AssSampleTokens(text);
    var ts := Split(text, AssDelimiters);
    AssSampleFormats(ts);
    AssSampleRuns(ts, AssStyles(ts), "Hello ", "world", "!", Bit(Bold), Bit(Bold) | Bit(Italic), Bit(Bold));
  }

  // ---------------------------------------------------------------- SRT

  /** The decoder state: the format and the colour stack, most recent push last. */
  datatype SrtState = SrtState(format: TextFormat, colors: seq<string>)

  /** `colors.Count > 0 ? colors.First() : ""`: the colour pushed last, or none. */
  function TopColor(colors: seq<string>): string {
    if |colors| > 0 then colors[|colors| - 1] else ""
  }

  /**
   * The switch on one tag. A tag that is exactly `font color="` makes the
   * Substring call throw, so it is excluded.
   */
  function SrtStep(st: SrtState, tag: string): (r: SrtState)
    requires tag != FontPrefix
    ensures r.format & 0xF0 == st.format & 0xF0
  {
    if tag == "b" then SrtState(Set(st.format, Bold), st.colors)
    else if tag == "i" then SrtState(Set(st.format, Italic), st.colors)
    else if tag == "u" then SrtState(Set(st.format, Underline), st.colors)
    else if tag == "s" then SrtState(Set(st.format, Strikethrough), st.colors)
    else if tag == "/b" then SrtState(Clear(st.format, Bold), st.colors)
    else if tag == "/i" then SrtState(Clear(st.format, Italic), st.colors)
    else if tag == "/u" then SrtState(Clear(st.format, Underline), st.colors)
    else if tag == "/s" then SrtState(Clear(st.format, Strikethrough), st.colors)
    else if tag == "/font" then
      SrtState(st.format, if |st.colors| > 0 then st.colors[..|st.colors| - 1] else st.colors)
    else if StartsWith(tag, "font color=\"") then
      SrtState(st.format, st.colors + [tag[12..|tag| - 1]])
    else st
  }

  /** A style tag adds its style, its closing tag removes it; neither touches the colours. */
  lemma SrtStepStyle(st: SrtState, s: Style)
    ensures Styles(SrtStep(st, TagName(s)).format) == Styles(st.format) + {s}
    ensures Styles(SrtStep(st, CloseName(s)).format) == Styles(st.format) - {s}
    ensures SrtStep(st, TagName(s)).colors == SrtStep(st, CloseName(s)).colors == st.colors
  {
    match s
    case Bold => assert CloseName(s) == "/b";
    case Italic => assert CloseName(s) == "/i";
    case Underline => assert CloseName(s) == "/u";
    case Strikethrough => assert CloseName(s) == "/s";
  }

  /** Every other tag leaves the format alone, and one that is no colour tag leaves everything alone. */
  lemma SrtStepOther(st: SrtState, tag: string)
    requires tag != FontPrefix
    requires forall s :: tag != TagName(s) && tag != CloseName(s)
    ensures SrtStep(st, tag).format == st.format
    ensures tag != FontCloseName && !StartsWith(tag, FontPrefix) ==> SrtStep(st, tag) == st
  {
    assert tag != "b" by { assert TagName(Bold) == "b"; }
    assert tag != "i" by { assert TagName(Italic) == "i"; }
    assert tag != "u" by { assert TagName(Underline) == "u"; }
    assert tag != "s" by { assert TagName(Strikethrough) == "s"; }
    assert tag != "/b" by { assert CloseName(Bold) == "/b"; }
    assert tag != "/i" by { assert CloseName(Italic) == "/i"; }
    assert tag != "/u" by { assert CloseName(Underline) == "/u"; }
    assert tag != "/s" by { assert CloseName(Strikethrough) == "/s"; }
  }

  /** A colour tag as the serialisers write it pushes exactly its colour. */
  lemma FontPush(st: SrtState, color: string)
    ensures FontName(color) != FontPrefix
    ensures SrtStep(st, FontName(color)) == SrtState(st.format, st.colors + [color])
  {
    var n := FontName(color);
    assert |n| == |FontPrefix| + |color| + 1;
    assert n[..|FontPrefix|] == FontPrefix;
    assert n[|FontPrefix|..|n| - 1] == color;
    assert n[0] == 'f';
  }

  /** `</font>` undoes the push before it, and does nothing on an empty stack. */
  lemma FontPop(f: TextFormat, colors: seq<string>, color: string)
    ensures SrtStep(SrtState(f, colors + [color]), FontCloseName) == SrtState(f, colors)
    ensures SrtStep(SrtState(f, []), FontCloseName) == SrtState(f, [])
  {
    assert (colors + [color])[..|colors|] == colors;
  }

  // ------------------------------------------- reading a written format change

  /** The reader's move on one piece: a tag drives the switch, text leaves the state alone. */
  function PieceStep(st: SrtState, p: Piece): SrtState
    requires p != Tag(FontPrefix)
  {
    match p
    case Tag(n) => SrtStep(st, n)
    case Chunk(_) => st
  }

  /** No piece is the bare colour prefix, the one tag the reader cannot take. */
  predicate Readable(ps: seq<Piece>) {
    forall i :: 0 <= i < |ps| ==> ps[i] != Tag(FontPrefix)
  }

  /** The state the reader reaches from st by reading the pieces in order. */
  function Apply(st: SrtState, ps: seq<Piece>): SrtState
    requires Readable(ps)
  {
    if ps == [] then st else PieceStep(Apply(st, ps[..|ps| - 1]), ps[|ps| - 1])
  }

  /** Reading a + b is reading a, then b. */
  lemma {:induction false} ApplyAppend(st: SrtState, a: seq<Piece>, b: seq<Piece>)
    requires Readable(a) && Readable(b)
    ensures Readable(a + b) && Apply(st, a + b) == Apply(Apply(st, a), b)
  {
    if b == [] {
      assert a + b == a;
    } else {
      ApplyAppend(st, a, b[..|b| - 1]);
      assert (a + b)[..|a + b| - 1] == a + b[..|b| - 1];
    }
  }

  /** The styles a list names. */
  function StyleSet(styles: seq<Style>): set<Style> {
    set s | s in styles
  }

  /** Reading one tag is one step of the switch. */
  lemma ApplyOne(st: SrtState, name: string)
    requires name != FontPrefix
    ensures Readable([Tag(name)]) && Apply(st, [Tag(name)]) == SrtStep(st, name)
  {
    assert [Tag(name)][..0] == [];
  }

  /** No style tag is the bare colour prefix. */
  lemma StyleTagsReadable(s: Style)
    ensures TagName(s) != FontPrefix && CloseName(s) != FontPrefix
  {
    assert |TagName(s)| <= 1 && |FontPrefix| == 12;
    assert CloseName(s)[0] == '/' && FontPrefix[0] == 'f';
  }

  /** Taking s into the styles done, when o has it and n lacks it, removes it. */
  lemma DoneAfterClear(so: set<Style>, sn: set<Style>, done: set<Style>, s: Style)
    requires s !in done && s in so && s !in sn
    ensures ((so - done) + (sn * done)) - {s} == (so - (done + {s})) + (sn * (done + {s}))
  {
  }

  /** Taking s into the styles done, when n has it and o lacks it, adds it. */
  lemma DoneAfterSet(so: set<Style>, sn: set<Style>, done: set<Style>, s: Style)
    requires s !in done && s !in so && s in sn
    ensures ((so - done) + (sn * done)) + {s} == (so - (done + {s})) + (sn * (done + {s}))
  {
  }

  /** Taking s into the styles done, when o and n agree on it, changes nothing. */
  lemma DoneAfterKeep(so: set<Style>, sn: set<Style>, done: set<Style>, s: Style)
    requires s !in done && (s in so <==> s in sn)
    ensures (so - done) + (sn * done) == (so - (done + {s})) + (sn * (done + {s}))
  {
  }

  /** The tag one style adds to a format difference is readable and makes exactly that style agree with n. */
  lemma StyleDiffApplies(o: TextFormat, n: TextFormat, st: SrtState, done: set<Style>, s: Style)
    requires s !in done
    requires Styles(st.format) == (Styles(o) - done) + (Styles(n) * done)
    ensures Readable(StyleDiff(o, n, s)) &&
      var r := Apply(st, StyleDiff(o, n, s));
      Styles(r.format) == (Styles(o) - (done + {s})) + (Styles(n) * (done + {s})) &&
      r.colors == st.colors && r.format & 0xF0 == st.format & 0xF0
  {
    StyleListed(s);
    StyleTagsReadable(s);
    SrtStepStyle(st, s);
    var so, sn := Styles(o), Styles(n);
    assert HasFlag(o, Bit(s)) <==> s in so;
    assert HasFlag(n, Bit(s)) <==> s in sn;
    if s in so && s !in sn {
      assert StyleDiff(o, n, s) == [Tag(CloseName(s))];
      ApplyOne(st, CloseName(s));
      DoneAfterClear(so, sn, done, s);
    } else if s !in so && s in sn {
      assert StyleDiff(o, n, s) == [Tag(TagName(s))];
      ApplyOne(st, TagName(s));
      DoneAfterSet(so, sn, done, s);
    } else {
      assert StyleDiff(o, n, s) == [];
      DoneAfterKeep(so, sn, done, s);
    }
  }

  /**
   * Reading the difference over a list of distinct styles clears from o the
   * listed styles o has and n lacks and sets those n has and o lacks; the
   * colours and the bits above the four flags are kept.
   */
  lemma {:induction false} DiffApplies(o: TextFormat, n: TextFormat, cs: seq<string>, styles: seq<Style>)
    requires forall i, j :: 0 <= i < j < |styles| ==> styles[i] != styles[j]
    ensures Readable(DiffPieces(o, n, styles)) &&
      var r := Apply(SrtState(o, cs), DiffPieces(o, n, styles));
      Styles(r.format) == (Styles(o) - StyleSet(styles)) + (Styles(n) * StyleSet(styles)) &&
      r.colors == cs && r.format & 0xF0 == o & 0xF0
  {
    if styles == [] {
      assert StyleSet(styles) == {};
    } else {
      var init, last := styles[..|styles| - 1], styles[|styles| - 1];
      DistinctSnoc(styles);
      DiffApplies(o, n, cs, init);
      var a, d := DiffPieces(o, n, init), StyleDiff(o, n, last);
      var mid := Apply(SrtState(o, cs), a);
      StyleDiffApplies(o, n, mid, StyleSet(init), last);
      ApplyAppend(SrtState(o, cs), a, d);
      assert DiffPieces(o, n, styles) == a + d;
    }
  }

  /** Dropping the last of distinct styles leaves distinct styles that do not name it. */
  lemma DistinctSnoc(styles: seq<Style>)
    requires styles != []
    requires forall i, j :: 0 <= i < j < |styles| ==> styles[i] != styles[j]
    ensures var init := styles[..|styles| - 1];
      (forall i, j :: 0 <= i < j < |init| ==> init[i] != init[j]) &&
      styles[|styles| - 1] !in StyleSet(init) &&
      StyleSet(styles) == StyleSet(init) + {styles[|styles| - 1]}
  {
    var init, last := styles[..|styles| - 1], styles[|styles| - 1];
    forall i | 0 <= i < |init| ensures init[i] != last {
      assert init[i] == styles[i];
    }
    assert styles == init + [last];
  }

  /** A byte whose high four bits are clear is below 16. */
  lemma LowNibble(f: TextFormat)
    requires f & 0xF0 == 0
    ensures f < 16
  {
  }

  /**
   * The format change GetSrtDifferentFormatString writes, read back by the
   * SRT reader, turns the old format into the new one and keeps the colours.
   */
  lemma DiffTurnsOldIntoNew(o: TextFormat, n: TextFormat, cs: seq<string>)
    requires o < 16 && n < 16
    ensures Readable(DiffPieces(o, n, AllStyles)) && Apply(SrtState(o, cs), DiffPieces(o, n, AllStyles)) == SrtState(n, cs)
  {
    DiffApplies(o, n, cs, AllStyles);
    var r := Apply(SrtState(o, cs), DiffPieces(o, n, AllStyles));
    forall s ensures s in StyleSet(AllStyles) {
      StyleListed(s);
    }
    assert Styles(r.format) == Styles(n);
    assert o & 0xF0 == 0;
    LowNibble(r.format);
    FormatIsStyleSet(r.format);
    FormatIsStyleSet(n);
  }

  /** No odd token is exactly `font color="`, the one tag FillSrtLines cannot take. */
  predicate SrtSafe(tokens: seq<string>) {
    forall i :: 0 <= i < |tokens| && i % 2 == 1 ==> tokens[i] != FontPrefix
  }

  /** The state after the first k tokens: tags sit at odd positions. */
  function SrtStateAt(tokens: seq<string>, k: nat): (r: SrtState)
    requires k <= |tokens| && SrtSafe(tokens)
    ensures r.format < 16
  {
    if k == 0 then SrtState(TextFormats.None, [])
    else
      var st := SrtStateAt(tokens, k - 1);
      if (k - 1) % 2 == 1 then SrtStep(st, tokens[k - 1]) else st
  }

  /** The style at each SRT token: the format in force and the colour on top of the stack. */
  function SrtStyles(tokens: seq<string>): (r: Styling)
    requires SrtSafe(tokens)
    ensures |r| == |tokens|
  {
    seq(|tokens|, i requires 0 <= i < |tokens| =>
      (SrtStateAt(tokens, i).format, TopColor(SrtStateAt(tokens, i).colors)))
  }

  /** The style at token i is the state in force after the first i tokens. */
  lemma SrtStyleAt(tokens: seq<string>, i: nat)
    requires SrtSafe(tokens) && i < |tokens|
    ensures SrtStyles(tokens)[i] == (SrtStateAt(tokens, i).format, TopColor(SrtStateAt(tokens, i).colors))
  {
  }

  /** A text token leaves the state as it was. */
  lemma SrtStateEven(tokens: seq<string>, i: nat)
    requires SrtSafe(tokens) && i < |tokens| && i % 2 == 0
    ensures SrtStateAt(tokens, i + 1) == SrtStateAt(tokens, i)
  {
  }

  /** The switch of FillSrtLines on the tag token i: the state after the first i + 1 tokens. */
  method SwitchTag(tokens: seq<string>, i: nat, state: SrtState) returns (next: SrtState)
    requires SrtSafe(tokens) && i < |tokens| && i % 2 == 1 && state == SrtStateAt(tokens, i)
    ensures next == SrtStateAt(tokens, i + 1)
  {
    next := SrtStep(state, tokens[i]);
  }

  /** The lines FillSrtLines appends for a cue text. */
  function SrtLines(text: string): seq<SubtitleLine>
    requires SrtSafe(Split(text, Delimiters))
  {
    var tokens := Split(text, Delimiters);
    Runs(tokens, SrtStyles(tokens), |tokens|)
  }

  /** FillSrtLines: append the styled runs of an SRT cue text to si. */
  method FillSrtLines(text: string, si: SubtitleItem)
    requires SrtSafe(Split(text, Delimiters))
    modifies si`Lines
    ensures si.Lines == old(si.Lines) + SrtLines(text)
  {
    var tokens := Split(text, Delimiters);
    forall k | 0 <= k < |tokens|
      ensures SrtStyles(tokens)[k] == (SrtStateAt(tokens, k).format, TopColor(SrtStateAt(tokens, k).colors))
    {
      SrtStyleAt(tokens, k);
    }
    AddSrtRuns(tokens, si, SrtStyles(tokens));
  }

  /**
   * The loop of FillSrtLines over the tokens: each non-empty text token
   * becomes a line in the format and colour in force, each tag updates them.
   */
  method AddSrtRuns(tokens: seq<string>, si: SubtitleItem, ghost styles: Styling)
    requires SrtSafe(tokens) && |styles| == |tokens|
    requires forall k :: 0 <= k < |tokens| ==>
      styles[k] == (SrtStateAt(tokens, k).format, TopColor(SrtStateAt(tokens, k).colors))
    modifies si`Lines
    ensures si.Lines == old(si.Lines) + Runs(tokens, styles, |tokens|)
  {
    var state := SrtState(TextFormats.None, []);
    ghost var before := si.Lines;
    for i := 0 to |tokens|
      invariant si.Lines == before + Runs(tokens, styles, i)
      invariant state == SrtStateAt(tokens, i)
    {
      RunsStep(tokens, styles, i, state.format, TopColor(state.colors), before);
      if i % 2 == 0 {
        SrtStateEven(tokens, i);
        if tokens[i] != "" {
          si.AddLine(tokens[i], state.format, TopColor(state.colors));
        }
      } else {
        state := SwitchTag(tokens, i, state);
      }
    }
  }

  /**
   * FillSrtLines appends one line per non-empty plain token, in order, each
   * carrying a format made of the four flags; the text it adds is the cue
   * text outside its tags.
   */
  lemma SrtLinesContents(text: string)
    requires SrtSafe(Split(text, Delimiters))
    ensures Texts(SrtLines(text)) == NonEmpty(Evens(Split(text, Delimiters)))
    ensures Contents(SrtLines(text)) == OutsideTags(text)
    ensures forall l :: l in SrtLines(text) ==> l.content != "" && l.format < 16
  {
    var tokens := Split(text, Delimiters);
    var styles := SrtStyles(tokens);
    AllRuns(tokens, styles);
    forall l | l in SrtLines(text) ensures l.format < 16 {
      var i :| 0 <= i < |styles| && styles[i] == (l.format, l.color);
      SrtStyleAt(tokens, i);
    }
  }

  lemma SrtSampleTokens(text: string)
    requires text ==
      "Hello " + (['<'] + (FontName("red") + (['>'] + ("World" + (['<'] + ("/font" + (['>'] + "!")))))))
    ensures Split(text, Delimiters) == ["Hello ", FontName("red"), "World", "/font", "!"]
  {
    var r2 := "World" + (['<'] + ("/font" + (['>'] + "!")));
    var r1 := FontName("red") + (['>'] + r2);
    SrtSampleTail(r2);
    SplitAfter(FontName("red"), '>', r2, Delimiters);
    SplitAfter("Hello ", '<', r1, Delimiters);
  }

  /** The sample cue after its font tag, token by token. */
  lemma SrtSampleTail(r2: string)
    requires r2 == "World" + (['<'] + ("/font" + (['>'] + "!")))
    ensures Split(r2, Delimiters) == ["World", "/font", "!"]
  {
    var r3 := "/font" + (['>'] + "!");
    SplitFree("!", Delimiters);
    SplitAfter("/font", '>', "!", Delimiters);
    assert Split(r3, Delimiters) == ["/font", "!"];
    SplitAfter("World", '<', r3, Delimiters);
  }

  /** The states the sample cue's tags put in force. */
  lemma SrtSampleStates(ts: seq<string>)
    requires ts == ["Hello ", FontName("red"), "World", "/font", "!"]
    ensures SrtSafe(ts)
    ensures SrtStateAt(ts, 0) == SrtStateAt(ts, 4) == SrtState(TextFormats.None, [])
    ensures SrtStateAt(ts, 2) == SrtState(TextFormats.None, ["red"])
  {
    FontPush(SrtState(TextFormats.None, []), "red");
    FontPop(TextFormats.None, [], "red");
    assert SrtSafe(ts);
    var none: seq<string> := [];
    assert SrtStateAt(ts, 1) == SrtState(TextFormats.None, none);
    assert none + ["red"] == ["red"];
    assert SrtStateAt(ts, 3) == SrtState(TextFormats.None, ["red"]);
  }

  /** The runs of five tokens whose plain ones are all non-empty. */
  lemma SrtSampleRuns(ts: seq<string>, styles: Styling)
    requires |ts| == |styles| == 5 && ts[0] != "" && ts[2] != "" && ts[4] != ""
    ensures Runs(ts, styles, 5) == [
      SubtitleLine(ts[0], styles[0].0, styles[0].1),
      SubtitleLine(ts[2], styles[2].0, styles[2].1),
      SubtitleLine(ts[4], styles[4].0, styles[4].1)]
  {
    var l0 := SubtitleLine(ts[0], styles[0].0, styles[0].1);
    var l2 := SubtitleLine(ts[2], styles[2].0, styles[2].1);
    var l4 := SubtitleLine(ts[4], styles[4].0, styles[4].1);
    RunsPair(ts, styles, 0, []);
    assert [] + [l0] == [l0];
    RunsPair(ts, styles, 2, [l0]);
    RunsOne(ts, styles, 4, [l0, l2]);
    assert [l0, l2] + [l4] == [l0, l2, l4];
  }

  /** The cue text `Hello <font color="red">World</font>!`, written token by token, gives ("Hello ", ""), ("World", "red"), ("!", ""). */
  lemma SrtExample(text: string)
    requires text ==
      "Hello " + ("<" + (FontName("red") + (">" + ("World" + ("<" + ("/font" + (">" + "!")))))))
    ensures SrtSafe(Split(text, Delimiters))
    ensures SrtLines(text) == [
      SubtitleLine("Hello ", TextFormats.None, ""),
      SubtitleLine("World", TextFormats.None, "red"),
      SubtitleLine("!", TextFormats.None, "")]
  {
    SrtSampleTokens(text);
    var ts := Split(text, Delimiters);
    SrtSampleStates(ts);
    SrtStyleAt(ts, 0);
    SrtStyleAt(ts, 2);
    SrtStyleAt(ts, 4);
    SrtSampleRuns(ts, SrtStyles(ts));
  }
}

=== FILE: documents.dfy ===
/**
 * Subtitle: a document, the list of its cue objects, and the operations that
 * move the cues in time (AdjustTime, SyncTime), look one up (GetItemAt) and
 * write the document as SRT (RecordToSrt). What each operation does to the
 * cues is stated on values (seq<Cue>) by the functions of this module; the
 * methods are proved to leave exactly those values behind.
 */
module Documents {
  import opened Wrappers
  import opened Strings
  import opened Lines
  import opened Items
  import opened Decompose
  import opened Parsing
  import opened SrtMarkup
  import opened SubtitleTypes

  /* ---------- The cues as values ---------- */

  /** The values of a list of cue objects, in order. */
  function Snapshot(items: seq<SubtitleItem>): (r: seq<Cue>)
    reads items
    ensures |r| == |items|
    ensures forall k :: 0 <= k < |items| ==> r[k] == items[k].Value()
  {
    if items == [] then [] else Snapshot(items[..|items| - 1]) + [items[|items| - 1].Value()]
  }

  predicate InTicks(t: int) {
    MinTicks <= t <= MaxTicks
  }

  /* ---------- AdjustTime(TimeSpan): shift ---------- */

  function ShiftCue(c: Cue, delta: int): Cue
    requires InTicks(c.begin + delta) && InTicks(c.end + delta)
  {
    Cue(c.begin + delta, c.end + delta, c.lines)
  }

  /** No begin or end leaves the TimeSpan range when moved by delta (TimeSpan + throws). */
  predicate Shiftable(cs: seq<Cue>, delta: int) {
    forall k :: 0 <= k < |cs| ==> InTicks(cs[k].begin + delta) && InTicks(cs[k].end + delta)
  }

  /** Every cue moved by delta. */
  function Shift(cs: seq<Cue>, delta: int): (r: seq<Cue>)
    requires Shiftable(cs, delta)
    ensures |r| == |cs|
  {
    seq(|cs|, k requires 0 <= k < |cs| && Shiftable(cs, delta) => ShiftCue(cs[k], delta))
  }

  /**
   * Shifting keeps the count, the order and the lines; every begin and end
   * moves by exactly delta, so the durations are unchanged.
   */
  lemma ShiftKeeps(cs: seq<Cue>, delta: int)
    requires Shiftable(cs, delta)
    ensures |Shift(cs, delta)| == |cs|
    ensures forall k :: 0 <= k < |cs| ==>
      var c := Shift(cs, delta)[k];
      c.lines == cs[k].lines && c.begin == cs[k].begin + delta && c.end == cs[k].end + delta
      && c.end - c.begin == cs[k].end - cs[k].begin
  {
  }

  /** Shifting back by -delta restores every begin and end. */
  lemma ShiftBack(cs: seq<Cue>, delta: int)
    requires Shiftable(cs, delta)
    ensures Shiftable(Shift(cs, delta), -delta)
    ensures Shift(Shift(cs, delta), -delta) == cs
  {
    var r := Shift(cs, delta);
    assert Shiftable(r, -delta) by {
      forall k | 0 <= k < |r| ensures InTicks(r[k].begin - delta) && InTicks(r[k].end - delta) {
        assert r[k] == ShiftCue(cs[k], delta);
      }
    }
    var back := Shift(r, -delta);
    forall k | 0 <= k < |cs| ensures back[k] == cs[k] {
      assert r[k] == ShiftCue(cs[k], delta);
    }
  }

  /** Two shifts are one shift by the sum. */
  lemma ShiftTwice(cs: seq<Cue>, d1: int, d2: int)
    requires Shiftable(cs, d1) && Shiftable(Shift(cs, d1), d2)
    ensures Shiftable(cs, d1 + d2)
    ensures Shift(Shift(cs, d1), d2) == Shift(cs, d1 + d2)
  {
    var r := Shift(cs, d1);
    assert Shiftable(cs, d1 + d2) by {
      forall k | 0 <= k < |cs| ensures InTicks(cs[k].begin + (d1 + d2)) && InTicks(cs[k].end + (d1 + d2)) {
        assert r[k] == ShiftCue(cs[k], d1);
      }
    }
    forall k | 0 <= k < |cs| ensures Shift(r, d2)[k] == Shift(cs, d1 + d2)[k] {
      assert r[k] == ShiftCue(cs[k], d1);
    }
  }

  /* ---------- AdjustTime(int, int, TimeSpan, TimeSpan): rescale a range ---------- */

  /**
   * The floating-point step of the range rescale: for the target span
   * end - start, the source span Begin[last] - Begin[first] and an offset
   * from Begin[first], all in ticks, the ticks of
   * TimeSpan.FromMilliseconds(ratio * offset). It is a parameter of the model.
   */
  type Scale = (int, int, int) -> int

  /** The source span: from the first cue's begin to the last cue's begin. */
  function SourceSpan(cs: seq<Cue>, first: nat, last: nat): int
    requires first < |cs| && last < |cs|
  {
    cs[last].begin - cs[first].begin
  }

  /** The new time of a point offset ticks after the first begin. */
  function Rescaled(start: int, end: int, srcSpan: int, scale: Scale, offset: int): int {
    start + scale(end - start, srcSpan, offset)
  }

  /**
   * The range rescale runs to completion: both indices exist, no TimeSpan
   * subtraction or addition overflows, and the ratio is not NaN or infinite
   * at any point it is used (a zero source span makes ratio * 0 NaN at the
   * first cue, and FromMilliseconds throws). A scale step maps offset 0 to 0,
   * as FromMilliseconds(ratio * 0) does for a finite ratio.
   */
  predicate RangeDefined(cs: seq<Cue>, first: int, last: int, start: int, end: int, scale: Scale) {
    0 <= first < |cs| && 0 <= last < |cs|
    && InTicks(end - start) && InTicks(SourceSpan(cs, first, last))
    && (first <= last ==> SourceSpan(cs, first, last) != 0)
    && scale(end - start, SourceSpan(cs, first, last), 0) == 0
    && forall k :: first <= k <= last ==> PointDefined(cs, first, last, start, end, scale, k)
  }

  /**
   * Cue k's offsets from the first begin, the scaled spans FromMilliseconds
   * builds from them, and its rescaled begin and end, are all TimeSpans.
   */
  predicate PointDefined(cs: seq<Cue>, first: int, last: int, start: int, end: int, scale: Scale, k: int)
    requires 0 <= first < |cs| && 0 <= last < |cs|
  {
    0 <= k < |cs|
    && InTicks(cs[k].begin - cs[first].begin) && InTicks(cs[k].end - cs[first].begin)
    && InTicks(scale(end - start, SourceSpan(cs, first, last), cs[k].begin - cs[first].begin))
    && InTicks(scale(end - start, SourceSpan(cs, first, last), cs[k].end - cs[first].begin))
    && InTicks(Rescaled(start, end, SourceSpan(cs, first, last), scale, cs[k].begin - cs[first].begin))
    && InTicks(Rescaled(start, end, SourceSpan(cs, first, last), scale, cs[k].end - cs[first].begin))
  }

  function RescaleCue(c: Cue, base: int, start: int, end: int, srcSpan: int, scale: Scale): Cue
    requires InTicks(Rescaled(start, end, srcSpan, scale, c.begin - base))
    requires InTicks(Rescaled(start, end, srcSpan, scale, c.end - base))
  {
    Cue(Rescaled(start, end, srcSpan, scale, c.begin - base), Rescaled(start, end, srcSpan, scale, c.end - base), c.lines)
  }

  /** The cues first..last rescaled onto start..end; the others as they were. */
  function RescaleRange(cs: seq<Cue>, first: int, last: int, start: int, end: int, scale: Scale): (r: seq<Cue>)
    requires RangeDefined(cs, first, last, start, end, scale)
    ensures |r| == |cs|
  {
    var base, srcSpan := cs[first].begin, SourceSpan(cs, first, last);
    seq(|cs|, k requires 0 <= k < |cs| && RangeDefined(cs, first, last, start, end, scale) =>
      if first <= k <= last then
        assert PointDefined(cs, first, last, start, end, scale, k);
        RescaleCue(cs[k], base, start, end, srcSpan, scale)
      else cs[k])
  }

  /** The cue at index k after the range rescale. */
  lemma RescaleAt(cs: seq<Cue>, first: int, last: int, start: int, end: int, scale: Scale, k: int)
    requires RangeDefined(cs, first, last, start, end, scale) && 0 <= k < |cs|
    ensures first <= k <= last ==> PointDefined(cs, first, last, start, end, scale, k)
    ensures first <= k <= last ==>
      RescaleRange(cs, first, last, start, end, scale)[k] == RescaleCue(cs[k], cs[first].begin, start, end, SourceSpan(cs, first, last), scale)
    ensures !(first <= k <= last) ==> RescaleRange(cs, first, last, start, end, scale)[k] == cs[k]
  {
  }

  /**
   * The range rescale writes only the cues first..last, keeps every cue's
   * lines, and puts the first cue's begin exactly at start.
   */
  lemma RescaleRangeFrame(cs: seq<Cue>, first: int, last: int, start: int, end: int, scale: Scale)
    requires RangeDefined(cs, first, last, start, end, scale)
    ensures |RescaleRange(cs, first, last, start, end, scale)| == |cs|
    ensures forall k :: 0 <= k < |cs| && !(first <= k <= last) ==> RescaleRange(cs, first, last, start, end, scale)[k] == cs[k]
    ensures forall k :: 0 <= k < |cs| ==> RescaleRange(cs, first, last, start, end, scale)[k].lines == cs[k].lines
    ensures first <= last ==> RescaleRange(cs, first, last, start, end, scale)[first].begin == start
  {
  }

  /** AdjustTime(start, end) is the range rescale over the whole list, which must not be empty. */
  predicate WholeDefined(cs: seq<Cue>, start: int, end: int, scale: Scale) {
    |cs| > 0 && RangeDefined(cs, 0, |cs| - 1, start, end, scale)
  }

  /* ---------- SyncTime(Subtitle) ---------- */

  /** Equal counts copy the times pairwise; otherwise the reference's first and last begin rescale the list. */
  predicate SyncDefined(cs: seq<Cue>, reference: seq<Cue>, scale: Scale) {
    |cs| == |reference|
    || (|reference| > 0 && WholeDefined(cs, reference[0].begin, reference[|reference| - 1].begin, scale))
  }

  /** The times of the reference cue, the lines of one's own. */
  function Retime(c: Cue, from: Cue): Cue {
    Cue(from.begin, from.end, c.lines)
  }

  /** Every cue retimed to the reference cue at its index. */
  function RetimeAll(cs: seq<Cue>, reference: seq<Cue>): (r: seq<Cue>)
    requires |cs| == |reference|
    ensures |r| == |cs|
  {
    seq(|cs|, k requires 0 <= k < |cs| == |reference| => Retime(cs[k], reference[k]))
  }

  /**
   * SyncTime(Subtitle): with as many cues as the reference, its times by
   * index; otherwise the whole list rescaled onto its first and last begin.
   */
  function Sync(cs: seq<Cue>, reference: seq<Cue>, scale: Scale): (r: seq<Cue>)
    requires SyncDefined(cs, reference, scale)
    ensures |r| == |cs|
  {
    if |cs| == |reference| then RetimeAll(cs, reference)
    else RescaleRange(cs, 0, |cs| - 1, reference[0].begin, reference[|reference| - 1].begin, scale)
  }

  /**
   * With equal counts every cue takes the begin and end of the reference cue
   * at its index and keeps its lines; otherwise the first cue begins where the
   * reference's first begins, and the lines are kept too.
   */
  lemma SyncCopies(cs: seq<Cue>, reference: seq<Cue>, scale: Scale)
    requires SyncDefined(cs, reference, scale)
    ensures |cs| == |reference| ==> forall k :: 0 <= k < |cs| ==>
      Sync(cs, reference, scale)[k].begin == reference[k].begin && Sync(cs, reference, scale)[k].end == reference[k].end
    ensures forall k :: 0 <= k < |cs| ==> Sync(cs, reference, scale)[k].lines == cs[k].lines
    ensures |cs| != |reference| ==> Sync(cs, reference, scale)[0].begin == reference[0].begin
  {
    if |cs| != |reference| {
      RescaleRangeFrame(cs, 0, |cs| - 1, reference[0].begin, reference[|reference| - 1].begin, scale);
    }
  }

  /** Syncing to one's own times changes nothing. */
  lemma SyncSelf(cs: seq<Cue>, scale: Scale)
    ensures SyncDefined(cs, cs, scale)
    ensures Sync(cs, cs, scale) == cs
  {
  }

  /* ---------- GetItemAt(TimeSpan) ---------- */

  /** The index of the first cue that ends after time, |cs| if none does (FirstOrDefault). */
  function FirstEndingAfter(cs: seq<Cue>, time: int): (k: nat)
    ensures k <= |cs|
    ensures forall j :: 0 <= j < k ==> cs[j].end <= time
    ensures k < |cs| ==> cs[k].end > time
  {
    if cs == [] || cs[0].end > time then 0 else 1 + FirstEndingAfter(cs[1..], time)
  }

  /**
   * In a list whose cues are in order and do not overlap, the cue that
   * covers time is the one the lookup finds.
   */
  lemma LookupFindsCover(cs: seq<Cue>, time: int, i: nat)
    requires i < |cs| && cs[i].begin <= time < cs[i].end
    requires forall j :: 0 <= j < i ==> cs[j].end <= cs[i].begin
    ensures FirstEndingAfter(cs, time) == i
  {
  }

  /* ---------- RecordToSrt(TextWriter) ---------- */

  /** The decimal digits of n, as Int32.ToString writes a positive number. */
  function Decimal(n: nat): (r: string)
    ensures |r| >= 1
    ensures forall i :: 0 <= i < |r| ==> IsDigit(r[i])
    decreases n
  {
    DigitRoundTrip(n % 10);
    if n < 10 then [Digit(n)] else Decimal(n / 10) + [Digit(n % 10)]
  }

  /** Reads a string of decimal digits. */
  function ReadDecimal(s: string): int
    decreases |s|
  {
    if s == [] then 0 else ReadDecimal(s[..|s| - 1]) * 10 + DigitValue(s[|s| - 1])
  }

  lemma {:induction false} DecimalRoundTrip(n: nat)
    ensures ReadDecimal(Decimal(n)) == n
    decreases n
  {
    DigitRoundTrip(n % 10);
    if n >= 10 {
      DecimalRoundTrip(n / 10);
      var r := Decimal(n);
      assert r[..|r| - 1] == Decimal(n / 10);
    }
  }

  /**
   * What WriteLine("{0}\r\n{1}\r\n", number, text) writes for one cue: its
   * 1-based number, its SRT text, a blank-line CRLF and the writer's newline.
   */
  function SrtBlock(number: nat, c: Cue, newline: string): string {
    Decimal(number) + CRLF + CueSrt(c) + CRLF + newline
  }

  /** The text RecordToSrt writes for the cues, numbered from 1. */
  function SrtDocument(cs: seq<Cue>, newline: string): string {
    if cs == [] then "" else SrtDocument(cs[..|cs| - 1], newline) + SrtBlock(|cs|, cs[|cs| - 1], newline)
  }

  /** Writing one more cue appends its block, numbered by its position. */
  lemma SrtDocumentStep(cs: seq<Cue>, i: nat, newline: string)
    requires i < |cs|
    ensures SrtDocument(cs[..i + 1], newline) == SrtDocument(cs[..i], newline) + SrtBlock(i + 1, cs[i], newline)
  {
    assert cs[..i + 1][..i] == cs[..i];
  }

  /** A cue's time line, without its CRLF, holds the arrow and splits on spaces into the two stamps around it. */
  lemma TimeLineReadsBack(begin: int, end: int)
    ensures Contains(Stamp(begin) + " --> " + Stamp(end), " --> ")
    ensures SplitRemoveEmpty(Stamp(begin) + " --> " + Stamp(end), ' ') == [Stamp(begin), "-->", Stamp(end)]
  {
    StampRoundTrip(begin);
    StampRoundTrip(end);
    var a, b := Stamp(begin), Stamp(end);
    assert StartsWith((a + " --> " + b)[|a|..], " --> ");
    ContainsAt(a + " --> " + b, " --> ", |a|);
    StampFree(begin);
    StampFree(end);
    assert Free("-->", {' '});
    assert a + " --> " + b == a + " " + "-->" + " " + b;
    SplitSpaced(a, "-->", b);
  }

  /**
   * What RecordToSrt writes as a time line, TryParseFromSrt reads back: the
   * line holds the arrow, and with a time parser that reads each stamp as the
   * time it was written from, the reader takes exactly those two times and
   * the lines of the text below (or throws on a text FillSrtLines rejects).
   */
  lemma TimeLineRoundTrip(lines: seq<string>, q: nat, fr: TimeParser, local: TimeParser, begin: Ticks, end: Ticks)
    requires q < |lines| && lines[q] == Stamp(begin) + Arrow + Stamp(end)
    requires fr(Stamp(begin)) == Some(begin) && fr(Stamp(end)) == Some(end)
    ensures Contains(lines[q], Arrow)
    ensures SrtCue(lines, q, fr, local) ==
      if SrtSafe(Split(SrtCueText(lines, q), Delimiters)) then Emit(Cue(begin, end, SrtLines(SrtCueText(lines, q))))
      else Stop(Threw)
  {
    TimeLineReadsBack(begin, end);
  }

  /** A string contains whatever starts at one of its positions. */
  lemma {:induction false} ContainsAt(s: string, t: string, i: nat)
    requires i <= |s| && StartsWith(s[i..], t)
    ensures Contains(s, t)
    decreases i
  {
    if i > 0 {
      assert s[1..][i - 1..] == s[i..];
      ContainsAt(s[1..], t, i - 1);
    } else {
      assert s[0..] == s;
    }
  }

  /** A stamp holds no space. */
  lemma StampFree(t: int)
    ensures Free(Stamp(t), {' '}) && Stamp(t) != ""
  {
    StampRoundTrip(t);
    var s := Stamp(t);
    forall i | 0 <= i < |s| ensures s[i] != ' ' {
      StampChars(t, i);
    }
  }

  /** Each character of a stamp is a digit, a colon or a comma. */
  lemma StampChars(t: int, i: nat)
    requires i < 12
    ensures |Stamp(t)| == 12 && (IsDigit(Stamp(t)[i]) || Stamp(t)[i] == ':' || Stamp(t)[i] == ',')
  {
    StampRoundTrip(t);
    var s := Stamp(t);
    assert ReadStamp(s).Some?;
  }

  /** Two space-free words around a space-free middle, one space on each side, split back into the three. */
  lemma SplitSpaced(a: string, m: string, b: string)
    requires Free(a, {' '}) && Free(m, {' '}) && Free(b, {' '}) && a != "" && m != "" && b != ""
    ensures SplitRemoveEmpty(a + " " + m + " " + b, ' ') == [a, m, b]
  {
    var d := {' '};
    SplitFree(b, d);
    SplitAfter(m, ' ', b, d);
    SplitAfter(a, ' ', m + ([' '] + b), d);
    assert a + " " + m + " " + b == a + ([' '] + (m + ([' '] + b)));
    NonEmptyOf3(a, m, b);
  }

  lemma NonEmptyOf3(a: string, m: string, b: string)
    requires a != "" && m != "" && b != ""
    ensures NonEmpty([a, m, b]) == [a, m, b]
  {
    assert NonEmpty([b]) == [b] by {
      assert [b][1..] == [];
    }
    assert NonEmpty([m, b]) == [m, b] by {
      assert [m, b][1..] == [b];
    }
    assert [a, m, b][1..] == [m, b];
  }

  /** Appending one value after a concatenation. */
  lemma AppendOne<T>(a: seq<T>, b: seq<T>, x: T)
    ensures (a + b) + [x] == a + (b + [x])
  {
  }

  /* ---------- The document ---------- */

  /** How a call ends: it returns a bool, or an exception escapes it. */
  datatype Outcome = Returned(value: bool) | Raised

  /**
   * Subtitle: the list SubtitleItems of cue objects, which the parsers fill
   * and the timing operations update in place. The model keeps the objects
   * pairwise distinct, as the parsers create them.
   */
  class Subtitle {
    var SubtitleItems: seq<SubtitleItem>

    /** Subtitle(): an empty document. */
    constructor ()
      ensures SubtitleItems == [] && Valid()
    {
      SubtitleItems := [];
    }

    /**
     * Subtitle(file, type, encoding) over the file's lines: an empty document
     * filled by the reader of the type; a Sub file is left empty. An
     * exception from the reader escapes the constructor, so the reader must
     * not throw.
     */
    constructor Load(lines: seq<string>, t: SubtitleType, fr: TimeParser, local: TimeParser)
      requires t == Ass ==> ParseAss(lines, local).status != Threw
      requires t == Srt ==> ParseSrt(lines, fr, local).status != Threw
      ensures Valid()
      ensures t == Ass ==> Values() == ParseAss(lines, local).cues
      ensures t == Srt ==> Values() == ParseSrt(lines, fr, local).cues
      ensures t == Sub ==> SubtitleItems == []
    {
      SubtitleItems := [];
      new;
      assert Values() == [];
      match t
      case Ass =>
        var _ := TryParseFromAss(lines, local);
      case Srt =>
        var _ := TryParseFromSrt(lines, fr, local);
      case Sub =>
    }

    /** No cue object occurs twice in the list. */
    predicate Valid()
      reads this
    {
      forall j, k :: 0 <= j < k < |SubtitleItems| ==> SubtitleItems[j] != SubtitleItems[k]
    }

    /** The cues as values, in order. */
    function Values(): seq<Cue>
      reads this, SubtitleItems
    {
      Snapshot(SubtitleItems)
    }

    /** AdjustTime(TimeSpan): every begin and every end moves by delta; nothing else changes. */
    method AdjustTime(delta: int)
      requires Valid() && Shiftable(Values(), delta)
      modifies (set it <- SubtitleItems)`Begin, (set it <- SubtitleItems)`End
      ensures Values() == Shift(old(Values()), delta)
    {
      ghost var cs := Values();
      for i := 0 to |SubtitleItems|
        invariant forall k :: 0 <= k < |SubtitleItems| ==>
          SubtitleItems[k].Value() == if k < i then ShiftCue(cs[k], delta) else cs[k]
      {
        var item := SubtitleItems[i];
        item.Begin := item.Begin + delta;
        item.End := item.End + delta;
      }
      assert Values() == Shift(cs, delta);
    }

    /**
     * AdjustTime(int, int, TimeSpan, TimeSpan): the cues first..last are
     * rescaled onto start..end from the first cue's begin; the others and all
     * lines are left alone.
     */
    method AdjustTimeRange(first: int, last: int, start: int, end: int, scale: Scale)
      requires Valid() && RangeDefined(Values(), first, last, start, end, scale)
      modifies (set it <- SubtitleItems)`Begin, (set it <- SubtitleItems)`End
      ensures Values() == RescaleRange(old(Values()), first, last, start, end, scale)
    {
      ghost var cs := Values();
      ghost var target := RescaleRange(cs, first, last, start, end, scale);
      var firstBegin := SubtitleItems[first].Begin;
      var srcSpan := SubtitleItems[last].Begin - firstBegin;
      assert firstBegin == cs[first].begin && srcSpan == SourceSpan(cs, first, last);
      var i := first;
      while i <= last
        invariant first <= i && (first <= last ==> i <= last + 1)
        invariant forall k :: 0 <= k < |SubtitleItems| ==>
          SubtitleItems[k].Value() == if first <= k < i then target[k] else cs[k]
      {
        RescaleAt(cs, first, last, start, end, scale, i);
        var item := SubtitleItems[i];
        assert item.Value() == cs[i];
        RescaleItem(item, firstBegin, start, end, srcSpan, scale);
        assert item.Value() == target[i];
        forall k | 0 <= k < |SubtitleItems| && k != i
          ensures SubtitleItems[k].Value() == if first <= k < i then target[k] else cs[k]
        {
          assert SubtitleItems[k] != item;
        }
        i := i + 1;
      }
      forall k | 0 <= k < |SubtitleItems| ensures Values()[k] == target[k] {
        RescaleAt(cs, first, last, start, end, scale, k);
      }
    }

    /** One pass of the range rescale loop: one cue rescaled from base, its lines untouched. */
    static method RescaleItem(item: SubtitleItem, base: int, start: int, end: int, srcSpan: int, scale: Scale)
      requires InTicks(Rescaled(start, end, srcSpan, scale, item.Begin - base))
      requires InTicks(Rescaled(start, end, srcSpan, scale, item.End - base))
      modifies item`Begin, item`End
      ensures item.Value() == RescaleCue(old(item.Value()), base, start, end, srcSpan, scale)
    {
      item.Begin := start + scale(end - start, srcSpan, item.Begin - base);
      item.End := start + scale(end - start, srcSpan, item.End - base);
    }

    /** AdjustTime(TimeSpan, TimeSpan): the range rescale over every cue. */
    method AdjustTimeTo(start: int, end: int, scale: Scale)
      requires Valid() && WholeDefined(Values(), start, end, scale)
      modifies (set it <- SubtitleItems)`Begin, (set it <- SubtitleItems)`End
      ensures Values() == RescaleRange(old(Values()), 0, |SubtitleItems| - 1, start, end, scale)
    {
      AdjustTimeRange(0, |SubtitleItems| - 1, start, end, scale);
    }

    /**
     * SyncTime(Subtitle): with as many cues as the reference, take its times
     * pairwise; otherwise rescale onto its first and last begin. The
     * reference is only read.
     */
    method SyncTime(reference: Subtitle, scale: Scale)
      requires Valid() && reference != this
      requires forall j, k :: 0 <= j < |SubtitleItems| && 0 <= k < |reference.SubtitleItems| ==>
        SubtitleItems[j] != reference.SubtitleItems[k]
      requires SyncDefined(Values(), reference.Values(), scale)
      modifies (set it <- SubtitleItems)`Begin, (set it <- SubtitleItems)`End
      ensures Values() == Sync(old(Values()), old(reference.Values()), scale)
      ensures reference.Values() == old(reference.Values())
    {
      if |SubtitleItems| == |reference.SubtitleItems| {
        CopyTimes(reference);
      } else {
        var n := |reference.SubtitleItems|;
        AdjustTimeTo(reference.SubtitleItems[0].Begin, reference.SubtitleItems[n - 1].Begin, scale);
      }
    }

    /** The equal-count branch of SyncTime: each cue takes the times of the reference cue at its index. */
    method CopyTimes(reference: Subtitle)
      requires Valid() && reference != this && |SubtitleItems| == |reference.SubtitleItems|
      requires forall j, k :: 0 <= j < |SubtitleItems| && 0 <= k < |reference.SubtitleItems| ==>
        SubtitleItems[j] != reference.SubtitleItems[k]
      modifies (set it <- SubtitleItems)`Begin, (set it <- SubtitleItems)`End
      ensures Values() == RetimeAll(old(Values()), old(reference.Values()))
      ensures reference.Values() == old(reference.Values())
    {
      ghost var cs, ref := Values(), reference.Values();
      for i := 0 to |SubtitleItems|
        invariant forall k :: 0 <= k < |SubtitleItems| ==>
          SubtitleItems[k].Value() == if k < i then Retime(cs[k], ref[k]) else cs[k]
        invariant reference.Values() == ref
      {
        SubtitleItems[i].Begin := reference.SubtitleItems[i].Begin;
        SubtitleItems[i].End := reference.SubtitleItems[i].End;
      }
      assert Values() == RetimeAll(cs, ref);
    }

    /**
     * GetItemAt(TimeSpan): the first cue that ends after time, provided it
     * has begun by then; no cue (null) otherwise. Later cues are never
     * looked at.
     */
    function GetItemAt(time: int): (r: Option<SubtitleItem>)
      reads this, SubtitleItems
      ensures r.Some? ==> r.value in SubtitleItems && r.value.Begin <= time < r.value.End
      ensures r.Some? <==> (var k := FirstEndingAfter(Values(), time);
                            k < |SubtitleItems| && SubtitleItems[k].Begin <= time)
      ensures r.Some? ==> r.value == SubtitleItems[FirstEndingAfter(Values(), time)]
    {
      var k := FirstEndingAfter(Values(), time);
      if k == |SubtitleItems| || SubtitleItems[k].Begin > time then None else Some(SubtitleItems[k])
    }

    /** RecordToSrt(TextWriter): each cue numbered from 1, in order, as its SRT block. */
    method RecordToSrt(newline: string) returns (text: string)
      ensures text == SrtDocument(Values(), newline)
    {
      ghost var cs := Values();
      text := "";
      for i := 0 to |SubtitleItems|
        invariant text == SrtDocument(cs[..i], newline)
      {
        var cue := SubtitleItems[i].ToSrtString();
        var block := Decimal(i + 1) + CRLF + cue + CRLF + newline;
        assert block == SrtBlock(i + 1, cs[i], newline);
        SrtDocumentStep(cs, i, newline);
        text := text + block;
      }
      assert cs[..|SubtitleItems|] == cs;
    }
    /** SubtitleItems.Add: one more cue object, a new one, at the end. */
    method Add(si: SubtitleItem)
      requires Valid() && si !in SubtitleItems
      modifies this
      ensures Valid() && SubtitleItems == old(SubtitleItems) + [si]
      ensures Values() == old(Values()) + [si.Value()]
    {
      SubtitleItems := SubtitleItems + [si];
    }

    /**
     * TryParseFromSrt over the lines of a file: each time line found gives
     * one more cue at the end of the list, until the file ends (true when the
     * list, counting the cues it held before, is not empty), a time line is
     * refused (false), or a cue text makes FillSrtLines throw. The cues added
     * before it stops stay in the list.
     */
    method TryParseFromSrt(lines: seq<string>, fr: TimeParser, local: TimeParser) returns (outcome: Outcome)
      requires Valid()
      modifies this
      ensures Valid() && Values() == old(Values()) + ParseSrt(lines, fr, local).cues
      ensures old(SubtitleItems) <= SubtitleItems
      ensures outcome == Raised <==> ParseSrt(lines, fr, local).status == Threw
      ensures ParseSrt(lines, fr, local).status == Rejected ==> outcome == Returned(false)
      ensures ParseSrt(lines, fr, local).status == Finished ==> outcome == Returned(|SubtitleItems| > 0)
    {
      ghost var read := SrtReader(lines, fr, local);
      ghost var all := ParseSrt(lines, fr, local);
      ghost var initial := Values();
      ghost var added: seq<Cue> := [];
      var p := 0;
      while p < |lines|
        invariant p <= |lines| && Valid()
        invariant old(SubtitleItems) <= SubtitleItems
        invariant Values() == initial + added
        invariant all == Extend(added, ParseSrtFrom(lines, p, read))
        decreases |lines| - p
      {
        ghost var before := Values();
        var stop, next, c := SrtPass(lines, p, fr, local, read);
        if stop == Some(Finished) {
          break;
        } else if stop.Some? {
          outcome := if stop.value == Threw then Raised else Returned(false);
          return;
        }
        ExtendTwice(added, [c], ParseSrtFrom(lines, next, read));
        AppendOne(initial, added, c);
        added := added + [c];
        p := next;
      }
      outcome := Returned(|SubtitleItems| > 0);
    }

    /**
     * One pass of TryParseFromSrt's outer loop from line p: skip to the next
     * time line, then add the cue read makes of it at the end of the list,
     * or stop: normally when no time line is left, otherwise as read says.
     */
    method SrtPass(lines: seq<string>, p: nat, fr: TimeParser, local: TimeParser, ghost read: TimeLineReader)
      returns (stop: Option<Status>, next: nat, ghost c: Cue)
      requires p < |lines| && read == SrtReader(lines, fr, local) && Valid()
      modifies this
      ensures Valid()
      ensures stop.Some? ==> SubtitleItems == old(SubtitleItems)
      ensures stop.None? ==> |SubtitleItems| == |old(SubtitleItems)| + 1 && old(SubtitleItems) <= SubtitleItems && fresh(SubtitleItems[|old(SubtitleItems)|])
      ensures stop.Some? ==> Values() == old(Values()) && ParseSrtFrom(lines, p, read) == Parse([], stop.value)
      ensures stop.None? ==>
        p < next <= |lines| && Values() == old(Values()) + [c] &&
        ParseSrtFrom(lines, p, read) == Extend([c], ParseSrtFrom(lines, next, read))
    {
      var q := SeekArrow(lines, p);
      if q == |lines| {
        c := Cue(0, 0, []);
        return Some(Finished), p, c;
      }
      c := Cue(0, 0, []);
      stop, next := AddSrtCue(lines, q, fr, local, read);
      if stop.None? {
        c := read(q).cue;
      }
    }

    /** The cue read makes of the time line q is added at the end of the list, or the reader stops. */
    method AddSrtCue(lines: seq<string>, q: nat, fr: TimeParser, local: TimeParser, ghost read: TimeLineReader)
      returns (stop: Option<Status>, next: nat)
      requires q < |lines| && read == SrtReader(lines, fr, local) && Valid()
      modifies this
      ensures Valid()
      ensures stop.Some? ==> SubtitleItems == old(SubtitleItems)
      ensures stop.None? ==> |SubtitleItems| == |old(SubtitleItems)| + 1 && old(SubtitleItems) <= SubtitleItems && fresh(SubtitleItems[|old(SubtitleItems)|])
      ensures read(q).Stop? ==> stop == Some(read(q).status) && Values() == old(Values())
      ensures read(q).Emit? ==> stop == None && next == AfterCue(lines, q) && Values() == old(Values()) + [read(q).cue]
    {
      assert read(q) == SrtCue(lines, q, fr, local);
      var si, status;
      si, status, next := ReadSrtItem(lines, q, fr, local);
      if si == null {
        return Some(status), next;
      }
      Add(si);
      stop := None;
    }

    /**
     * One pass of TryParseFromSrt's loop at the time line q: the new cue
     * object with its times and its text's lines, or how the reader stops.
     */
    static method ReadSrtItem(lines: seq<string>, q: nat, fr: TimeParser, local: TimeParser)
      returns (si: SubtitleItem?, stop: Status, next: nat)
      requires q < |lines|
      ensures SrtCue(lines, q, fr, local).Stop? ==> si == null && stop == SrtCue(lines, q, fr, local).status
      ensures SrtCue(lines, q, fr, local).Emit? ==>
        si != null && fresh(si) && si.Value() == SrtCue(lines, q, fr, local).cue && next == AfterCue(lines, q)
    {
      var tokens := SplitRemoveEmpty(lines[q], ' ');
      if |tokens| < 3 {
        return null, Rejected, 0;
      }
      var begin, end := SrtTime(fr, local, tokens[0]), SrtTime(fr, local, tokens[2]);
      if begin.None? || end.None? {
        return null, Rejected, 0;
      }
      var text;
      text, next := ReadCueText(lines, q + 1);
      text := TrimEnd(text, {'\r', '\n'});
      if !SrtSafe(Split(text, Delimiters)) {
        return null, Threw, next;
      }
      si := new SubtitleItem();
      si.Begin, si.End := begin.value, end.value;
      FillSrtLines(text, si);
      stop := Finished;
    }

    /** The skipping loop of TryParseFromSrt: the first line from p on that holds the arrow. */
    static method SeekArrow(lines: seq<string>, p: nat) returns (q: nat)
      requires p <= |lines|
      ensures q == ArrowFrom(lines, p)
    {
      q := p;
      while q < |lines| && !Contains(lines[q], Arrow)
        invariant p <= q <= |lines| && ArrowFrom(lines, q) == ArrowFrom(lines, p)
        decreases |lines| - q
      {
        q := q + 1;
      }
    }

    /**
     * The text loop of TryParseFromSrt: the lines from start up to the next
     * empty one, each followed by CRLF, and the position after that empty line.
     */
    static method ReadCueText(lines: seq<string>, start: nat) returns (text: string, next: nat)
      requires start <= |lines|
      ensures text == Joined(lines[start..BlankFrom(lines, start)])
      ensures next == Next(lines, BlankFrom(lines, start))
    {
      text := "";
      var k := start;
      while k < |lines| && lines[k] != ""
        invariant start <= k <= |lines| && BlankFrom(lines, k) == BlankFrom(lines, start)
        invariant text == Joined(lines[start..k])
        decreases |lines| - k
      {
        assert lines[start..k + 1][..k - start] == lines[start..k];
        text := text + lines[k] + CRLF;
        k := k + 1;
      }
      next := Next(lines, k);
    }

    /**
     * TryParseFromAss over the lines of a file: find "[Events]", the
     * "Format:" line after it (none: false) and the first "dialogue:" line
     * after that; each dialogue line then gives one more cue at the end of the
     * list, until a line is no dialogue (true), a dialogue is refused (false),
     * or a format of fewer than three fields makes the indexing throw. The
     * cues added before it stops stay in the list.
     */
    method TryParseFromAss(lines: seq<string>, local: TimeParser) returns (outcome: Outcome)
      requires Valid()
      modifies this
      ensures Valid() && Values() == old(Values()) + ParseAss(lines, local).cues
      ensures old(SubtitleItems) <= SubtitleItems
      ensures outcome == Raised <==> ParseAss(lines, local).status == Threw
      ensures ParseAss(lines, local).status == Rejected ==> outcome == Returned(false)
      ensures ParseAss(lines, local).status == Finished ==> outcome == Returned(true)
    {
      var e := SeekPrefix(lines, 0, EventsHeader);
      var f := SeekPrefix(lines, Next(lines, e), FormatHeader);
      if f == |lines| {
        return Returned(false);
      }
      var number := |Split(lines[f], {','})|;
      var p := SeekPrefix(lines, Next(lines, f), DialogueHeader);
      outcome := ReadDialogues(lines, p, number, local, DialogueReader(number, local));
    }

    /**
     * The dialogue loop of TryParseFromAss from line p: each line that
     * starts with "dialogue:" adds its cue at the end of the list, until a
     * line does not (true), a dialogue is refused (false) or the indexing of
     * its fields throws.
     */
    method ReadDialogues(lines: seq<string>, p: nat, number: nat, local: TimeParser, ghost read: LineReader)
      returns (outcome: Outcome)
      requires p <= |lines| && Valid() && number >= 1 && forall line :: read(line) == Dialogue(line, number, local)
      modifies this
      ensures Valid() && Values() == old(Values()) + Dialogues(lines, p, read).cues
      ensures old(SubtitleItems) <= SubtitleItems
      ensures outcome == Raised <==> Dialogues(lines, p, read).status == Threw
      ensures Dialogues(lines, p, read).status == Rejected ==> outcome == Returned(false)
      ensures Dialogues(lines, p, read).status == Finished ==> outcome == Returned(true)
    {
      ghost var all := Dialogues(lines, p, read);
      ghost var initial := Values();
      ghost var added: seq<Cue> := [];
      var i := p;
      while i < |lines| && Starts(lines[i], DialogueHeader)
        invariant p <= i <= |lines| && Valid()
        invariant old(SubtitleItems) <= SubtitleItems
        invariant Values() == initial + added
        invariant all == Extend(added, Dialogues(lines, i, read))
        decreases |lines| - i
      {
        var stop, c := AssPass(lines, i, number, local, read);
        if stop.Some? {
          outcome := if stop.value == Threw then Raised else Returned(false);
          return;
        }
        ExtendStep(all, added, c, Dialogues(lines, i, read), Dialogues(lines, i + 1, read));
        AppendOne(initial, added, c);
        added := added + [c];
        i := i + 1;
      }
      outcome := Returned(true);
    }

    /**
     * One pass of TryParseFromAss's dialogue loop at line p: the cue read
     * makes of the line is added at the end of the list, or the reader stops.
     */
    method AssPass(lines: seq<string>, p: nat, number: nat, local: TimeParser, ghost read: LineReader)
      returns (stop: Option<Status>, ghost c: Cue)
      requires p < |lines| && Starts(lines[p], DialogueHeader) && Valid()
      requires number >= 1 && forall line :: read(line) == Dialogue(line, number, local)
      modifies this
      ensures Valid()
      ensures stop != Some(Finished)
      ensures stop.Some? ==> SubtitleItems == old(SubtitleItems)
      ensures stop.None? ==> |SubtitleItems| == |old(SubtitleItems)| + 1 && old(SubtitleItems) <= SubtitleItems && fresh(SubtitleItems[|old(SubtitleItems)|])
      ensures stop.Some? ==> Values() == old(Values()) && Dialogues(lines, p, read) == Parse([], stop.value)
      ensures stop.None? ==>
        Values() == old(Values()) + [c] && Dialogues(lines, p, read) == Extend([c], Dialogues(lines, p + 1, read))
    {
      assert read(lines[p]) == Dialogue(lines[p], number, local);
      c := Cue(0, 0, []);
      var si, status := ReadDialogue(lines[p], number, local);
      if si == null {
        return Some(status), c;
      }
      Add(si);
      c := read(lines[p]).cue;
      stop := None;
    }

    /**
     * One pass of TryParseFromAss's dialogue loop: the new cue object with
     * the times and the lines of the dialogue, or how the reader stops.
     */
    static method ReadDialogue(line: string, number: nat, local: TimeParser) returns (si: SubtitleItem?, stop: Status)
      requires number >= 1
      ensures Dialogue(line, number, local).Stop? ==> si == null && stop == Dialogue(line, number, local).status
      ensures Dialogue(line, number, local).Emit? ==> si != null && fresh(si) && si.Value() == Dialogue(line, number, local).cue
    {
      var tokens := SplitMax(line, ',', number);
      if |tokens| < number {
        return null, Rejected;
      }
      if |tokens| < 2 {
        return null, Threw;
      }
      var begin := local(tokens[1]);
      if begin.None? {
        return null, Rejected;
      }
      if |tokens| < 3 {
        return null, Threw;
      }
      var end := local(tokens[2]);
      if end.None? {
        return null, Rejected;
      }
      si := new SubtitleItem();
      si.Begin, si.End := begin.value, end.value;
      FillAssLines(AssText(tokens[|tokens| - 1]), si);
      stop := Finished;
    }

    /** The skipping loops of TryParseFromAss: the first line from p on that starts with the header. */
    static method SeekPrefix(lines: seq<string>, p: nat, header: string) returns (q: nat)
      requires p <= |lines|
      ensures q == PrefixFrom(lines, p, header)
    {
      q := p;
      while q < |lines| && !Starts(lines[q], header)
        invariant p <= q <= |lines| && PrefixFrom(lines, q, header) == PrefixFrom(lines, p, header)
        decreases |lines| - q
      {
        q := q + 1;
      }
    }
  }
}

=== FILE: encodings.dfy ===
/**
 * EncodingDetector.Detect: the encoding of a subtitle file is decided from
 * how many of its first four bytes were read and what they are. The
 * library Encoding objects become a tag.
 */
module Encodings {

  type byte = bv8

  datatype EncodingTag =
    | Utf32LittleEndian   // Encoding.UTF32
    | Utf16LittleEndian   // Encoding.Unicode
    | Utf16BigEndian      // Encoding.BigEndianUnicode
    | Utf8                // Encoding.UTF8

  /**
   * The byte order marks of the Unicode Standard, section 3.10 (Unicode
   * Encoding Schemes), for the encodings the detector can answer with,
   * longest first. UTF-8 is the default and needs no mark here.
   */
  const Marks: seq<(EncodingTag, seq<byte>)> := [
    (Utf32LittleEndian, [0xFF, 0xFE, 0x00, 0x00]),
    (Utf16LittleEndian, [0xFF, 0xFE]),
    (Utf16BigEndian, [0xFE, 0xFF])
  ]

  /** The encoding of the longest byte order mark the bytes read begin with; UTF-8 if none. */
  function MarkedEncoding(read: seq<byte>, marks: seq<(EncodingTag, seq<byte>)>): EncodingTag {
    if marks == [] then Utf8
    else if |marks[0].1| <= |read| && read[..|marks[0].1|] == marks[0].1 then marks[0].0
    else MarkedEncoding(read, marks[1..])
  }

  /**
   * Detect, after `count = fs.Read(buffer, 0, 4)`: the chain of tests on
   * count and the buffer. The answer depends only on the count bytes read,
   * and it is the encoding whose mark is the longest prefix of them.
   */
  function Detect(count: nat, buffer: seq<byte>): (e: EncodingTag)
    requires |buffer| == 4 && count <= 4
    ensures e == MarkedEncoding(buffer[..count], Marks)
  {
    var read := buffer[..count];
    MarkTable(read);
    assert count >= 2 ==> read[..2] == [buffer[0], buffer[1]];
    assert count == 4 ==> read[..4] == buffer;
    if count == 4 && buffer[0] == 0xFF && buffer[1] == 0xFE && buffer[2] == 0 && buffer[3] == 0 then
      Utf32LittleEndian
    else if count < 2 then Utf8
    else if buffer[0] == 0xFF && buffer[1] == 0xFE then Utf16LittleEndian
    else if buffer[0] == 0xFE && buffer[1] == 0xFF then Utf16BigEndian
    else Utf8
  }

  /** The table read mark by mark. */
  lemma MarkTable(read: seq<byte>)
    ensures MarkedEncoding(read, Marks) ==
      if |read| >= 4 && read[..4] == [0xFF, 0xFE, 0x00, 0x00] then Utf32LittleEndian
      else if |read| >= 2 && read[..2] == [0xFF, 0xFE] then Utf16LittleEndian
      else if |read| >= 2 && read[..2] == [0xFE, 0xFF] then Utf16BigEndian
      else Utf8
  {
    var m1 := Marks[1..];
    var m2 := m1[1..];
    assert m1[0] == (Utf16LittleEndian, [0xFF, 0xFE]);
    assert m2 == [(Utf16BigEndian, [0xFE, 0xFF])];
    assert MarkedEncoding(read, m2[1..]) == Utf8;
    assert MarkedEncoding(read, m2) ==
      if |read| >= 2 && read[..2] == [0xFE, 0xFF] then Utf16BigEndian else Utf8;
    assert MarkedEncoding(read, m1) ==
      if |read| >= 2 && read[..2] == [0xFF, 0xFE] then Utf16LittleEndian
      else MarkedEncoding(read, m2);
  }

  /** Bytes beyond the count read are never looked at. */
  lemma OnlyReadBytesMatter(count: nat, b1: seq<byte>, b2: seq<byte>)
    requires |b1| == 4 && |b2| == 4 && count <= 4
    requires b1[..count] == b2[..count]
    ensures Detect(count, b1) == Detect(count, b2)
  {
  }

  /** FF FE 00 00 read in full is UTF-32 rather than UTF-16 LE; with only three bytes read it is UTF-16 LE. */
  lemma Utf32BeforeUtf16(d: byte)
    ensures Detect(4, [0xFF, 0xFE, 0x00, 0x00]) == Utf32LittleEndian
    ensures Detect(3, [0xFF, 0xFE, 0x00, d]) == Utf16LittleEndian
    ensures Detect(4, [0xFF, 0xFE, 0x00, 0x01]) == Utf16LittleEndian
  {
  }

  /** Fewer than two bytes read is UTF-8 whatever they are; so is a UTF-8 or UTF-32 BE mark. */
  lemma DefaultsToUtf8(buffer: seq<byte>)
    requires |buffer| == 4
    ensures Detect(0, buffer) == Utf8 && Detect(1, buffer) == Utf8
    ensures Detect(3, [0xEF, 0xBB, 0xBF, 0x00]) == Utf8
    ensures Detect(4, [0x00, 0x00, 0xFE, 0xFF]) == Utf8
  {
  }
}

=== FILE: items.dfy ===
/**
 * SubtitleItem: one cue, a mutable object with a begin time, an end time
 * and the styled lines it shows. TimeSpan values are counted in ticks of
 * 100 ns, within the range of a signed 64-bit integer.
 */
module Items {
  import Wrappers
  import opened Strings
  import opened TextFormats
  import opened SrtMarkup
  import opened Lines

  const TicksPerMillisecond: int := 10_000
  const MillisecondsPerSecond: int := 1000
  const MillisecondsPerMinute: int := 60_000
  const MillisecondsPerHour: int := 3_600_000
  const MillisecondsPerDay: int := 86_400_000
  const MinTicks: int := -0x8000_0000_0000_0000
  const MaxTicks: int := 0x7FFF_FFFF_FFFF_FFFF

  /** A TimeSpan: a signed 64-bit count of ticks. */
  type Ticks = t: int | MinTicks <= t <= MaxTicks

  /* ---------- The hh\:mm\:ss\,fff custom TimeSpan format ---------- */

  function Digit(d: nat): char
    requires d < 10
  {
    (48 + d) as char
  }

  function DigitValue(c: char): int {
    c as int - 48
  }

  predicate IsDigit(c: char) {
    '0' <= c <= '9'
  }

  /** A number below 100 as exactly two digits. */
  function Pad2(n: nat): string
    requires n < 100
  {
    [Digit(n / 10), Digit(n % 10)]
  }

  /** A number below 1000 as exactly three digits. */
  function Pad3(n: nat): string
    requires n < 1000
  {
    [Digit(n / 100), Digit(n / 10 % 10), Digit(n % 10)]
  }

  function Abs(t: int): nat {
    if t < 0 then -t else t
  }

  /**
   * TimeSpan.ToString(@"hh\:mm\:ss\,fff"): the hours, minutes, seconds and
   * milliseconds components, each taken from the magnitude of the span (the
   * custom format prints no sign), the days dropped and the sub-millisecond
   * ticks truncated. The components are read off the whole milliseconds
   * |t| / 10000, which gives the same values as dividing the ticks.
   */
  function Stamp(t: int): string {
    var ms := Abs(t) / TicksPerMillisecond;
    Pad2(ms / MillisecondsPerHour % 24) + ":" + Pad2(ms / MillisecondsPerMinute % 60) + ":"
    + Pad2(ms / MillisecondsPerSecond % 60) + "," + Pad3(ms % MillisecondsPerSecond)
  }

  /** Reads an hh:mm:ss,fff stamp back to milliseconds since midnight. */
  function ReadStamp(s: string): Wrappers.Option<int> {
    if |s| == 12 && s[2] == ':' && s[5] == ':' && s[8] == ','
       && IsDigit(s[0]) && IsDigit(s[1]) && IsDigit(s[3]) && IsDigit(s[4])
       && IsDigit(s[6]) && IsDigit(s[7]) && IsDigit(s[9]) && IsDigit(s[10]) && IsDigit(s[11])
    then
      var h := DigitValue(s[0]) * 10 + DigitValue(s[1]);
      var m := DigitValue(s[3]) * 10 + DigitValue(s[4]);
      var sec := DigitValue(s[6]) * 10 + DigitValue(s[7]);
      var f := DigitValue(s[9]) * 100 + DigitValue(s[10]) * 10 + DigitValue(s[11]);
      Wrappers.Some(h * MillisecondsPerHour + m * MillisecondsPerMinute + sec * MillisecondsPerSecond + f)
    else Wrappers.None
  }

  lemma DigitRoundTrip(d: nat)
    requires d < 10
    ensures IsDigit(Digit(d)) && DigitValue(Digit(d)) == d
  {
  }

  lemma DivUnique(a: int, d: int, q: int, r: int)
    requires d > 0 && a == q * d + r && 0 <= r < d
    ensures a / d == q && a % d == r
  {
    var k := q - a / d;
    assert k * d == a % d - r;
    MulBounds(k, d);
  }

  lemma MulBounds(k: int, d: int)
    requires d > 0
    ensures k >= 1 ==> k * d >= d
    ensures k <= -1 ==> k * d <= -d
  {
    if k >= 1 {
      assert k * d == (k - 1) * d + d;
    } else if k <= -1 {
      assert k * d == -((-k - 1) * d) - d;
    }
  }

  /** Whole milliseconds split into hours (mod 24), minutes, seconds and milliseconds. */
  lemma MixedRadix(ms: nat)
    ensures (ms / MillisecondsPerHour % 24) * MillisecondsPerHour + (ms / MillisecondsPerMinute % 60) * MillisecondsPerMinute
            + (ms / MillisecondsPerSecond % 60) * MillisecondsPerSecond + ms % MillisecondsPerSecond
            == ms % MillisecondsPerDay
  {
    var q1, f := ms / 1000, ms % 1000;
    var q2, sec := q1 / 60, q1 % 60;
    var q3, m := q2 / 60, q2 % 60;
    var q4, h := q3 / 24, q3 % 24;
    DivUnique(ms, 60_000, q2, sec * 1000 + f);
    DivUnique(ms, 3_600_000, q3, m * 60_000 + sec * 1000 + f);
    DivUnique(ms, 86_400_000, q4, h * 3_600_000 + m * 60_000 + sec * 1000 + f);
  }

  lemma Pad2Digits(n: nat)
    requires n < 100
    ensures IsDigit(Pad2(n)[0]) && IsDigit(Pad2(n)[1])
    ensures DigitValue(Pad2(n)[0]) * 10 + DigitValue(Pad2(n)[1]) == n
  {
    DigitRoundTrip(n / 10);
    DigitRoundTrip(n % 10);
  }

  lemma Pad3Digits(n: nat)
    requires n < 1000
    ensures IsDigit(Pad3(n)[0]) && IsDigit(Pad3(n)[1]) && IsDigit(Pad3(n)[2])
    ensures DigitValue(Pad3(n)[0]) * 100 + DigitValue(Pad3(n)[1]) * 10 + DigitValue(Pad3(n)[2]) == n
  {
    DigitRoundTrip(n / 100);
    DigitRoundTrip(n / 10 % 10);
    DigitRoundTrip(n % 10);
  }

  /** An hh:mm:ss,fff stamp reads back as the milliseconds of the span's magnitude within its day. */
  lemma StampRoundTrip(t: int)
    ensures |Stamp(t)| == 12
    ensures ReadStamp(Stamp(t)) == Wrappers.Some(Abs(t) / TicksPerMillisecond % MillisecondsPerDay)
  {
    var ms := Abs(t) / TicksPerMillisecond;
    var h, m := ms / MillisecondsPerHour % 24, ms / MillisecondsPerMinute % 60;
    var sec, f := ms / MillisecondsPerSecond % 60, ms % MillisecondsPerSecond;
    var ph, pm, ps, pf := Pad2(h), Pad2(m), Pad2(sec), Pad3(f);
    var s := Stamp(t);
    assert s == ph + ":" + pm + ":" + ps + "," + pf;
    Pad2Digits(h);
    Pad2Digits(m);
    Pad2Digits(sec);
    Pad3Digits(f);
    assert s[0] == ph[0] && s[1] == ph[1] && s[2] == ':';
    assert s[3] == pm[0] && s[4] == pm[1] && s[5] == ':';
    assert s[6] == ps[0] && s[7] == ps[1] && s[8] == ',';
    assert s[9] == pf[0] && s[10] == pf[1] && s[11] == pf[2];
    MixedRadix(ms);
  }

  /* ---------- Format differences (GetSrtFormatString, GetSrtDifferentFormatString) ---------- */

  /**
   * GetSrtFormatString: a single flag gives its open tag, the bitwise
   * complement of a single flag its close tag, every other code "".
   */
  function GetSrtFormatString(code: TextFormat): (r: string)
    ensures forall s :: code == Bit(s) ==> r == OpenTag(s)
    ensures forall s :: code == !Bit(s) ==> r == CloseTag(s)
    ensures (forall s :: code != Bit(s) && code != !Bit(s)) ==> r == ""
  {
    TagLiterals();
    if code == 1 then "<b>"
    else if code == 2 then "<i>"
    else if code == 4 then "<u>"
    else if code == 8 then "<s>"
    else if code == !1 then "</b>"
    else if code == !2 then "</i>"
    else if code == !4 then "</u>"
    else if code == !8 then "</s>"
    else ""
  }

  /** What the k-th value of Enum.GetValues adds to the difference from o to n. */
  function DiffTag(o: TextFormat, n: TextFormat, k: nat): string
    requires k < |Values|
  {
    var item := Values[k];
    if HasFlag(o, item) && !HasFlag(n, item) then GetSrtFormatString(!item)
    else if !HasFlag(o, item) && HasFlag(n, item) then GetSrtFormatString(item)
    else ""
  }

  /** The difference once the first k values of Enum.GetValues have been visited. */
  function DiffUpTo(o: TextFormat, n: TextFormat, k: nat): string
    requires k <= |Values|
  {
    if k == 0 then "" else DiffUpTo(o, n, k - 1) + DiffTag(o, n, k - 1)
  }

  /** The tags that take an SRT reader from format o to format n. */
  function Diff(o: TextFormat, n: TextFormat): string {
    DiffUpTo(o, n, |Values|)
  }

  /** GetSrtDifferentFormatString: walks Enum.GetValues accumulating the tags. */
  method GetSrtDifferentFormatString(oldFormat: TextFormat, newFormat: TextFormat) returns (result: string)
    ensures result == Diff(oldFormat, newFormat)
    ensures result == Render(DiffPieces(oldFormat, newFormat, AllStyles))
  {
    result := "";
    var k := 0;
    while k < |Values|
      invariant 0 <= k <= |Values|
      invariant result == DiffUpTo(oldFormat, newFormat, k)
    {
      var item := Values[k];
      if HasFlag(oldFormat, item) && !HasFlag(newFormat, item) {
        result := result + GetSrtFormatString(!item);
      } else if !HasFlag(oldFormat, item) && HasFlag(newFormat, item) {
        result := result + GetSrtFormatString(item);
      }
      k := k + 1;
    }
    DiffByStyle(oldFormat, newFormat);
  }

  /** The tag one style contributes to the difference from o to n. */
  function StyleDiff(o: TextFormat, n: TextFormat, s: Style): seq<Piece> {
    if HasFlag(o, Bit(s)) && !HasFlag(n, Bit(s)) then [Tag(CloseName(s))]
    else if !HasFlag(o, Bit(s)) && HasFlag(n, Bit(s)) then [Tag(TagName(s))]
    else []
  }

  /** The difference style by style, in the order given. */
  function DiffPieces(o: TextFormat, n: TextFormat, styles: seq<Style>): seq<Piece> {
    if styles == [] then []
    else DiffPieces(o, n, styles[..|styles| - 1]) + StyleDiff(o, n, styles[|styles| - 1])
  }

  /** From the second on, the k-th value of Enum.GetValues adds the tag of the (k-1)-th style. */
  lemma DiffTagStyle(o: TextFormat, n: TextFormat, k: nat)
    requires k < |Values|
    ensures DiffTag(o, n, k) == if k == 0 then "" else Render(StyleDiff(o, n, AllStyles[k - 1]))
  {
    if k > 0 {
      var s := AllStyles[k - 1];
      ValuesAscend();
      assert Values[k] == Bit(s);
      ComplementIsNoFormat(s, 0);
      var d := StyleDiff(o, n, s);
      if d != [] {
        assert Render(d) == RenderPiece(d[0]) + "";
      }
    }
  }

  lemma {:induction false} DiffUpToPieces(o: TextFormat, n: TextFormat, k: nat)
    requires 1 <= k <= |Values|
    ensures DiffUpTo(o, n, k) == Render(DiffPieces(o, n, AllStyles[..k - 1]))
  {
    DiffTagStyle(o, n, k - 1);
    if k == 1 {
      assert DiffUpTo(o, n, 1) == "" + "";
    } else {
      DiffUpToPieces(o, n, k - 1);
      var prefix := AllStyles[..k - 1];
      assert prefix[..|prefix| - 1] == AllStyles[..k - 2];
      assert prefix[|prefix| - 1] == AllStyles[k - 2];
      RenderAppend(DiffPieces(o, n, AllStyles[..k - 2]), StyleDiff(o, n, AllStyles[k - 2]));
    }
  }

  /** The tags GetSrtDifferentFormatString emits, style by style in declaration order. */
  lemma DiffByStyle(o: TextFormat, n: TextFormat)
    ensures Diff(o, n) == Render(DiffPieces(o, n, AllStyles))
  {
    DiffUpToPieces(o, n, |Values|);
    assert AllStyles[..|Values| - 1] == AllStyles;
  }

  /** Equal formats differ by nothing. */
  lemma {:induction false} DiffSame(f: TextFormat, styles: seq<Style>)
    ensures DiffPieces(f, f, styles) == []
  {
    if styles != [] {
      DiffSame(f, styles[..|styles| - 1]);
    }
  }

  lemma DiffSameEmpty(f: TextFormat)
    ensures Diff(f, f) == ""
  {
    DiffByStyle(f, f);
    DiffSame(f, AllStyles);
  }

  /**
   * From no format the difference opens the styles of n, and back to no
   * format it closes them, in the same order SubtitleLine writes them.
   */
  lemma {:induction false} DiffWithNone(f: TextFormat, styles: seq<Style>)
    ensures DiffPieces(None, f, styles) == FormatPieces(f, styles, true)
    ensures DiffPieces(f, None, styles) == FormatPieces(f, styles, false)
  {
    if styles != [] {
      var last := styles[|styles| - 1];
      DiffWithNone(f, styles[..|styles| - 1]);
      FlagsAreSingleBits(last, last);
      assert !HasFlag(None, Bit(last));
    }
  }

  /** The difference is tags only: no text, no stray bracket. */
  lemma {:induction false} DiffPiecesTagsOnly(o: TextFormat, n: TextFormat, styles: seq<Style>)
    ensures ChunkText(DiffPieces(o, n, styles)) == ""
    ensures Clean(DiffPieces(o, n, styles))
  {
    if styles != [] {
      var init, last := styles[..|styles| - 1], styles[|styles| - 1];
      DiffPiecesTagsOnly(o, n, init);
      var d := StyleDiff(o, n, last);
      assert ChunkText(d) == "" && Clean(d) by {
        assert Free(TagName(last), Delimiters) && Free(CloseName(last), Delimiters) by {
          match last
          case Bold =>
          case Italic =>
          case Underline =>
          case Strikethrough =>
        }
        if d != [] {
          assert ChunkText(d) == "" + "";
        }
      }
      RenderAppend(DiffPieces(o, n, init), d);
      CleanAppend(DiffPieces(o, n, init), d);
    }
  }

  /* ---------- The SRT text of a cue ---------- */

  /** A cue as a value: its times and its lines. */
  datatype Cue = Cue(begin: Ticks, end: Ticks, lines: seq<SubtitleLine>)

  /** The contents of the lines, in order. */
  function Contents(ls: seq<SubtitleLine>): string {
    if ls == [] then "" else Contents(ls[..|ls| - 1]) + ls[|ls| - 1].content
  }

  /** The colour in force before line k: that of line k-1, "" before the first. */
  function PrevColor(ls: seq<SubtitleLine>, k: nat): string
    requires k <= |ls|
  {
    if k == 0 then "" else ls[k - 1].color
  }

  /** The format in force before line k: that of line k-1, None before the first. */
  function PrevFormat(ls: seq<SubtitleLine>, k: nat): TextFormat
    requires k <= |ls|
  {
    if k == 0 then TextFormats.None else ls[k - 1].format
  }

  /** Leaving a non-empty colour closes its font tag; entering a non-empty colour opens one; nothing if they agree. */
  function ColorChange(prev: string, next: string): seq<Piece> {
    if prev == next then []
    else (if prev != "" then [Tag(FontCloseName)] else []) + (if next != "" then [Tag(FontName(next))] else [])
  }

  /** What line i adds: the colour change, then the format difference, then its content. */
  function RunPieces(ls: seq<SubtitleLine>, i: nat): seq<Piece>
    requires i < |ls|
  {
    ColorChange(PrevColor(ls, i), ls[i].color) + DiffPieces(PrevFormat(ls, i), ls[i].format, AllStyles)
    + [Chunk(ls[i].content)]
  }

  /** What the first k lines add. */
  function WrittenPieces(ls: seq<SubtitleLine>, k: nat): seq<Piece>
    requires k <= |ls|
  {
    if k == 0 then [] else WrittenPieces(ls, k - 1) + RunPieces(ls, k - 1)
  }

  /** After the last line: the difference back to no format, then the font close if a colour is open. */
  function ClosingPieces(ls: seq<SubtitleLine>): seq<Piece> {
    DiffPieces(PrevFormat(ls, |ls|), TextFormats.None, AllStyles)
    + (if PrevColor(ls, |ls|) != "" then [Tag(FontCloseName)] else [])
  }

  /** What all the lines add. */
  function AllWritten(ls: seq<SubtitleLine>): seq<Piece> {
    WrittenPieces(ls, |ls|)
  }

  function BodyPieces(ls: seq<SubtitleLine>): seq<Piece> {
    AllWritten(ls) + ClosingPieces(ls)
  }

  /** The time line of a cue: "hh:mm:ss,fff --> hh:mm:ss,fff" and CRLF. */
  function TimeLine(begin: int, end: int): string {
    Stamp(begin) + " --> " + Stamp(end) + CRLF
  }

  /** SubtitleItem.ToSrtString as a function of the cue. */
  function CueSrt(c: Cue): string {
    TimeLine(c.begin, c.end) + Render(BodyPieces(c.lines))
  }

  lemma ColorChangeRender(prev: string, next: string)
    ensures Render(ColorChange(prev, next)) ==
      if prev == next then ""
      else (if prev != "" then FontClose else "") + (if next != "" then FontOpen(next) else "")
    ensures ChunkText(ColorChange(prev, next)) == ""
    ensures Free(prev, Delimiters) && Free(next, Delimiters) ==> Clean(ColorChange(prev, next))
  {
    var a: seq<Piece> := if prev != "" then [Tag(FontCloseName)] else [];
    var b: seq<Piece> := if next != "" then [Tag(FontName(next))] else [];
    ColorPiecesRender(prev, false);
    ColorPiecesRender(next, true);
    assert a == ColorPieces(prev, false) && b == ColorPieces(next, true);
    RenderAppend(a, b);
    if Free(prev, Delimiters) && Free(next, Delimiters) {
      CleanAppend(a, b);
    }
  }

  /** Line i is written as its colour change, its format difference and its content. */
  lemma RunPiecesRender(ls: seq<SubtitleLine>, i: nat)
    requires i < |ls|
    ensures Render(RunPieces(ls, i)) ==
      Render(ColorChange(PrevColor(ls, i), ls[i].color)) + Render(DiffPieces(PrevFormat(ls, i), ls[i].format, AllStyles))
      + ls[i].content
    ensures ChunkText(RunPieces(ls, i)) == ls[i].content
  {
    var c, d := ColorChange(PrevColor(ls, i), ls[i].color), DiffPieces(PrevFormat(ls, i), ls[i].format, AllStyles);
    TagsThenText(c, d, ls[i].content);
    ColorChangeRender(PrevColor(ls, i), ls[i].color);
    DiffPiecesTagsOnly(PrevFormat(ls, i), ls[i].format, AllStyles);
  }

  /** The only text line i adds is its content. */
  lemma RunChunk(ls: seq<SubtitleLine>, i: nat)
    requires i < |ls|
    ensures ChunkText(RunPieces(ls, i)) == ls[i].content
  {
    var c, d := ColorChange(PrevColor(ls, i), ls[i].color), DiffPieces(PrevFormat(ls, i), ls[i].format, AllStyles);
    ChunkConcat(c, d);
    ChunkConcat(c + d, [Chunk(ls[i].content)]);
    assert ChunkText([Chunk(ls[i].content)]) == ls[i].content + "";
    ColorChangeRender(PrevColor(ls, i), ls[i].color);
    DiffPiecesTagsOnly(PrevFormat(ls, i), ls[i].format, AllStyles);
  }

  lemma TagsThenText(c: seq<Piece>, d: seq<Piece>, text: string)
    ensures Render(c + d + [Chunk(text)]) == Render(c) + Render(d) + text
    ensures ChunkText(c + d + [Chunk(text)]) == ChunkText(c) + ChunkText(d) + text
  {
    var t := [Chunk(text)];
    RenderAppend(c, d);
    RenderAppend(c + d, t);
    assert Render(t) == text + "" && ChunkText(t) == text + "";
  }

  /** The colour part of ToSrtString's loop body builds the rendering of the colour change. */
  lemma ColorStep(prev: string, next: string, change: string)
    requires change == if prev == next then ""
      else if next != "" then (if prev != "" then FontClose else "") + FontOpen(next)
      else if prev != "" then FontClose else ""
    ensures change == Render(ColorChange(prev, next))
  {
    ColorChangeRender(prev, next);
    if prev != next && next == "" {
      assert (if prev != "" then FontClose else "") + "" == (if prev != "" then FontClose else "");
    }
  }

  /** Writing line k appends the colour change, the format difference and the content. */
  lemma RunRender(ls: seq<SubtitleLine>, k: nat)
    requires k < |ls|
    ensures Render(WrittenPieces(ls, k + 1)) ==
      Render(WrittenPieces(ls, k)) + (Render(ColorChange(PrevColor(ls, k), ls[k].color))
      + Render(DiffPieces(PrevFormat(ls, k), ls[k].format, AllStyles)) + ls[k].content)
    ensures ChunkText(WrittenPieces(ls, k + 1)) == ChunkText(WrittenPieces(ls, k)) + ls[k].content
  {
    RenderAppend(WrittenPieces(ls, k), RunPieces(ls, k));
    RunPiecesRender(ls, k);
  }

  /** The loop step of ToSrtString: appending line k's strings extends the written text by line k. */
  lemma WriteStep(ls: seq<SubtitleLine>, k: nat, header: string, sb: string, next: string)
    requires k < |ls|
    requires sb == header + Render(WrittenPieces(ls, k))
    requires next == sb + Render(ColorChange(PrevColor(ls, k), ls[k].color))
      + Render(DiffPieces(PrevFormat(ls, k), ls[k].format, AllStyles)) + ls[k].content
    ensures next == header + Render(WrittenPieces(ls, k + 1))
  {
    var change := Render(ColorChange(PrevColor(ls, k), ls[k].color));
    var diff := Render(DiffPieces(PrevFormat(ls, k), ls[k].format, AllStyles));
    RunRender(ls, k);
    AppendAssoc(header, Render(WrittenPieces(ls, k)), change + diff, ls[k].content);
    AppendAssoc(header + Render(WrittenPieces(ls, k)), change, diff, ls[k].content);
  }

  /** The closing tags: the difference back to no format, then the font close if a colour is open. */
  lemma ClosingRender(ls: seq<SubtitleLine>)
    ensures Render(ClosingPieces(ls)) ==
      Render(DiffPieces(PrevFormat(ls, |ls|), TextFormats.None, AllStyles))
      + (if PrevColor(ls, |ls|) != "" then FontClose else "")
  {
    var d := DiffPieces(PrevFormat(ls, |ls|), TextFormats.None, AllStyles);
    var e := ColorPieces(PrevColor(ls, |ls|), false);
    ColorPiecesRender(PrevColor(ls, |ls|), false);
    assert ClosingPieces(ls) == d + e;
    RenderAppend(d, e);
  }

  /** The end of ToSrtString: the difference back to no format and the font close complete the body. */
  lemma CloseStep(ls: seq<SubtitleLine>, k: nat, header: string, sb: string, format: TextFormat, color: string,
                  closing: string, closeColor: string)
    requires k == |ls|
    requires sb == header + Render(WrittenPieces(ls, k))
    requires format == PrevFormat(ls, k) && color == PrevColor(ls, k)
    requires closing == Render(DiffPieces(format, TextFormats.None, AllStyles))
    requires closeColor == if color != "" then FontClose else ""
    ensures sb + closing + closeColor == header + Render(BodyPieces(ls))
  {
    assert WrittenPieces(ls, k) == AllWritten(ls);
    ClosingRender(ls);
    RenderAppend(AllWritten(ls), ClosingPieces(ls));
    AppendAssoc(header, Render(AllWritten(ls)), closing, closeColor);
  }

  lemma AppendAssoc(a: string, b: string, c: string, d: string)
    ensures a + (b + (c + d)) == a + b + c + d
    ensures a + (b + c) == a + b + c
  {
  }

  lemma RenderFour(a: seq<Piece>, b: seq<Piece>, c: seq<Piece>, d: seq<Piece>)
    ensures Render(a + b + c + d) == Render(a) + Render(b) + Render(c) + Render(d)
    ensures ChunkText(a + b + c + d) == ChunkText(a) + ChunkText(b) + ChunkText(c) + ChunkText(d)
  {
    RenderAppend(a, b);
    RenderAppend(a + b, c);
    RenderAppend(a + b + c, d);
  }

  /** No content and no colour holds a bracket. */
  predicate LinesClean(ls: seq<SubtitleLine>) {
    forall i {:trigger LineFree(ls[i])} :: 0 <= i < |ls| ==> LineFree(ls[i])
  }

  /** Neither the content nor the colour of a line holds a bracket. */
  predicate LineFree(l: SubtitleLine) {
    Free(l.content, Delimiters) && Free(l.color, Delimiters)
  }

  /** The text among the first k lines' pieces is their contents, in order. */
  lemma {:induction false} WrittenText(ls: seq<SubtitleLine>, k: nat)
    requires k <= |ls|
    ensures ChunkText(WrittenPieces(ls, k)) == Contents(ls[..k])
  {
    if k > 0 {
      WrittenText(ls, k - 1);
      WrittenChunkStep(ls, k);
      ContentsStep(ls, k);
    }
  }

  /** Line k - 1 adds its content to the text of the pieces written before it. */
  lemma WrittenChunkStep(ls: seq<SubtitleLine>, k: nat)
    requires 0 < k <= |ls|
    ensures ChunkText(WrittenPieces(ls, k)) == ChunkText(WrittenPieces(ls, k - 1)) + ls[k - 1].content
  {
    var before, run := WrittenPieces(ls, k - 1), RunPieces(ls, k - 1);
    assert WrittenPieces(ls, k) == before + run;
    ChunkConcat(before, run);
    RunChunk(ls, k - 1);
  }

  /** The contents of the first k lines extend those of the first k - 1. */
  lemma ContentsStep(ls: seq<SubtitleLine>, k: nat)
    requires 0 < k <= |ls|
    ensures Contents(ls[..k]) == Contents(ls[..k - 1]) + ls[k - 1].content
  {
    var prefix := ls[..k];
    assert prefix[..k - 1] == ls[..k - 1];
  }

  lemma RunClean(ls: seq<SubtitleLine>, i: nat)
    requires i < |ls| && LinesClean(ls)
    ensures Clean(RunPieces(ls, i))
  {
    assert LineFree(ls[i]);
    assert Free(PrevColor(ls, i), Delimiters) by {
      if i > 0 {
        assert LineFree(ls[i - 1]);
      }
    }
    ColorChangeRender(PrevColor(ls, i), ls[i].color);
    DiffPiecesTagsOnly(PrevFormat(ls, i), ls[i].format, AllStyles);
    CleanTagsThenText(ColorChange(PrevColor(ls, i), ls[i].color), DiffPieces(PrevFormat(ls, i), ls[i].format, AllStyles), ls[i].content);
  }

  lemma CleanTagsThenText(c: seq<Piece>, d: seq<Piece>, text: string)
    requires Clean(c) && Clean(d) && Free(text, Delimiters)
    ensures Clean(c + d + [Chunk(text)])
  {
    assert Clean([Chunk(text)]);
    CleanAppend(c, d);
    CleanAppend(c + d, [Chunk(text)]);
  }

  /** The runs in rs, one after another. */
  function RunsJoined(rs: seq<seq<Piece>>): seq<Piece> {
    if rs == [] then [] else RunsJoined(rs[..|rs| - 1]) + rs[|rs| - 1]
  }

  /** Clean runs, put one after another, are clean. */
  lemma {:induction false} RunsJoinedClean(rs: seq<seq<Piece>>)
    requires forall i :: 0 <= i < |rs| ==> Clean(rs[i])
    ensures Clean(RunsJoined(rs))
  {
    if rs != [] {
      RunsJoinedClean(rs[..|rs| - 1]);
      CleanAppend(RunsJoined(rs[..|rs| - 1]), rs[|rs| - 1]);
    }
  }

  /** The first k lines' pieces are their runs, one after another. */
  lemma {:induction false} WrittenRunsJoined(ls: seq<SubtitleLine>, rs: seq<seq<Piece>>, k: nat)
    requires k <= |ls| == |rs|
    requires forall i :: 0 <= i < |ls| ==> rs[i] == RunPieces(ls, i)
    ensures WrittenPieces(ls, k) == RunsJoined(rs[..k])
  {
    if k > 0 {
      WrittenRunsJoined(ls, rs, k - 1);
      assert rs[..k][..k - 1] == rs[..k - 1];
    }
  }

  /** The first k lines' pieces hold no stray bracket. */
  lemma WrittenClean(ls: seq<SubtitleLine>, k: nat)
    requires k <= |ls| && LinesClean(ls)
    ensures Clean(WrittenPieces(ls, k))
  {
    var rs := seq(|ls|, i requires 0 <= i < |ls| => RunPieces(ls, i));
    forall i | 0 <= i < k ensures Clean(rs[..k][i]) {
      RunClean(ls, i);
    }
    WrittenRunsJoined(ls, rs, k);
    RunsJoinedClean(rs[..k]);
  }

  /** Between its tags, the body of a cue is exactly the contents of its lines, in order. */
  lemma BodyText(ls: seq<SubtitleLine>)
    ensures ChunkText(BodyPieces(ls)) == Contents(ls)
  {
    WrittenText(ls, |ls|);
    assert ls[..|ls|] == ls;
    var d := DiffPieces(PrevFormat(ls, |ls|), TextFormats.None, AllStyles);
    var e := ColorPieces(PrevColor(ls, |ls|), false);
    DiffPiecesTagsOnly(PrevFormat(ls, |ls|), TextFormats.None, AllStyles);
    ColorPiecesRender(PrevColor(ls, |ls|), false);
    assert ClosingPieces(ls) == d + e;
    RenderAppend(d, e);
    RenderAppend(AllWritten(ls), ClosingPieces(ls));
  }

  lemma BodyClean(ls: seq<SubtitleLine>)
    requires LinesClean(ls)
    ensures Clean(BodyPieces(ls))
  {
    WrittenClean(ls, |ls|);
    assert Free(PrevColor(ls, |ls|), Delimiters) by {
      if ls != [] {
        assert LineFree(ls[|ls| - 1]);
      }
    }
    ClosingClean(ls);
    CleanAppend(AllWritten(ls), ClosingPieces(ls));
  }

  /** The closing tags hold no stray bracket when the last colour holds none. */
  lemma ClosingClean(ls: seq<SubtitleLine>)
    requires Free(PrevColor(ls, |ls|), Delimiters)
    ensures Clean(ClosingPieces(ls))
  {
    var d := DiffPieces(PrevFormat(ls, |ls|), TextFormats.None, AllStyles);
    var e := ColorPieces(PrevColor(ls, |ls|), false);
    DiffPiecesTagsOnly(PrevFormat(ls, |ls|), TextFormats.None, AllStyles);
    ColorPiecesRender(PrevColor(ls, |ls|), false);
    assert ClosingPieces(ls) == d + e;
    CleanAppend(d, e);
  }

  /**
   * Reading the tags back out of the SRT body of a cue leaves the contents
   * of its lines, in order: the serialiser only interleaves tags.
   */
  lemma BodyOutsideTags(ls: seq<SubtitleLine>)
    requires LinesClean(ls)
    ensures OutsideTags(Render(BodyPieces(ls))) == Contents(ls)
  {
    BodyText(ls);
    BodyClean(ls);
    OutsideTagsOfRender(BodyPieces(ls));
  }

  /** A cue with one line is written exactly as SubtitleLine.ToSrtString writes that line. */
  lemma SingleLine(l: SubtitleLine)
    ensures Render(BodyPieces([l])) == l.Srt()
  {
    var ls := [l];
    DiffWithNone(l.format, AllStyles);
    assert ColorChange("", l.color) == ColorPieces(l.color, true);
    assert RunPieces(ls, 0) == ColorPieces(l.color, true) + FormatPieces(l.format, AllStyles, true) + [Chunk(l.content)];
    assert WrittenPieces(ls, 1) == RunPieces(ls, 0);
    assert ClosingPieces(ls) == FormatPieces(l.format, AllStyles, false) + ColorPieces(l.color, false);
    assert BodyPieces(ls) == RunPieces(ls, 0) + ClosingPieces(ls);
    assert BodyPieces(ls) == l.Pieces();
    LineRender(l);
  }

  /** A line with the colour and format of the line before it is written as its bare content. */
  lemma SameStyleRun(ls: seq<SubtitleLine>, i: nat)
    requires 0 < i < |ls|
    requires ls[i].color == ls[i - 1].color && ls[i].format == ls[i - 1].format
    ensures RunPieces(ls, i) == [Chunk(ls[i].content)]
  {
    DiffSame(ls[i].format, AllStyles);
  }

  /**
   * The body of the ForEach lambda in ToSrtString: on a colour change,
   * close the old colour and open the new one; then the format difference
   * and the content. Returns the extended text and the new format and colour.
   */
  method WriteLine(sb: string, format: TextFormat, color: string, l: SubtitleLine)
    returns (sb': string, format': TextFormat, color': string)
    ensures sb' == sb + Render(ColorChange(color, l.color)) + Render(DiffPieces(format, l.format, AllStyles)) + l.content
    ensures format' == l.format && color' == l.color
  {
    var change := "";
    color' := color;
    if l.color != color' {
      if color' != "" {
        change := FontClose;
      }
      color' := l.color;
      if color' != "" {
        change := change + FontOpen(color');
      }
    }
    ColorStep(color, l.color, change);
    var diff := GetSrtDifferentFormatString(format, l.format);
    sb' := sb + change + diff + l.content;
    format' := l.format;
  }

  /**
   * SubtitleItem: Begin, End and Lines are public properties that the
   * parsers, AddLine and the timing operations update in place.
   */
  class SubtitleItem {
    var Begin: Ticks
    var End: Ticks
    var Lines: seq<SubtitleLine>

    /** A new item: both times zero (default TimeSpan), no lines. */
    constructor ()
      ensures Begin == 0 && End == 0 && Lines == []
    {
      Begin, End, Lines := 0, 0, [];
    }

    function Value(): Cue
      reads this
    {
      Cue(Begin, End, Lines)
    }

    /** Text: the contents of the lines, in order, with nothing between them. */
    function Text(): string
      reads this
    {
      Contents(Lines)
    }

    /** Duration: End - Begin; TimeSpan subtraction throws on overflow. */
    function Duration(): (d: Ticks)
      reads this
      requires MinTicks <= End - Begin <= MaxTicks
      ensures Begin + d == End
    {
      End - Begin
    }

    method GetDuration() returns (d: Ticks)
      requires MinTicks <= End - Begin <= MaxTicks
      ensures d == Duration() && Begin + d == End
    {
      d := End - Begin;
    }

    /** AddLine: appends one line and leaves the earlier ones alone. */
    method AddLine(content: string, format: TextFormat, color: string)
      modifies this`Lines
      ensures Lines == old(Lines) + [SubtitleLine(content, format, color)]
      ensures Text() == old(Text()) + content
    {
      Lines := Lines + [SubtitleLine(content, format, color)];
      assert Lines[..|Lines| - 1] == old(Lines);
    }

    /**
     * ToSrtString: the time line, then for each line its colour change,
     * its format difference and its content, then the closing tags.
     */
    method ToSrtString() returns (r: string)
      ensures r == CueSrt(Value())
    {
      var sb := TimeLine(Begin, End);
      ghost var header, lines := sb, Lines;
      var format: TextFormat := TextFormats.None;
      var color := "";
      var k := 0;
      while k < |Lines|
        invariant 0 <= k <= |lines| && lines == Lines
        invariant sb == header + Render(WrittenPieces(lines, k))
        invariant format == PrevFormat(lines, k) && color == PrevColor(lines, k)
      {
        var next;
        next, format, color := WriteLine(sb, format, color, Lines[k]);
        WriteStep(lines, k, header, sb, next);
        sb := next;
        k := k + 1;
      }
      var closing := GetSrtDifferentFormatString(format, TextFormats.None);
      var closeColor := if color != "" then FontClose else "";
      CloseStep(lines, k, header, sb, format, color, closing, closeColor);
      r := sb + closing + closeColor;
    }
  }
}

=== FILE: lines.dfy ===
/**
 * SubtitleLine: one styled run of a cue (a value type in the source, a
 * struct whose fields ToSrtString only reads). A null Color is modelled as
 * the empty string: the source treats both alike.
 */
module Lines {
  import opened Strings
  import opened TextFormats
  import opened SrtMarkup

  /** The open tags of the styles f carries, in the order given. */
  function OpenFormat(f: TextFormat, styles: seq<Style>): string {
    if styles == [] then ""
    else
      var last := styles[|styles| - 1];
      OpenFormat(f, styles[..|styles| - 1]) + (if HasFlag(f, Bit(last)) then OpenTag(last) else "")
  }

  /** The close tags of the styles f carries, in the order given (not reversed). */
  function CloseFormat(f: TextFormat, styles: seq<Style>): string {
    if styles == [] then ""
    else
      var last := styles[|styles| - 1];
      CloseFormat(f, styles[..|styles| - 1]) + (if HasFlag(f, Bit(last)) then CloseTag(last) else "")
  }

  /** The same tags as pieces. */
  function FormatPieces(f: TextFormat, styles: seq<Style>, open: bool): seq<Piece> {
    if styles == [] then []
    else
      var last := styles[|styles| - 1];
      FormatPieces(f, styles[..|styles| - 1], open) + StylePiece(f, last, open)
  }

  /** The piece one style contributes to the tag lists. */
  function StylePiece(f: TextFormat, s: Style, open: bool): seq<Piece> {
    if HasFlag(f, Bit(s)) then [Tag(if open then TagName(s) else CloseName(s))] else []
  }

  lemma StylePieceRender(f: TextFormat, s: Style, open: bool)
    ensures Render(StylePiece(f, s, open)) ==
      if !HasFlag(f, Bit(s)) then "" else if open then OpenTag(s) else CloseTag(s)
    ensures ChunkText(StylePiece(f, s, open)) == ""
    ensures Clean(StylePiece(f, s, open))
  {
    var n := if open then TagName(s) else CloseName(s);
    assert Free(n, Delimiters) by {
      match s
      case Bold =>
      case Italic =>
      case Underline =>
      case Strikethrough =>
    }
    if HasFlag(f, Bit(s)) {
      assert Render([Tag(n)]) == "<" + n + ">" + "";
    }
  }

  /** The style tags as pieces render to the tag lists, carry no text and hold no bracket. */
  lemma {:induction false} FormatPiecesRender(f: TextFormat, styles: seq<Style>, open: bool)
    ensures Render(FormatPieces(f, styles, open)) == if open then OpenFormat(f, styles) else CloseFormat(f, styles)
    ensures ChunkText(FormatPieces(f, styles, open)) == ""
    ensures Clean(FormatPieces(f, styles, open))
  {
    if styles != [] {
      var init, last := styles[..|styles| - 1], styles[|styles| - 1];
      FormatPiecesRender(f, init, open);
      StylePieceRender(f, last, open);
      assert FormatPieces(f, styles, open) == FormatPieces(f, init, open) + StylePiece(f, last, open);
      RenderAppend(FormatPieces(f, init, open), StylePiece(f, last, open));
      CleanAppend(FormatPieces(f, init, open), StylePiece(f, last, open));
    }
  }

  /** The switch of ToSrtString: the open and close tag of a single flag, nothing for None. */
  function SwitchTags(item: TextFormat): (r: (string, string))
    ensures forall s :: item == Bit(s) ==> r == (OpenTag(s), CloseTag(s))
    ensures item == None ==> r == ("", "")
  {
    TagLiterals();
    if item == 1 then ("<b>", "</b>")
    else if item == 2 then ("<i>", "</i>")
    else if item == 4 then ("<u>", "</u>")
    else if item == 8 then ("<s>", "</s>")
    else ("", "")
  }

  lemma TagLiterals()
    ensures OpenTag(Bold) == "<b>" && CloseTag(Bold) == "</b>"
    ensures OpenTag(Italic) == "<i>" && CloseTag(Italic) == "</i>"
    ensures OpenTag(Underline) == "<u>" && CloseTag(Underline) == "</u>"
    ensures OpenTag(Strikethrough) == "<s>" && CloseTag(Strikethrough) == "</s>"
  {
  }

  /** A format with no flag has no tags. */
  lemma {:induction false} NoFlagNoTags(styles: seq<Style>)
    ensures OpenFormat(None, styles) == "" && CloseFormat(None, styles) == ""
  {
    if styles != [] {
      NoFlagNoTags(styles[..|styles| - 1]);
    }
  }

  /** The tags the k-th value of Enum.GetValues contributes to a format's open and close lists. */
  function Visit(f: TextFormat, k: nat): (string, string)
    requires k < |Values|
  {
    if HasFlag(f, Values[k]) then SwitchTags(Values[k]) else ("", "")
  }

  /** The open and close lists once the first k values of Enum.GetValues have been visited. */
  function Visited(f: TextFormat, k: nat): (string, string)
    requires k <= |Values|
  {
    if k == 0 then ("", "")
    else
      var (open, close) := Visited(f, k - 1);
      (open + Visit(f, k - 1).0, close + Visit(f, k - 1).1)
  }

  /** From the second on, the k-th value of Enum.GetValues is the flag of the (k-1)-th style. */
  lemma VisitStyle(f: TextFormat, k: nat)
    requires 1 <= k < |Values|
    ensures Visit(f, k) == (if HasFlag(f, Bit(AllStyles[k - 1])) then (OpenTag(AllStyles[k - 1]), CloseTag(AllStyles[k - 1])) else ("", ""))
  {
    ValuesAscend();
    assert Values[k] == Bit(AllStyles[k - 1]);
  }

  /** Visiting every value of Enum.GetValues lists the tags of the format's styles in declaration order. */
  lemma VisitAll(f: TextFormat)
    ensures Visited(f, |Values|) == (OpenFormat(f, AllStyles), CloseFormat(f, AllStyles))
  {
    var b, i, u, s := Visit(f, 1), Visit(f, 2), Visit(f, 3), Visit(f, 4);
    assert Visit(f, 0) == ("", "");
    assert "" + "" == "";
    assert "" + "" == "" && "" + "<b>" == "<b>" && "" + "</b>" == "</b>";
    assert "<b>" + "<i>" == "<b><i>" && "</b>" + "</i>" == "</b></i>";
    assert "<b><i>" + "" == "<b><i>" && "</b></i>" + "" == "</b></i>";
    assert Visited(f, 1) == ("", "");
    assert Visited(f, 2) == ("" + b.0, "" + b.1);
    assert "" + b.0 == b.0 && "" + b.1 == b.1;
    assert Visited(f, 3) == (b.0 + i.0, b.1 + i.1);
    assert Visited(f, 4) == (b.0 + i.0 + u.0, b.1 + i.1 + u.1);
    assert Visited(f, 5) == (b.0 + i.0 + u.0 + s.0, b.1 + i.1 + u.1 + s.1);
    VisitStyle(f, 1);
    VisitStyle(f, 2);
    VisitStyle(f, 3);
    VisitStyle(f, 4);
    assert AllStyles[..3] == [Bold, Italic, Underline];
    assert AllStyles[..2] == [Bold, Italic];
    assert AllStyles[..1] == [Bold];
    assert AllStyles[..0] == [];
    assert [Bold, Italic, Underline][..2] == [Bold, Italic] && [Bold, Italic][..1] == [Bold] && [Bold][..0] == [];
    assert AllStyles[..4] == AllStyles;
    assert OpenFormat(f, []) == "" && CloseFormat(f, []) == "";
    assert OpenFormat(f, [Bold]) == "" + b.0;
    assert CloseFormat(f, [Bold]) == "" + b.1;
    assert OpenFormat(f, [Bold, Italic]) == b.0 + i.0 && CloseFormat(f, [Bold, Italic]) == b.1 + i.1;
    assert OpenFormat(f, [Bold, Italic, Underline]) == b.0 + i.0 + u.0;
    assert CloseFormat(f, [Bold, Italic, Underline]) == b.1 + i.1 + u.1;
  }

  /**
   * The foreach of SubtitleLine.ToSrtString: when the format is not None,
   * walks Enum.GetValues in order and appends the open and close tag of
   * each flag the format has (None has no case in the switch).
   */
  method FormatTags(format: TextFormat) returns (openFormat: string, closeFormat: string)
    ensures openFormat == OpenFormat(format, AllStyles)
    ensures closeFormat == CloseFormat(format, AllStyles)
  {
    openFormat, closeFormat := "", "";
    if format != 0 {
      var k := 0;
      while k < |Values|
        invariant 0 <= k <= |Values|
        invariant (openFormat, closeFormat) == Visited(format, k)
      {
        var item := Values[k];
        if HasFlag(format, item) {
          var (open, close) := SwitchTags(item);
          openFormat, closeFormat := openFormat + open, closeFormat + close;
        } else {
          assert openFormat + "" == openFormat && closeFormat + "" == closeFormat;
        }
        k := k + 1;
      }
      VisitAll(format);
    } else {
      NoFlagNoTags(AllStyles);
    }
  }

  datatype SubtitleLine = SubtitleLine(content: string, format: TextFormat, color: string)
  {
    /** openColor + openFormat + Content + closeFormat + closeColor. */
    function Srt(): string {
      var openColor := if color != "" then FontOpen(color) else "";
      var closeColor := if color != "" then FontClose else "";
      openColor + OpenFormat(format, AllStyles) + content + CloseFormat(format, AllStyles) + closeColor
    }

    /** The rendering as pieces: colour outermost, then the style tags, then the content. */
    function Pieces(): seq<Piece> {
      ColorPieces(color, true) + FormatPieces(format, AllStyles, true) + [Chunk(content)]
      + FormatPieces(format, AllStyles, false) + ColorPieces(color, false)
    }

    /** ToSrtString: colour outermost, then the format tags, around the content. */
    method ToSrtString() returns (r: string)
      ensures r == Srt()
    {
      var openColor, closeColor := "", "";
      if color != "" {
        openColor := FontOpen(color);
        closeColor := FontClose;
      }
      var openFormat, closeFormat := FormatTags(format);
      r := openColor + openFormat + content + closeFormat + closeColor;
    }
  }

  /** A colour name without brackets gives a colour tag without brackets. */
  lemma ColorTagsFree(color: string)
    requires Free(color, Delimiters)
    ensures Free(FontName(color), Delimiters) && Free(FontCloseName, Delimiters)
  {
    var n := FontName(color);
    forall i | 0 <= i < |n| ensures n[i] !in Delimiters {
      if i < |FontPrefix| {
        assert n[i] == FontPrefix[i];
      } else if i < |FontPrefix| + |color| {
        assert n[i] == color[i - |FontPrefix|];
      }
    }
  }

  /** The colour tags of a line as pieces: the opening one (first) or the closing one (second). */
  function ColorPieces(color: string, open: bool): seq<Piece> {
    if color == "" then [] else if open then [Tag(FontName(color))] else [Tag(FontCloseName)]
  }

  lemma ColorPiecesRender(color: string, open: bool)
    ensures Render(ColorPieces(color, open)) == if color == "" then "" else if open then FontOpen(color) else FontClose
    ensures ChunkText(ColorPieces(color, open)) == ""
    ensures Free(color, Delimiters) ==> Clean(ColorPieces(color, open))
  {
    if color != "" {
      var n := if open then FontName(color) else FontCloseName;
      assert Render([Tag(n)]) == "<" + n + ">" + "";
      if Free(color, Delimiters) {
        ColorTagsFree(color);
      }
    }
  }

  lemma RenderFive(a: seq<Piece>, b: seq<Piece>, c: seq<Piece>, d: seq<Piece>, e: seq<Piece>)
    ensures Render(a + b + c + d + e) == Render(a) + Render(b) + Render(c) + Render(d) + Render(e)
    ensures ChunkText(a + b + c + d + e) == ChunkText(a) + ChunkText(b) + ChunkText(c) + ChunkText(d) + ChunkText(e)
  {
    RenderAppend(a, b);
    RenderAppend(a + b, c);
    RenderAppend(a + b + c, d);
    RenderAppend(a + b + c + d, e);
  }

  /** The pieces of a line render to its SRT text, for any order of the styles. */
  lemma RenderLine(content: string, f: TextFormat, color: string, styles: seq<Style>)
    ensures Render(ColorPieces(color, true) + FormatPieces(f, styles, true) + [Chunk(content)]
                   + FormatPieces(f, styles, false) + ColorPieces(color, false))
         == (if color != "" then FontOpen(color) else "") + OpenFormat(f, styles) + content
            + CloseFormat(f, styles) + (if color != "" then FontClose else "")
  {
    var a, b := ColorPieces(color, true), FormatPieces(f, styles, true);
    var c, d := [Chunk(content)], FormatPieces(f, styles, false);
    var e := ColorPieces(color, false);
    RenderFive(a, b, c, d, e);
    FormatPiecesRender(f, styles, true);
    FormatPiecesRender(f, styles, false);
    ColorPiecesRender(color, true);
    ColorPiecesRender(color, false);
    assert Render(c) == content + "";
    assert Render(c) == content;
    var oc, cc := if color != "" then FontOpen(color) else "", if color != "" then FontClose else "";
    assert Render(a) == oc && Render(e) == cc;
    assert Render(b) == OpenFormat(f, styles) && Render(d) == CloseFormat(f, styles);
  }

  lemma LineRender(l: SubtitleLine)
    ensures Render(l.Pieces()) == l.Srt()
  {
    RenderLine(l.content, l.format, l.color, AllStyles);
  }

  /** The only text among the pieces of a line is its content. */
  lemma LineText(l: SubtitleLine)
    ensures ChunkText(l.Pieces()) == l.content
  {
    var a, b := ColorPieces(l.color, true), FormatPieces(l.format, AllStyles, true);
    var c, d := [Chunk(l.content)], FormatPieces(l.format, AllStyles, false);
    var e := ColorPieces(l.color, false);
    RenderFive(a, b, c, d, e);
    FormatPiecesRender(l.format, AllStyles, true);
    FormatPiecesRender(l.format, AllStyles, false);
    ColorPiecesRender(l.color, true);
    ColorPiecesRender(l.color, false);
    assert ChunkText(c) == l.content + "";
  }

  /** With no bracket in content or colour, the pieces of a line hold none. */
  lemma LineClean(l: SubtitleLine)
    requires Free(l.content, Delimiters) && Free(l.color, Delimiters)
    ensures Clean(l.Pieces())
  {
    var a, b := ColorPieces(l.color, true), FormatPieces(l.format, AllStyles, true);
    var c, d := [Chunk(l.content)], FormatPieces(l.format, AllStyles, false);
    var e := ColorPieces(l.color, false);
    assert l.Pieces() == a + b + c + d + e;
    FormatPiecesRender(l.format, AllStyles, true);
    FormatPiecesRender(l.format, AllStyles, false);
    ColorPiecesRender(l.color, true);
    ColorPiecesRender(l.color, false);
    CleanAppend(a, b);
    CleanAppend(a + b, c);
    CleanAppend(a + b + c, d);
    CleanAppend(a + b + c + d, e);
  }

  /** Reading the tags back out of a line's SRT text leaves exactly its content. */
  lemma LineOutsideTags(l: SubtitleLine)
    requires Free(l.content, Delimiters) && Free(l.color, Delimiters)
    ensures OutsideTags(l.Srt()) == l.content
  {
    LineRender(l);
    LineText(l);
    LineClean(l);
    OutsideTagsOfRender(l.Pieces());
  }

  /** A line with no colour and no format is written as its bare content. */
  lemma LinePlain(l: SubtitleLine)
    requires l.color == "" && l.format == None
    ensures l.Srt() == l.content
  {
    NoFlagNoTags(AllStyles);
  }

  /** The colour tags enclose the format tags: the font tag opens first and closes last. */
  lemma LineColorOutermost(l: SubtitleLine)
    requires l.color != ""
    ensures StartsWith(l.Srt(), FontOpen(l.color))
    ensures EndsWith(l.Srt(), FontClose)
  {
    var middle := OpenFormat(l.format, AllStyles) + l.content + CloseFormat(l.format, AllStyles);
    assert l.Srt() == FontOpen(l.color) + middle + FontClose;
  }

  /**
   * Bold and italic "x" is written `<b><i>x</b></i>`: the close tags come in
   * the same order as the open tags, not nested.
   */
  lemma BoldItalicExample()
    ensures SubtitleLine("x", Bit(Bold) | Bit(Italic), "").Srt() == "<b><i>x</b></i>"
  {
    var f: TextFormat := 3;
    VisitAll(f);
    TagLiterals();
    assert Visit(f, 0) == ("", "") && Visit(f, 1) == ("<b>", "</b>") && Visit(f, 2) == ("<i>", "</i>");
    assert Visit(f, 3) == ("", "") && Visit(f, 4) == ("", "");
    assert "" + "" == "" && "" + "<b>" == "<b>" && "" + "</b>" == "</b>";
    assert "<b>" + "<i>" == "<b><i>" && "</b>" + "</i>" == "</b></i>";
    assert "<b><i>" + "" == "<b><i>" && "</b></i>" + "" == "</b></i>";
    assert Visited(f, 1) == ("", "");
    assert Visited(f, 2) == ("<b>", "</b>");
    assert Visited(f, 3) == ("<b><i>", "</b></i>");
    assert Visited(f, 4) == ("<b><i>", "</b></i>");
    assert Visited(f, 5) == ("<b><i>", "</b></i>");
    NoFlagNoTags([]);
  }
}

=== FILE: parsing.dfy ===
/**
 * What the two readers of Subtitle (TryParseFromSrt, TryParseFromAss) take
 * out of a file, stated on the file's lines. A file is the sequence of
 * lines StreamReader.ReadLine returns; a position p is the index of the next
 * line to read, and reading at the end gives null again and again.
 * TimeSpan.TryParse is a parameter: a function from a token to a time or
 * nothing.
 */
module Parsing {
  import opened Wrappers
  import opened Strings
  import opened SrtMarkup
  import opened Items
  import opened Decompose

  /** TimeSpan.TryParse under one culture: the time a token denotes, if any. */
  type TimeParser = string -> Option<Ticks>

  /** How a reader stops: it returns true or false, or an exception escapes it. */
  datatype Status = Finished | Rejected | Threw

  /** The cues a reader adds, in order, and how it stops. */
  datatype Parse = Parse(cues: seq<Cue>, status: Status)

  /** What a reader makes of one cue's lines: it stops, or it has one more cue. */
  datatype Step = Stop(status: Status) | Emit(cue: Cue)

  /** The position after reading one more line; at the end it stays at the end. */
  function Next(lines: seq<string>, p: nat): (r: nat)
    requires p <= |lines|
    ensures r <= |lines| && (p < |lines| ==> r == p + 1) && (p == |lines| ==> r == p)
  {
    if p < |lines| then p + 1 else |lines|
  }

  /** The cues of prefix, then those of a reader that carries on. */
  function Extend(prefix: seq<Cue>, rest: Parse): Parse {
    Parse(prefix + rest.cues, rest.status)
  }

  /** Extending twice is extending once by both prefixes. */
  lemma ExtendTwice(a: seq<Cue>, b: seq<Cue>, rest: Parse)
    ensures Extend(a, Extend(b, rest)) == Extend(a + b, rest)
  {
    assert a + (b + rest.cues) == (a + b) + rest.cues;
  }

  /** A reader that has added a and then reads c at the front of rest has added a + [c]. */
  lemma ExtendStep(all: Parse, a: seq<Cue>, c: Cue, here: Parse, rest: Parse)
    requires all == Extend(a, here) && here == Extend([c], rest)
    ensures all == Extend(a + [c], rest)
  {
    ExtendTwice(a, [c], rest);
  }

  /* ---------- SRT ---------- */

  const Arrow: string := " --> "

  /** The first line from p on that contains the arrow, |lines| if none does. */
  function ArrowFrom(lines: seq<string>, p: nat): (q: nat)
    requires p <= |lines|
    ensures p <= q <= |lines|
    ensures forall j :: p <= j < q ==> !Contains(lines[j], Arrow)
    ensures q < |lines| ==> Contains(lines[q], Arrow)
    decreases |lines| - p
  {
    if p == |lines| || Contains(lines[p], Arrow) then p else ArrowFrom(lines, p + 1)
  }

  /** The first empty line from p on, |lines| if none is. */
  function BlankFrom(lines: seq<string>, p: nat): (q: nat)
    requires p <= |lines|
    ensures p <= q <= |lines|
    ensures forall j :: p <= j < q ==> lines[j] != ""
    ensures q < |lines| ==> lines[q] == ""
    decreases |lines| - p
  {
    if p == |lines| || lines[p] == "" then p else BlankFrom(lines, p + 1)
  }

  /** The lines, each followed by CRLF. */
  function Joined(ls: seq<string>): string {
    if ls == [] then "" else Joined(ls[..|ls| - 1]) + ls[|ls| - 1] + CRLF
  }

  /** TimeSpan.TryParse with the fr-FR culture, and with the current culture when that fails. */
  function SrtTime(fr: TimeParser, local: TimeParser, s: string): Option<Ticks> {
    if fr(s).Some? then fr(s) else local(s)
  }

  /** The text of the cue whose time line is q: the lines up to the next empty one, line ends trimmed. */
  function SrtCueText(lines: seq<string>, q: nat): string
    requires q < |lines|
  {
    TrimEnd(Joined(lines[q + 1..BlankFrom(lines, q + 1)]), {'\r', '\n'})
  }

  /** Where the reader goes on after the cue whose time line is q: past the empty line that ended it. */
  function AfterCue(lines: seq<string>, q: nat): (r: nat)
    requires q < |lines|
    ensures q < r <= |lines|
  {
    Next(lines, BlankFrom(lines, q + 1))
  }

  /**
   * What TryParseFromSrt makes of the time line q: fewer than three
   * space-separated tokens, or a first or third token that is no time, stop
   * the reader with false; a cue text holding the bare tag `<font color=">`
   * makes FillSrtLines throw; otherwise the cue has those times and the lines
   * FillSrtLines makes of the text below.
   */
  function SrtCue(lines: seq<string>, q: nat, fr: TimeParser, local: TimeParser): Step
    requires q < |lines|
  {
    var tokens := SplitRemoveEmpty(lines[q], ' ');
    if |tokens| < 3 then Stop(Rejected)
    else
      var begin, end := SrtTime(fr, local, tokens[0]), SrtTime(fr, local, tokens[2]);
      if begin.None? || end.None? then Stop(Rejected)
      else
        var text := SrtCueText(lines, q);
        if !SrtSafe(Split(text, Delimiters)) then Stop(Threw)
        else Emit(Cue(begin.value, end.value, SrtLines(text)))
  }

  /**
   * The SRT reader accepts a time line exactly when it splits into three or
   * more tokens whose first and third are times; the cue then carries those
   * times and the lines of the text below. It throws only on an unsafe text.
   */
  lemma SrtCueFields(lines: seq<string>, q: nat, fr: TimeParser, local: TimeParser)
    requires q < |lines|
    ensures var tokens := SplitRemoveEmpty(lines[q], ' ');
      SrtCue(lines, q, fr, local).Emit? <==>
        |tokens| >= 3 && SrtTime(fr, local, tokens[0]).Some? && SrtTime(fr, local, tokens[2]).Some?
        && SrtSafe(Split(SrtCueText(lines, q), Delimiters))
    ensures var tokens := SplitRemoveEmpty(lines[q], ' ');
      SrtCue(lines, q, fr, local).Emit? ==>
        SrtTime(fr, local, tokens[0]) == Some(SrtCue(lines, q, fr, local).cue.begin)
        && SrtTime(fr, local, tokens[2]) == Some(SrtCue(lines, q, fr, local).cue.end)
        && SrtCue(lines, q, fr, local).cue.lines == SrtLines(SrtCueText(lines, q))
    ensures SrtCue(lines, q, fr, local) != Stop(Finished)
    ensures SrtCue(lines, q, fr, local) == Stop(Threw) ==> !SrtSafe(Split(SrtCueText(lines, q), Delimiters))
  {
  }

  /** What the body of TryParseFromSrt's loop makes of the time line at an index. */
  type TimeLineReader = nat -> Step

  /** The body of TryParseFromSrt's loop on this file, with these time parsers. */
  function SrtReader(lines: seq<string>, fr: TimeParser, local: TimeParser): TimeLineReader {
    (q: nat) => if q < |lines| then SrtCue(lines, q, fr, local) else Stop(Finished)
  }

  /**
   * TryParseFromSrt from position p: stop normally at the end of the file or
   * when no time line is left; otherwise take what read makes of the next
   * time line and, if it is a cue, go on after its text.
   */
  function ParseSrtFrom(lines: seq<string>, p: nat, read: TimeLineReader): (r: Parse)
    requires p <= |lines|
    decreases |lines| - p
  {
    if p == |lines| then Parse([], Finished)
    else
      var q := ArrowFrom(lines, p);
      if q == |lines| then Parse([], Finished)
      else match read(q)
        case Stop(status) => Parse([], status)
        case Emit(c) => Extend([c], ParseSrtFrom(lines, AfterCue(lines, q), read))
  }

  /** TryParseFromSrt on the whole file, with the French and the current-culture time parsers. */
  function ParseSrt(lines: seq<string>, fr: TimeParser, local: TimeParser): Parse {
    ParseSrtFrom(lines, 0, SrtReader(lines, fr, local))
  }

  /** The number of lines from p on that hold the arrow. */
  function ArrowCount(lines: seq<string>, p: nat): nat
    requires p <= |lines|
    decreases |lines| - p
  {
    if p == |lines| then 0 else (if Contains(lines[p], Arrow) then 1 else 0) + ArrowCount(lines, p + 1)
  }

  /** c is the cue the SRT reader makes of the time line q. */
  predicate SrtCueAt(lines: seq<string>, q: nat, read: TimeLineReader, c: Cue) {
    q < |lines| && Contains(lines[q], Arrow) && read(q) == Emit(c)
  }

  /** When the SRT reader adds a cue, it is made of the next time line, and the rest come from after its text. */
  lemma SrtHead(lines: seq<string>, p: nat, read: TimeLineReader)
    requires p <= |lines| && ParseSrtFrom(lines, p, read).cues != []
    ensures p < |lines| && ArrowFrom(lines, p) < |lines|
    ensures SrtCueAt(lines, ArrowFrom(lines, p), read, ParseSrtFrom(lines, p, read).cues[0])
    ensures ParseSrtFrom(lines, p, read).cues ==
      [ParseSrtFrom(lines, p, read).cues[0]] + ParseSrtFrom(lines, AfterCue(lines, ArrowFrom(lines, p)), read).cues
  {
  }

  /** Lines before the next time line hold no arrow, so counting from p or from that line agrees. */
  lemma {:induction false} ArrowCountSkip(lines: seq<string>, p: nat, q: nat)
    requires p <= q <= |lines| && forall j :: p <= j < q ==> !Contains(lines[j], Arrow)
    ensures ArrowCount(lines, p) == ArrowCount(lines, q)
    decreases q - p
  {
    if p < q {
      ArrowCountSkip(lines, p + 1, q);
    }
  }

  /** Counting from a later position counts no more. */
  lemma {:induction false} ArrowCountMono(lines: seq<string>, p: nat, q: nat)
    requires p <= q <= |lines|
    ensures ArrowCount(lines, q) <= ArrowCount(lines, p)
    decreases q - p
  {
    if p < q {
      ArrowCountMono(lines, p + 1, q);
    }
  }

  /** The SRT reader adds no more cues than the file has lines holding the arrow. */
  lemma {:induction false} SrtCount(lines: seq<string>, p: nat, read: TimeLineReader)
    requires p <= |lines|
    ensures |ParseSrtFrom(lines, p, read).cues| <= ArrowCount(lines, p)
    decreases |lines| - p
  {
    if ParseSrtFrom(lines, p, read).cues != [] {
      SrtHead(lines, p, read);
      var q := ArrowFrom(lines, p);
      var next := AfterCue(lines, q);
      SrtCount(lines, next, read);
      ArrowCountSkip(lines, p, q);
      ArrowCountMono(lines, q + 1, next);
    }
  }

  /** Every cue the SRT reader adds is the cue of a time line at or after p. */
  lemma {:induction false} SrtCueOrigin(lines: seq<string>, p: nat, read: TimeLineReader, k: nat)
    requires p <= |lines| && k < |ParseSrtFrom(lines, p, read).cues|
    ensures exists q :: p <= q < |lines| && SrtCueAt(lines, q, read, ParseSrtFrom(lines, p, read).cues[k])
    decreases |lines| - p
  {
    SrtHead(lines, p, read);
    var q := ArrowFrom(lines, p);
    var next := AfterCue(lines, q);
    if k == 0 {
      assert SrtCueAt(lines, q, read, ParseSrtFrom(lines, p, read).cues[k]);
    } else {
      SrtCueOrigin(lines, next, read, k - 1);
      var q' :| next <= q' < |lines| && SrtCueAt(lines, q', read, ParseSrtFrom(lines, next, read).cues[k - 1]);
      assert SrtCueAt(lines, q', read, ParseSrtFrom(lines, p, read).cues[k]);
    }
  }

  /** A file without a time line gives no cues, and the SRT reader stops normally. */
  lemma NoArrowNoCues(lines: seq<string>, fr: TimeParser, local: TimeParser)
    requires forall j :: 0 <= j < |lines| ==> !Contains(lines[j], Arrow)
    ensures ParseSrt(lines, fr, local) == Parse([], Finished)
  {
  }

  /* ---------- ASS ---------- */

  /**
   * StartsWith(header, InvariantCultureIgnoreCase) for a header given in
   * lower case: the line's first characters, lower-cased, are the header.
   */
  predicate Starts(line: string, header: string) {
    |header| <= |line| && ToLower(line[..|header|]) == header
  }

  /** The first line from p on that starts with the header, ignoring case; |lines| if none does. */
  function PrefixFrom(lines: seq<string>, p: nat, prefix: string): (q: nat)
    requires p <= |lines|
    ensures p <= q <= |lines|
    ensures forall j :: p <= j < q ==> !Starts(lines[j], prefix)
    ensures q < |lines| ==> Starts(lines[q], prefix)
    decreases |lines| - p
  {
    if p == |lines| || Starts(lines[p], prefix) then p else PrefixFrom(lines, p + 1, prefix)
  }

  /** The section and line headers TryParseFromAss looks for, in lower case. */
  const EventsHeader: string := "[events]"
  const FormatHeader: string := "format:"
  const DialogueHeader: string := "dialogue:"

  /** A header in lower case tests, with Starts, what StartsWithIgnoreCase tests with the header it lower-cases. */
  lemma StartsLower(line: string, header: string)
    ensures Starts(line, ToLower(header)) <==> StartsWithIgnoreCase(line, header)
  {
  }

  /** The lower-case headers are those of "[Events]", "Format:" and "dialogue:". */
  lemma HeadersLowered()
    ensures ToLower("[Events]") == EventsHeader
    ensures ToLower("Format:") == FormatHeader
    ensures ToLower("dialogue:") == DialogueHeader
  {
    EventsLowered();
    FormatLowered();
    DialogueLowered();
  }

  lemma EventsLowered()
    ensures ToLower("[Events]") == EventsHeader
  {
    var r := ToLower("[Events]");
    assert r[1] == 'e';
  }

  lemma FormatLowered()
    ensures ToLower("Format:") == FormatHeader
  {
    var r := ToLower("Format:");
    assert r[0] == 'f';
  }

  lemma DialogueLowered()
    ensures ToLower("dialogue:") == DialogueHeader
  {
    var r := ToLower("dialogue:");
    assert r[0] == 'd';
  }

  /** The ASS line breaks \N and \n become CRLF. */
  function AssText(s: string): string {
    Replace(Replace(s, "\\N", CRLF), "\\n", CRLF)
  }

  /**
   * What TryParseFromAss makes of one dialogue line: split on ',' into at
   * most number fields; fewer fields, or a second or third field that is no
   * time, stop the reader with false; with a format line of one or two fields
   * the index of the second or third field throws. The last field is the text.
   */
  function Dialogue(line: string, number: nat, local: TimeParser): Step
    requires number >= 1
  {
    var tokens := SplitMax(line, ',', number);
    if |tokens| < number then Stop(Rejected)
    else if |tokens| < 2 then Stop(Threw)
    else if local(tokens[1]).None? then Stop(Rejected)
    else if |tokens| < 3 then Stop(Threw)
    else if local(tokens[2]).None? then Stop(Rejected)
    else Emit(Cue(local(tokens[1]).value, local(tokens[2]).value, AssLines(AssText(tokens[|tokens| - 1]))))
  }

  /**
   * A dialogue line gives a cue exactly when it has the declared number of
   * fields, at least three, and its second and third are times; the cue then
   * carries those times and the lines of its last field. A format line of
   * three or more fields never makes it throw.
   */
  lemma DialogueFields(line: string, number: nat, local: TimeParser)
    requires number >= 1
    ensures var tokens := SplitMax(line, ',', number);
      Dialogue(line, number, local).Emit? <==>
        |tokens| == number && number >= 3 && local(tokens[1]).Some? && local(tokens[2]).Some?
    ensures var tokens := SplitMax(line, ',', number);
      Dialogue(line, number, local).Emit? ==>
        local(tokens[1]) == Some(Dialogue(line, number, local).cue.begin)
        && local(tokens[2]) == Some(Dialogue(line, number, local).cue.end)
        && Dialogue(line, number, local).cue.lines == AssLines(AssText(tokens[number - 1]))
    ensures Dialogue(line, number, local) != Stop(Finished)
    ensures Dialogue(line, number, local) == Stop(Threw) ==> number < 3
  {
  }

  /** What the body of a reader's loop makes of one line. */
  type LineReader = string -> Step

  /** The body of TryParseFromAss's dialogue loop, for a format line of number fields. */
  function DialogueReader(number: nat, local: TimeParser): LineReader
    requires number >= 1
  {
    line => Dialogue(line, number, local)
  }

  /**
   * The dialogue loop of TryParseFromAss from position p: it runs while the
   * line starts with "dialogue:", adding the cue read makes of each line.
   */
  function Dialogues(lines: seq<string>, p: nat, read: LineReader): (r: Parse)
    requires p <= |lines|
    decreases |lines| - p
  {
    if p == |lines| || !Starts(lines[p], DialogueHeader) then Parse([], Finished)
    else match read(lines[p])
      case Stop(status) => Parse([], status)
      case Emit(c) => Extend([c], Dialogues(lines, p + 1, read))
  }

  /** The number of fields the format line declares: its comma-separated parts. */
  function FieldCount(line: string): (n: nat)
    ensures n >= 1
  {
    |Split(line, {','})|
  }

  /**
   * TryParseFromAss: skip to the "[Events]" line, then to the "Format:" line
   * after it (none: false), then to the first "dialogue:" line after that,
   * and read dialogues while they last.
   */
  function ParseAss(lines: seq<string>, local: TimeParser): Parse {
    var e := PrefixFrom(lines, 0, EventsHeader);
    var f := PrefixFrom(lines, Next(lines, e), FormatHeader);
    if f == |lines| then Parse([], Rejected)
    else Dialogues(lines, PrefixFrom(lines, Next(lines, f), DialogueHeader), DialogueReader(FieldCount(lines[f]), local))
  }

  /** c is the cue the dialogue loop makes of line p. */
  predicate DialogueCue(lines: seq<string>, p: nat, read: LineReader, c: Cue) {
    p < |lines| && Starts(lines[p], DialogueHeader) && read(lines[p]) == Emit(c)
  }

  /** When the dialogue loop adds a cue, it is made of line p, and the rest come from the lines after it. */
  lemma DialogueHead(lines: seq<string>, p: nat, read: LineReader)
    requires p <= |lines| && Dialogues(lines, p, read).cues != []
    ensures p < |lines| && DialogueCue(lines, p, read, Dialogues(lines, p, read).cues[0])
    ensures Dialogues(lines, p, read).cues == [Dialogues(lines, p, read).cues[0]] + Dialogues(lines, p + 1, read).cues
  {
  }

  /** The dialogue loop adds at most one cue per line from p on. */
  lemma {:induction false} DialogueCount(lines: seq<string>, p: nat, read: LineReader)
    requires p <= |lines|
    ensures |Dialogues(lines, p, read).cues| <= |lines| - p
    decreases |lines| - p
  {
    if p < |lines| {
      DialogueCount(lines, p + 1, read);
    }
  }

  /** The dialogue loop reads consecutive lines from p: its cue k is made of line p + k. */
  lemma {:induction false} DialogueCueAt(lines: seq<string>, p: nat, read: LineReader, k: nat)
    requires p <= |lines| && k < |Dialogues(lines, p, read).cues|
    ensures DialogueCue(lines, p + k, read, Dialogues(lines, p, read).cues[k])
    decreases k
  {
    DialogueHead(lines, p, read);
    if k > 0 {
      DialogueCueAt(lines, p + 1, read, k - 1);
    }
  }

  /**
   * A file with no "Format:" line after an "[Events]" line gives no cues, and
   * the ASS reader returns false: this covers a file without "[Events]", and
   * one whose only "Format:" lines come before it.
   */
  lemma NoFormatRejected(lines: seq<string>, local: TimeParser)
    requires forall e, f :: 0 <= e < f < |lines| && Starts(lines[e], EventsHeader) ==> !Starts(lines[f], FormatHeader)
    ensures ParseAss(lines, local) == Parse([], Rejected)
  {
    var e := PrefixFrom(lines, 0, EventsHeader);
    forall j | Next(lines, e) <= j < |lines|
      ensures !Starts(lines[j], FormatHeader)
    {
      assert e < j && Starts(lines[e], EventsHeader);
    }
  }
}

=== FILE: srtmarkup.dfy ===
/**
 * SRT inline markup as the serialisers write it and FillSrtLines reads it:
 * tags `<name>` between runs of plain text. A rendered string is described
 * by a sequence of pieces; splitting it on '<' and '>' (as FillSrtLines
 * does) gives back the plain texts at even positions and the tag names at
 * odd positions.
 */
module SrtMarkup {
  import opened Strings
  import opened TextFormats

  const Delimiters: set<char> := {'<', '>'}

  /** The literal prefix FillSrtLines looks for in a colour tag. */
  const FontPrefix: string := "font color=\""

  const FontCloseName: string := "/font"

  function TagName(s: Style): string {
    match s
    case Bold => "b"
    case Italic => "i"
    case Underline => "u"
    case Strikethrough => "s"
  }

  function CloseName(s: Style): string {
    "/" + TagName(s)
  }

  function OpenTag(s: Style): string {
    "<" + TagName(s) + ">"
  }

  function CloseTag(s: Style): string {
    "<" + CloseName(s) + ">"
  }

  /** The text between the brackets of `<font color="c">`. */
  function FontName(color: string): string {
    FontPrefix + color + "\""
  }

  function FontOpen(color: string): string {
    "<" + FontName(color) + ">"
  }

  const FontClose: string := "<" + FontCloseName + ">"

  datatype Piece = Tag(name: string) | Chunk(text: string)

  function RenderPiece(p: Piece): string {
    match p
    case Tag(n) => "<" + n + ">"
    case Chunk(t) => t
  }

  function Render(ps: seq<Piece>): string {
    if ps == [] then "" else RenderPiece(ps[0]) + Render(ps[1..])
  }

  /** The plain text of the pieces: their chunks, in order. */
  function ChunkText(ps: seq<Piece>): string {
    if ps == [] then ""
    else (if ps[0].Chunk? then ps[0].text else "") + ChunkText(ps[1..])
  }

  /** The tag name or chunk text of a piece holds no bracket. */
  predicate PieceClean(p: Piece) {
    match p
    case Tag(n) => Free(n, Delimiters)
    case Chunk(t) => Free(t, Delimiters)
  }

  /** No tag name and no chunk contains a bracket. */
  predicate Clean(ps: seq<Piece>) {
    ps == [] || (PieceClean(ps[0]) && Clean(ps[1..]))
  }

  /** The tokens splitting Render(ps) on the brackets yields. */
  function Tokens(ps: seq<Piece>): (r: seq<string>)
    ensures |r| >= 1
  {
    if ps == [] then [""]
    else
      var rest := Tokens(ps[1..]);
      match ps[0]
      case Tag(n) => ["", n] + rest
      case Chunk(t) => [t + rest[0]] + rest[1..]
  }

  /** The tokens at even positions: the text outside the brackets. */
  function Evens(ts: seq<string>): seq<string>
    decreases |ts|
  {
    if ts == [] then []
    else [ts[0]] + (if |ts| >= 2 then Evens(ts[2..]) else [])
  }

  /** One more token is an even one exactly when the tokens so far are even in number. */
  lemma {:induction false} EvensSnoc(ts: seq<string>, t: string)
    ensures Evens(ts + [t]) == Evens(ts) + (if |ts| % 2 == 0 then [t] else [])
    decreases |ts|
  {
    if |ts| >= 2 {
      assert (ts + [t])[0] == ts[0];
      assert (ts + [t])[2..] == ts[2..] + [t];
      EvensSnoc(ts[2..], t);
    } else if |ts| == 1 {
      assert ts + [t] == [ts[0], t];
      assert [ts[0], t][2..] == [];
    } else {
      assert ts + [t] == [t];
    }
  }

  /** The text of s outside its tags. */
  function OutsideTags(s: string): string {
    Concat(Evens(Split(s, Delimiters)))
  }

  lemma {:induction false} ConcatAppend(a: seq<string>, b: seq<string>)
    ensures Concat(a + b) == Concat(a) + Concat(b)
    decreases |a|
  {
    if a == [] {
      assert a + b == b;
    } else {
      assert (a + b)[0] == a[0];
      assert (a + b)[1..] == a[1..] + b;
      ConcatAppend(a[1..], b);
      assert Concat(a + b) == a[0] + Concat(a[1..] + b);
    }
  }

  lemma RenderAppend(a: seq<Piece>, b: seq<Piece>)
    ensures Render(a + b) == Render(a) + Render(b)
    ensures ChunkText(a + b) == ChunkText(a) + ChunkText(b)
  {
    RenderConcat(a, b);
    ChunkConcat(a, b);
  }

  lemma {:induction false} RenderConcat(a: seq<Piece>, b: seq<Piece>)
    ensures Render(a + b) == Render(a) + Render(b)
    decreases |a|
  {
    if a == [] {
      assert a + b == b;
    } else {
      assert (a + b)[1..] == a[1..] + b;
      RenderConcat(a[1..], b);
      assert Render(a + b) == RenderPiece(a[0]) + Render(a[1..] + b);
    }
  }

  lemma {:induction false} ChunkConcat(a: seq<Piece>, b: seq<Piece>)
    ensures ChunkText(a + b) == ChunkText(a) + ChunkText(b)
    decreases |a|
  {
    if a == [] {
      assert a + b == b;
    } else {
      assert (a + b)[1..] == a[1..] + b;
      ChunkConcat(a[1..], b);
      var head := if a[0].Chunk? then a[0].text else "";
      assert ChunkText(a + b) == head + ChunkText(a[1..] + b);
    }
  }

  lemma {:induction false} CleanAppend(a: seq<Piece>, b: seq<Piece>)
    requires Clean(a) && Clean(b)
    ensures Clean(a + b)
    decreases |a|
  {
    if a == [] {
      assert a + b == b;
    } else {
      assert (a + b)[1..] == a[1..] + b;
      CleanAppend(a[1..], b);
    }
  }


  /** A tag opens an odd token holding its name and an empty even one. */
  lemma SplitTag(n: string, rest: string)
    requires Free(n, Delimiters)
    ensures Split("<" + n + ">" + rest, Delimiters) == ["", n] + Split(rest, Delimiters)
  {
    var s := "<" + n + ">" + rest;
    assert s[0] == '<' && s[1..] == n + (['>'] + rest);
    SplitGlue(n, ['>'] + rest, Delimiters);
    assert (['>'] + rest)[1..] == rest;
    var x := Split(['>'] + rest, Delimiters);
    assert x == [""] + Split(rest, Delimiters);
    assert x[0] == "" && x[1..] == Split(rest, Delimiters);
    assert n + x[0] == n;
    assert Split(s[1..], Delimiters) == [n] + Split(rest, Delimiters);
  }


  /** Splitting a rendering on the brackets gives exactly Tokens. */
  lemma {:induction false} SplitRender(ps: seq<Piece>)
    requires Clean(ps)
    ensures Split(Render(ps), Delimiters) == Tokens(ps)
    decreases |ps|
  {
    if ps != [] {
      SplitRender(ps[1..]);
      var rest := Render(ps[1..]);
      assert ps[0] == ps[0];
      match ps[0]
      case Chunk(t) =>
        SplitGlue(t, rest, Delimiters);
      case Tag(n) =>
        assert Render(ps) == "<" + n + ">" + rest;
        SplitTag(n, rest);
    }
  }

  /** The text outside the tags of a rendering is the concatenation of its chunks. */
  lemma {:induction false} EvensOfTokens(ps: seq<Piece>)
    ensures Concat(Evens(Tokens(ps))) == ChunkText(ps)
    decreases |ps|
  {
    if ps != [] {
      EvensOfTokens(ps[1..]);
      var rest := Tokens(ps[1..]);
      match ps[0]
      case Tag(n) =>
        assert (["", n] + rest)[2..] == rest;
      case Chunk(t) =>
        var ts := [t + rest[0]] + rest[1..];
        if |rest| >= 2 {
          assert ts[2..] == rest[2..];
        }
    }
  }

  /** So, for clean pieces, stripping the tags of the rendering leaves the chunks. */
  lemma OutsideTagsOfRender(ps: seq<Piece>)
    requires Clean(ps)
    ensures OutsideTags(Render(ps)) == ChunkText(ps)
  {
    SplitRender(ps);
    EvensOfTokens(ps);
  }
}

=== FILE: strings.dfy ===
/**
 * The handful of .NET string operations the subtitle code relies on
 * (String.Split in its three forms, StartsWith, Contains, Replace, TrimEnd,
 * ToLowerInvariant), restricted to what the parsers and serialisers use.
 * Strings are sequences of UTF-16 code units, modelled as seq<char>.
 */
module Strings {

  const CRLF: string := "\r\n"

  predicate StartsWith(s: string, prefix: string) {
    |prefix| <= |s| && s[..|prefix|] == prefix
  }

  predicate EndsWith(s: string, suffix: string) {
    |suffix| <= |s| && s[|s| - |suffix|..] == suffix
  }

  /** String.Contains: some position of s begins an occurrence of t. */
  predicate Contains(s: string, t: string)
    decreases |s|
  {
    StartsWith(s, t) || (s != [] && Contains(s[1..], t))
  }

  /** Invariant-culture lower casing, restricted to ASCII letters. */
  function ToLowerChar(c: char): char {
    if 'A' <= c <= 'Z' then (c as int + 32) as char else c
  }

  function ToLower(s: string): (r: string)
    ensures |r| == |s|
    ensures forall i :: 0 <= i < |s| ==> r[i] == ToLowerChar(s[i])
  {
    if s == [] then [] else [ToLowerChar(s[0])] + ToLower(s[1..])
  }

  /** StartsWith(prefix, InvariantCultureIgnoreCase), ASCII only. */
  predicate StartsWithIgnoreCase(s: string, prefix: string) {
    |prefix| <= |s| && ToLower(s[..|prefix|]) == ToLower(prefix)
  }

  /** No character of t is one of the delimiters. */
  predicate Free(t: string, delims: set<char>) {
    forall i :: 0 <= i < |t| ==> t[i] !in delims
  }

  /** s with every delimiter character removed. */
  function Without(s: string, delims: set<char>): (r: string)
    ensures |r| <= |s| && Free(r, delims)
  {
    if s == [] then []
    else (if s[0] in delims then [] else [s[0]]) + Without(s[1..], delims)
  }

  function Concat(ss: seq<string>): string {
    if ss == [] then [] else ss[0] + Concat(ss[1..])
  }

  function JoinWith(ss: seq<string>, sep: string): string
    requires ss != []
  {
    if |ss| == 1 then ss[0] else ss[0] + sep + JoinWith(ss[1..], sep)
  }

  /**
   * String.Split(params char[] separator): one token more than there are
   * delimiter characters, empty tokens kept, delimiters dropped.
   */
  function Split(s: string, delims: set<char>): (r: seq<string>)
    ensures |r| >= 1
    decreases |s|
  {
    if s == [] then [""]
    else
      var rest := Split(s[1..], delims);
      if s[0] in delims then [""] + rest
      else [[s[0]] + rest[0]] + rest[1..]
  }

  /**
   * Split drops exactly the delimiters: no token holds one, there is one
   * token more than there are delimiters, and the tokens put together are
   * s without its delimiters.
   */
  lemma {:induction false} SplitTokens(s: string, delims: set<char>)
    ensures forall k :: 0 <= k < |Split(s, delims)| ==> Free(Split(s, delims)[k], delims)
    ensures |Split(s, delims)| == 1 + |s| - |Without(s, delims)|
    ensures Concat(Split(s, delims)) == Without(s, delims)
    decreases |s|
  {
    if s != [] {
      SplitTokens(s[1..], delims);
      var rest := Split(s[1..], delims);
      var r := Split(s, delims);
      if s[0] in delims {
        assert r == [""] + rest;
        assert r[1..] == rest;
      } else {
        assert r == [[s[0]] + rest[0]] + rest[1..];
        assert r[1..] == rest[1..];
        assert Concat(rest) == rest[0] + Concat(rest[1..]);
        forall k | 0 <= k < |r| ensures Free(r[k], delims) {
          if k > 0 { assert r[k] == rest[k]; }
        }
      }
    }
  }

  /** Splitting a delimiter-free prefix onto what follows glues it to the first token. */
  lemma {:induction false} SplitGlue(t: string, rest: string, delims: set<char>)
    requires Free(t, delims)
    ensures Split(t + rest, delims) == [t + Split(rest, delims)[0]] + Split(rest, delims)[1..]
    decreases |t|
  {
    var r := Split(rest, delims);
    if t == [] {
      assert t + rest == rest;
      assert t + r[0] == r[0];
      assert r == [r[0]] + r[1..];
    } else {
      var s := t + rest;
      assert s[0] == t[0] && s[0] !in delims;
      assert s[1..] == t[1..] + rest;
      SplitGlue(t[1..], rest, delims);
      var r' := Split(s[1..], delims);
      assert r' == [t[1..] + r[0]] + r[1..];
      assert Split(s, delims) == [[s[0]] + r'[0]] + r'[1..];
      assert [t[0]] + (t[1..] + r[0]) == t + r[0];
    }
  }

  /** A delimiter-free string is a single token. */
  lemma SplitFree(t: string, delims: set<char>)
    requires Free(t, delims)
    ensures Split(t, delims) == [t]
  {
    SplitGlue(t, [], delims);
    assert t + [] == t;
  }

  /** A delimiter-free token followed by a delimiter comes off as the first token. */
  lemma SplitAfter(t: string, c: char, rest: string, delims: set<char>)
    requires Free(t, delims) && c in delims
    ensures Split(t + ([c] + rest), delims) == [t] + Split(rest, delims)
  {
    var tail := [c] + rest;
    SplitGlue(t, tail, delims);
    assert tail[0] == c && tail[1..] == rest;
    assert Split(tail, delims) == [""] + Split(rest, delims);
    assert t + "" == t;
  }

  /** The tokens that are not empty, in order. */
  function NonEmpty(ss: seq<string>): (r: seq<string>)
    ensures forall k :: 0 <= k < |r| ==> r[k] != ""
  {
    if ss == [] then []
    else if ss[0] == "" then NonEmpty(ss[1..])
    else [ss[0]] + NonEmpty(ss[1..])
  }

  /** Dropping the empty tokens keeps only tokens of ss and loses no text. */
  lemma {:induction false} NonEmptyKeeps(ss: seq<string>)
    ensures forall t :: t in NonEmpty(ss) ==> t in ss
    ensures Concat(NonEmpty(ss)) == Concat(ss)
    decreases |ss|
  {
    if ss != [] {
      NonEmptyKeeps(ss[1..]);
    }
  }

  /** Dropping the empty tokens distributes over concatenation. */
  lemma {:induction false} NonEmptyAppend(a: seq<string>, b: seq<string>)
    ensures NonEmpty(a + b) == NonEmpty(a) + NonEmpty(b)
    decreases |a|
  {
    if a == [] {
      assert a + b == b;
    } else {
      assert (a + b)[0] == a[0];
      assert (a + b)[1..] == a[1..] + b;
      NonEmptyAppend(a[1..], b);
    }
  }

  /** String.Split(new[] { sep }, StringSplitOptions.RemoveEmptyEntries). */
  function SplitRemoveEmpty(s: string, sep: char): (r: seq<string>)
    ensures forall k :: 0 <= k < |r| ==> r[k] != "" && Free(r[k], {sep})
    ensures Concat(r) == Without(s, {sep})
  {
    var tokens := Split(s, {sep});
    SplitTokens(s, {sep});
    var r := NonEmpty(tokens);
    NonEmptyKeeps(tokens);
    assert forall k :: 0 <= k < |r| ==> Free(r[k], {sep}) by {
      forall k | 0 <= k < |r| ensures Free(r[k], {sep}) {
        assert r[k] in tokens;
        var j :| 0 <= j < |tokens| && tokens[j] == r[k];
      }
    }
    r
  }

  /** An empty string has no tokens once the empty ones are dropped. */
  lemma SplitRemoveEmptyNil(sep: char)
    ensures SplitRemoveEmpty("", sep) == []
  {
  }

  /** A non-empty separator-free string is its own single token. */
  lemma SplitRemoveEmptyOne(t: string, sep: char)
    requires t != "" && Free(t, {sep})
    ensures SplitRemoveEmpty(t, sep) == [t]
  {
    SplitFree(t, {sep});
    assert [t][1..] == [];
    assert NonEmpty([t]) == [t] + NonEmpty([]);
    assert [t] + [] == [t];
  }

  /** A leading separator is skipped. */
  lemma SplitRemoveEmptySkip(sep: char, rest: string)
    ensures SplitRemoveEmpty([sep] + rest, sep) == SplitRemoveEmpty(rest, sep)
  {
    var s := [sep] + rest;
    assert s[0] == sep && s[1..] == rest;
    assert Split(s, {sep}) == [""] + Split(rest, {sep});
    assert ([""] + Split(rest, {sep}))[1..] == Split(rest, {sep});
  }

  /** A non-empty separator-free token followed by a separator comes off as the first token. */
  lemma SplitRemoveEmptyCons(t: string, sep: char, rest: string)
    requires t != "" && Free(t, {sep})
    ensures SplitRemoveEmpty(t + ([sep] + rest), sep) == [t] + SplitRemoveEmpty(rest, sep)
  {
    SplitAfter(t, sep, rest, {sep});
    assert ([t] + Split(rest, {sep}))[1..] == Split(rest, {sep});
  }

  function IndexOf(s: string, c: char): (i: nat)
    ensures i <= |s|
    ensures forall j :: 0 <= j < i ==> s[j] != c
    ensures i < |s| ==> s[i] == c
  {
    if s == [] || s[0] == c then 0 else 1 + IndexOf(s[1..], c)
  }

  /**
   * String.Split(new[] { sep }, count, StringSplitOptions.None): at most
   * count tokens, the last one keeping every remaining separator.
   */
  function SplitMax(s: string, sep: char, count: nat): (r: seq<string>)
    requires count >= 1
    ensures 1 <= |r| <= count
    ensures JoinWith(r, [sep]) == s
    ensures forall k :: 0 <= k < |r| - 1 ==> Free(r[k], {sep})
    ensures |r| < count ==> Free(r[|r| - 1], {sep})
    decreases count
  {
    var i := IndexOf(s, sep);
    if count == 1 || i == |s| then [s]
    else
      var rest := SplitMax(s[i + 1..], sep, count - 1);
      assert s == s[..i] + [sep] + s[i + 1..];
      [s[..i]] + rest
  }

  /** String.Replace(pat, rep): every occurrence, left to right, without overlap. */
  function Replace(s: string, pat: string, rep: string): (r: string)
    requires pat != []
    ensures !Contains(s, pat) ==> r == s
    decreases |s|
  {
    if |s| < |pat| then s
    else if s[..|pat|] == pat then rep + Replace(s[|pat|..], pat, rep)
    else [s[0]] + Replace(s[1..], pat, rep)
  }

  /** String.TrimEnd(chars): the longest prefix not ending in one of chars. */
  function TrimEnd(s: string, chars: set<char>): (r: string)
    ensures |r| <= |s| && r == s[..|r|]
    ensures r == [] || r[|r| - 1] !in chars
    ensures forall i :: |r| <= i < |s| ==> s[i] in chars
  {
    if s == [] || s[|s| - 1] !in chars then s
    else TrimEnd(s[..|s| - 1], chars)
  }
}

=== FILE: subtitletypes.dfy ===
/**
 * Which subtitle format a file name or an extension names
 * (Subtitle.TryGetSubtitleType, GetSubtitleType) and whether an extension
 * is one of the three the library lists (IsSubtitleExtension,
 * CheckExtension). Case folding is ASCII only.
 */
module SubtitleTypes {
  import opened Wrappers
  import opened Strings

  /** The formats a subtitle file can be in. */
  datatype SubtitleType = Ass | Srt | Sub

  /** Why a name was refused: a null extension, or a name of no known format. */
  datatype Refusal = ArgumentNull | NotSupported(name: string)

  /** Subtitle.Extensions, in declaration order. */
  const Extensions: seq<string> := [".ass", ".srt", ".sub"]

  /** The bare name of each format, without its dot. */
  function BareName(t: SubtitleType): string {
    match t
    case Ass => "ass"
    case Srt => "srt"
    case Sub => "sub"
  }

  /** The extension of each format, as Extensions lists it. */
  function ExtensionOf(t: SubtitleType): string {
    match t
    case Ass => ".ass"
    case Srt => ".srt"
    case Sub => ".sub"
  }

  /** Extensions lists the extension of each format, in the order Ass, Srt, Sub. */
  lemma ExtensionsListed()
    ensures |Extensions| == 3
    ensures Extensions[0] == ExtensionOf(Ass) && Extensions[1] == ExtensionOf(Srt) && Extensions[2] == ExtensionOf(Sub)
  {
  }

  /** An extension is a dot and the bare name, and both are already lower case. */
  lemma NameShapes(t: SubtitleType)
    ensures ExtensionOf(t) == "." + BareName(t)
    ensures ToLower(BareName(t)) == BareName(t)
    ensures ToLower(ExtensionOf(t)) == ExtensionOf(t)
  {
    match t
    case Ass =>
    case Srt =>
    case Sub =>
  }

  /** The order in which TryGetSubtitleType tries the formats. */
  function Rank(t: SubtitleType): nat {
    match t
    case Ass => 0
    case Srt => 1
    case Sub => 2
  }

  /** A name names format t: in lower case it is the bare name or ends with the extension. */
  predicate Names(name: string, t: SubtitleType) {
    var s := ToLower(name);
    s == BareName(t) || EndsWith(s, ExtensionOf(t))
  }

  /**
   * TryGetSubtitleType: the first format, in the order Ass, Srt, Sub, that
   * the lower-cased name names; None (the out value 0 and false) if none.
   */
  function TryGetSubtitleType(fileOrExtension: string): (r: Option<SubtitleType>)
    ensures r.Some? ==> Names(fileOrExtension, r.value)
    ensures r.Some? ==> forall t :: Rank(t) < Rank(r.value) ==> !Names(fileOrExtension, t)
    ensures r.None? ==> forall t :: !Names(fileOrExtension, t)
  {
    if Names(fileOrExtension, Ass) then Some(Ass)
    else if Names(fileOrExtension, Srt) then Some(Srt)
    else if Names(fileOrExtension, Sub) then Some(Sub)
    else None
  }

  /** GetSubtitleType: the format TryGetSubtitleType finds, NotSupportedException otherwise. */
  function GetSubtitleType(fileOrExtension: string): (r: Result<SubtitleType, Refusal>)
    ensures r.Success? <==> TryGetSubtitleType(fileOrExtension).Some?
    ensures r.Success? ==> Names(fileOrExtension, r.value)
    ensures r.Failure? ==> r.error == NotSupported(fileOrExtension)
  {
    match TryGetSubtitleType(fileOrExtension)
    case Some(t) => Success(t)
    case None => Failure(NotSupported(fileOrExtension))
  }

  /** CheckExtension: refuse null, and put a dot in front of an extension that lacks one. */
  function CheckExtension(extension: Option<string>): (r: Result<string, Refusal>)
    ensures extension.None? <==> r.Failure?
    ensures r.Failure? ==> r.error == ArgumentNull
    ensures r.Success? ==> StartsWith(r.value, ".")
    ensures r.Success? && StartsWith(extension.value, ".") ==> r.value == extension.value
    ensures r.Success? && !StartsWith(extension.value, ".") ==> r.value == "." + extension.value
  {
    match extension
    case None => Failure(ArgumentNull)
    case Some(e) => if StartsWith(e, ".") then Success(e) else Success("." + e)
  }

  /** String.Equals(a, b, InvariantCultureIgnoreCase), ASCII only. */
  predicate EqualsIgnoreCase(a: string, b: string) {
    ToLower(a) == ToLower(b)
  }

  /**
   * IsSubtitleExtension: after CheckExtension, whether the extension equals
   * one of Extensions ignoring case.
   */
  function IsSubtitleExtension(extension: Option<string>): (r: Result<bool, Refusal>)
    ensures extension.None? <==> r.Failure?
    ensures r.Success? ==> (r.value <==> exists t :: EqualsIgnoreCase(CheckExtension(extension).value, ExtensionOf(t)))
  {
    match CheckExtension(extension)
    case Failure(e) => Failure(e)
    case Success(e) =>
      var known := exists k :: 0 <= k < |Extensions| && EqualsIgnoreCase(e, Extensions[k]);
      assert known <==> exists t :: EqualsIgnoreCase(e, ExtensionOf(t)) by {
        ExtensionsListed();
        if known {
          var k :| 0 <= k < |Extensions| && EqualsIgnoreCase(e, Extensions[k]);
          assert k == 0 || k == 1 || k == 2;
        }
      }
      Success(known)
  }

  /** Lower-casing twice is lower-casing once. */
  lemma {:induction false} ToLowerTwice(s: string)
    ensures ToLower(ToLower(s)) == ToLower(s)
  {
    if s != [] {
      ToLowerTwice(s[1..]);
    }
  }

  /** Lower-casing distributes over concatenation. */
  lemma ToLowerAppend(a: string, b: string)
    ensures ToLower(a + b) == ToLower(a) + ToLower(b)
  {
  }

  /** The format found does not depend on the case of the name. */
  lemma TypeIgnoresCase(name: string)
    ensures TryGetSubtitleType(ToLower(name)) == TryGetSubtitleType(name)
  {
    ToLowerTwice(name);
  }

  /** Any file name followed by a format's extension, in any case, resolves to that format. */
  lemma FileType(file: string, ext: string, t: SubtitleType)
    requires ToLower(ext) == ExtensionOf(t)
    ensures TryGetSubtitleType(file + ext) == Some(t)
  {
    ToLowerAppend(file, ext);
    var s := ToLower(file + ext);
    var x := ExtensionOf(t);
    assert s == ToLower(file) + x;
    assert s[|s| - 4..] == x;
    assert Names(file + ext, t);
    forall u | u != t
      ensures !Names(file + ext, u)
    {
      ExtensionsDiffer(s, t, u);
    }
  }

  /** A name ending with one format's extension does not end with another's. */
  lemma ExtensionsDiffer(s: string, t: SubtitleType, u: SubtitleType)
    requires t != u && EndsWith(s, ExtensionOf(t))
    ensures !EndsWith(s, ExtensionOf(u)) && s != BareName(u)
  {
    assert |s| >= 4 > |BareName(u)|;
    assert ExtensionOf(t)[1..] != ExtensionOf(u)[1..] by {
      match t
      case Ass =>
      case Srt =>
      case Sub =>
    }
  }

  /** A string ends with itself. */
  lemma EndsWithSelf(s: string)
    ensures EndsWith(s, s)
  {
    assert s[|s| - |s|..] == s;
  }

  /** Lower-casing a dotted name lower-cases what follows the dot. */
  lemma ToLowerDotted(e: string)
    ensures ToLower("." + e) == "." + ToLower(e)
  {
    ToLowerAppend(".", e);
  }

  /** Every extension IsSubtitleExtension accepts names a format TryGetSubtitleType resolves. */
  lemma AcceptedExtensionsResolve(extension: string)
    requires IsSubtitleExtension(Some(extension)) == Success(true)
    ensures TryGetSubtitleType(extension).Some?
  {
    var e := CheckExtension(Some(extension)).value;
    var t :| EqualsIgnoreCase(e, ExtensionOf(t));
    var x := ExtensionOf(t);
    NameShapes(t);
    assert ToLower(e) == x;
    if e == extension {
      EndsWithSelf(x);
      assert EndsWith(ToLower(extension), x);
    } else {
      ToLowerAppend(".", extension);
      var lower := ToLower(extension);
      assert "." + lower == "." + BareName(t);
      assert ("." + lower)[1..] == lower;
      assert lower == BareName(t);
    }
    assert Names(extension, t);
  }

  /** The extension CheckExtension gives lower-cases to the format's extension. */
  lemma CheckedLower(t: SubtitleType, ext: string)
    requires ToLower(ext) == ExtensionOf(t) || ToLower(ext) == BareName(t)
    ensures ToLower(CheckExtension(Some(ext)).value) == ExtensionOf(t)
  {
    NameShapes(t);
    if ToLower(ext) == ExtensionOf(t) {
      assert ToLowerChar(ext[0]) == '.';
      assert StartsWith(ext, ".");
    } else {
      assert ToLowerChar(ext[0]) == BareName(t)[0];
      ToLowerAppend(".", ext);
    }
  }

  /** Each listed extension, with or without its dot and in any case, is accepted. */
  lemma ListedExtensionsAccepted(t: SubtitleType, ext: string)
    requires ToLower(ext) == ExtensionOf(t) || ToLower(ext) == BareName(t)
    ensures IsSubtitleExtension(Some(ext)) == Success(true)
  {
    CheckedLower(t, ext);
    NameShapes(t);
    assert EqualsIgnoreCase(CheckExtension(Some(ext)).value, ExtensionOf(t));
  }
}

=== FILE: textformats.dfy ===
/**
 * TextFormat: a [Flags] enum over byte with None = 0 and four single-bit
 * styles. The model keeps the byte (bv8) so that the bitwise complement
 * the SRT serialiser uses as a "close" code is represented exactly, and
 * gives the set-of-styles reading of a format beside it.
 */
module TextFormats {

  type TextFormat = bv8

  const None: TextFormat := 0

  datatype Style = Bold | Italic | Underline | Strikethrough

  /** The styles in declaration order. */
  const AllStyles: seq<Style> := [Bold, Italic, Underline, Strikethrough]

  /** The value each enum member is declared with. */
  function Bit(s: Style): TextFormat {
    match s
    case Bold => 1
    case Italic => 2
    case Underline => 4
    case Strikethrough => 8
  }

  lemma StyleListed(s: Style)
    ensures s in AllStyles
  {
    match s
    case Bold => assert AllStyles[0] == s;
    case Italic => assert AllStyles[1] == s;
    case Underline => assert AllStyles[2] == s;
    case Strikethrough => assert AllStyles[3] == s;
  }

  /** What Enum.GetValues(typeof(TextFormat)) yields: the members sorted by value. */
  const Values: seq<TextFormat> := [None, 1, 2, 4, 8]

  /** Enum.HasFlag: every bit of flag is set in f. */
  predicate HasFlag(f: TextFormat, flag: TextFormat) {
    f & flag == flag
  }

  /** The styles a format carries. Bits above the four flags carry none. */
  function Styles(f: TextFormat): set<Style> {
    set s | s in AllStyles && HasFlag(f, Bit(s))
  }

  /** The format carrying exactly the given styles. */
  function FromStyles(ss: set<Style>): (f: TextFormat)
    ensures f < 16
    ensures Styles(f) == ss
  {
    var f: TextFormat := (if Bold in ss then 1 else 0) | (if Italic in ss then 2 else 0) |
      (if Underline in ss then 4 else 0) | (if Strikethrough in ss then 8 else 0);
    assert forall s :: s in Styles(f) <==> s in ss by {
      forall s ensures s in Styles(f) <==> s in ss {
        StyleListed(s);
      }
    }
    f
  }

  /** `format |= flag`. */
  function Set(f: TextFormat, s: Style): (r: TextFormat)
    ensures Styles(r) == Styles(f) + {s}
    ensures r & 0xF0 == f & 0xF0
  {
    f | Bit(s)
  }

  /** `if (format.HasFlag(flag)) format &= ~flag`. */
  function Clear(f: TextFormat, s: Style): (r: TextFormat)
    ensures Styles(r) == Styles(f) - {s}
    ensures r & 0xF0 == f & 0xF0
  {
    if HasFlag(f, Bit(s)) then f & !Bit(s) else f
  }

  /** The four flags are distinct single bits below 16. */
  lemma FlagsAreSingleBits(s: Style, t: Style)
    ensures 0 < Bit(s) < 16 && Bit(s) & (Bit(s) - 1) == 0
    ensures s != t ==> Bit(s) & Bit(t) == 0
  {
  }

  /** So a format below 16 is exactly a subset of the four styles. */
  lemma {:induction false} FormatIsStyleSet(f: TextFormat)
    requires f < 16
    ensures FromStyles(Styles(f)) == f
  {
    assert Bold in Styles(f) <==> f & 1 == 1;
    assert Italic in Styles(f) <==> f & 2 == 2;
    assert Underline in Styles(f) <==> f & 4 == 4;
    assert Strikethrough in Styles(f) <==> f & 8 == 8;
  }

  /** None is 0, so HasFlag(None) holds of every format. */
  lemma NoneAlwaysPresent(f: TextFormat)
    ensures HasFlag(f, None)
    ensures Styles(None) == {}
  {
  }

  /** Enum.GetValues yields None, Bold, Italic, Underline, Strikethrough, ascending. */
  lemma ValuesAscend()
    ensures forall i, j :: 0 <= i < j < |Values| ==> Values[i] < Values[j]
    ensures Values == [None] + [Bit(Bold), Bit(Italic), Bit(Underline), Bit(Strikethrough)]
  {
  }

  /** ~flag lies outside 0..15, so no "close" code equals any set of flags. */
  lemma ComplementIsNoFormat(s: Style, f: TextFormat)
    requires f < 16
    ensures !Bit(s) >= 16 && !Bit(s) != f
    ensures forall t :: !Bit(s) != Bit(t)
  {
  }
}

=== FILE: wrappers.dfy ===
/** Option and Result, standing in for C#'s null references and thrown exceptions. */
module Wrappers {

  datatype Option<+T> = None | Some(value: T)

  datatype Result<+T, +E> = Success(value: T) | Failure(error: E)
}
